=== FILE: README.md ===
# laundryApp decision rules in Dafny

laundryApp is a React dashboard for laundry power and water meters ("Volt"
devices). Its logic sits inside event handlers and effects, between a REST
API, a realtime database and the browser's `localStorage`. This project
lifts that logic into pure Dafny functions. Every network reply, storage
read, clock reading, confirmation dialog and notification permission becomes
an explicit argument. The model covers:

- the anomaly-notification watcher, which polls the device log, notifies
  each anomalous entry once and persists a "sent" map of log ids;
- the unread badge of the sidebar and the dashboard header, which compares
  the highest visible log id with the stored `lastSeenNotifId`, and the bell
  that overwrites that marker;
- the dashboard's voltage, flow and connection classifiers, its device
  filter and its field labels;
- the bounded chart histories:
  - the calibration page's 50-point buffer;
  - the device detail page's two 20-point histories, which move in step;
  - the voltage monitor's three 10-entry histories;
- the chart axis ranges;
- the history filters, the page counts and the previous/next controls of
  the paged lists;
- the user and device lists with their role and status filters;
- the user and device forms, with their submit guards and error handling;
- login (which session keys are written) and registration.

JavaScript semantics that the rules depend on are written out in module
`Js`:

- truthiness and `||` fallbacks;
- strict equality against `Number()` coercion;
- NaN, modelled as `Num.NaN`, with readings as `Option<real>`;
- `parseInt` and `Number` on decimal strings with an optional sign, with
  `String(i)` round trips;
- `includes`, `trim` with ECMAScript's full white-space set, ASCII
  `toLowerCase`, and `Math.ceil` of a quotient.

Modules follow the source files:

| module | source |
|---|---|
| `NotificationWatcher` | `components/NotificationWatcher.jsx` |
| `Sidebar` and `UnreadBadge` | `components/Sidebar.jsx`, plus the dashboard's copy of the badge |
| `Dashboard` | `pages/Dashboard.jsx` |
| `Calibration` | `pages/KalibrasiPerangkat.jsx` |
| `DeviceDetail` | `pages/crud_perangkat/detail_perangkat.jsx` |
| `VoltageMonitor` | `pages/Tegangan.jsx` |
| `HistoryFilter` | `pages/DetailRiwayat.jsx` |
| `NotificationHistory` | `pages/RiwayatNotifikasi.jsx` |
| `DeviceLists` | `pages/Perangkat.jsx` and `pages/Riwayat.jsx` |
| `UserLists` | `pages/user.jsx` and `pages/crud_user/UserNonaktif.jsx` |
| `UserForms` | `pages/crud_user/UserEdit.jsx` and `pages/crud_user/UserTambah.jsx` |
| `DeviceForm` | `pages/crud_perangkat/tambah_perangkat.jsx` |
| `Auth` | `pages/LoginPage.jsx` and `pages/RegisterPage.jsx` |

Shared modules:

- `Api`: reply shapes and storage keys;
- `Paging`: page counts and page controls;
- `Window`: sliding windows;
- `Readings`: voltage points;
- `Lists`: `Array.prototype.filter`.

## Behaviour worth knowing

The model keeps these behaviours of the code as they are:

- **A device lookup that throws aborts the whole batch, not just its entry.**
  - In the watcher, the rejected `fetch` is caught by the outer `try`. The
    marks already made stay in memory, and the write to storage is skipped.
  - In the sidebar and dashboard checks, one rejection fails the whole
    `Promise.all`, and the badge is left as it was.
  - Only a lookup that answers not-ok is skipped per entry. The sidebar and
    dashboard read that answer's body anyway.
- **A string `result` counts as a completed batch in the watcher.** Its
  for-of walks the characters, none of which carries an id or a message,
  so the tick writes the in-memory map to storage. The list pages call
  `.map` or `.filter` on the same value, which throws.
- **The sent map is written back after every completed batch,** whether or
  not it changed. Ids are marked even when notification permission is
  denied.
- **The dashboard's unread test differs from the sidebar's.** The dashboard
  asks whether some id exceeds the marker. The sidebar asks whether the
  highest id exceeds it. The two agree only for a marker of 0 or more.
- **Ownership tests differ between pages.**
  - The watcher and the device lists compare `user_id` strictly.
  - The dashboard and the badge compare after `Number()`, so an id stored
    as the string "5" matches user 5 there and not on the device list.
- **The sidebar and the dashboard derive the viewer differently.**
  - The sidebar lowercases the stored user's role and reads the id with
    `Number()`, so a missing id reads as 0.
  - The dashboard, the watcher and the device lists read the raw `role`
    key, and a missing id reads as NaN through `parseInt`.
  - So a role stored as "Karyawan" restricts the sidebar's badge to the
    user's own devices, but not the dashboard's badge, the watcher or the
    device list. The device list also offers that user the edit, delete,
    calibrate and add actions. The token copy button is shown to every role.
- **The watcher keeps polling after a logged-out load.** The call that
  mounting makes checks the session before the 30-second interval is
  assigned, so its `clearInterval` clears nothing. A user who logs in within
  the first 30 seconds is watched. Only later logged-out ticks, and a 401 on
  any tick, stop the timer.
- **A successful calibration switch-off sends the switch-off twice.** The
  page's cleanup runs whenever the running flag or the device token changes,
  with the values from before the change, and not only on leaving the page.

## Model

| member | source | states |
|---|---|---|
| NotificationWatcher.Mark | src/components/NotificationWatcher.jsx:83 | marking ids sets exactly those flags to true; every other entry of the map keeps its flag |
| NotificationWatcher.IsAnomalyIffMarker | src/components/NotificationWatcher.jsx:48-50 | an entry is an anomaly exactly when its status message contains the warning sign or the cross mark at some offset |
| NotificationWatcher.ReadSession | src/components/NotificationWatcher.jsx:18-20 | the watcher sees the stored token and role as they are; a missing user id reads as NaN |
| NotificationWatcher.Title | src/components/NotificationWatcher.jsx:70 | the title is the device's name when it has a nonempty one, otherwise "Perangkat ID " followed by the volt id |
| NotificationWatcher.Judge | src/components/NotificationWatcher.jsx:46-70 | an entry is delivered exactly when it is not yet sent, is an anomaly, its device answers ok, and the restricted role owns it strictly; the batch aborts exactly on an unsent anomaly whose lookup threw |
| NotificationWatcher.RunBatch | src/components/NotificationWatcher.jsx:45-84 | over one batch the map only grows and only by true flags; each notification is for an id unsent before and sent after, no id is notified twice even when it repeats in the batch, and nothing is shown without permission |
| NotificationWatcher.RunBatchMarksExactly | src/components/NotificationWatcher.jsx:45-84 | a batch that completes leaves the old map plus exactly the ids of the qualifying entries, with or without permission |
| NotificationWatcher.RunBatchMarksOnlyQualifying | src/components/NotificationWatcher.jsx:59-83 | completed or not, a batch never marks a non-anomaly, an entry whose device answered not ok, or a device the restricted user does not own, so those are reconsidered next tick |
| NotificationWatcher.RunBatchShowsExactly | src/components/NotificationWatcher.jsx:72-83 | with permission, a completed batch notifies exactly the qualifying ids that were not already sent |
| NotificationWatcher.Mount | src/components/NotificationWatcher.jsx:12-15 | mounting loads the stored map into memory unchanged |
| NotificationWatcher.Tick | src/components/NotificationWatcher.jsx:17-96 | a missing token, role or user id changes nothing and stops the timer, except on the call mounting makes, which runs before the interval is assigned; a 401 stops the timer and changes nothing; any other failure keeps polling and changes nothing; a `result` that is a string is iterated without yielding a record, so the tick shows nothing and writes memory to storage, while any other non-array `result` throws and changes nothing; storage is untouched or receives the whole memory map; nothing marked is ever unmarked; storage never holds a mark that memory lacks |
| NotificationWatcher.TickAddsExactlyQualifying | src/components/NotificationWatcher.jsx:72-89 | when no anomalous entry's lookup throws, a successful tick writes back the old map plus exactly the qualifying ids |
| NotificationWatcher.NoAbortWithoutUnreachable | src/components/NotificationWatcher.jsx:52-57 | a batch aborts only if the lookup of some anomalous entry throws |
| NotificationWatcher.RunTicks | src/components/NotificationWatcher.jsx:94-96 | over the ticks of one mount, each log id is notified at most once, only if it was unsent at the start, and it stays marked; a logged-out first call changes nothing and the interval runs on |
| NotificationWatcher.RunInterval | src/components/NotificationWatcher.jsx:22-26 | over the interval's ticks, each log id is notified at most once, only if it was unsent at the start, and it stays marked; the run ends at the first tick that stops the timer |
| NotificationWatcher.LoginAfterLoggedOutLoadNotifies | src/components/NotificationWatcher.jsx:22-26 | after a logged-out load, a login before the first interval tick gets a warning entry of the user's device notified and stored as sent |
| NotificationWatcher.SecondPollIsSilent | src/components/NotificationWatcher.jsx:45-89 | from an empty map, a poll of an "OK" entry and a warning entry notifies the warning once and stores {2: true}; the same poll again notifies nothing and changes nothing |
| NotificationWatcher.ReloadAfterAbortedTickRepeats | src/components/NotificationWatcher.jsx:86-92 | a tick that notifies and then aborts on an unreachable device writes nothing to storage, so after a reload the same entry is notified again |
| NotificationWatcher.TextReplySavesAbortedTick | src/components/NotificationWatcher.jsx:44-89 | after a batch that notified and then aborted, a tick whose `result` is a string writes the in-memory map to storage, so after a reload the notified entry is not repeated |
| Sidebar.SidebarRole | src/components/Sidebar.jsx:25 | the sidebar's role is the stored user's role in lower case, absent when there is none |
| Sidebar.DesktopMenu | src/components/Sidebar.jsx:44-49 | the desktop menu offers "User" exactly to admins and owners, between "Perangkat" and "Riwayat" |
| Sidebar.AdminMenuInsertsUsers | src/components/Sidebar.jsx:44-49 | every role sees the same menu in the same order, except that admins and owners get "User" as the third entry; every other desktop entry is on the mobile menu too |
| Sidebar.MobileMenu | src/components/Sidebar.jsx:51-56 | the mobile menu has the same four entries for every role, with settings and never "User" |
| Sidebar.AdminCheckIgnoresCase | src/components/Sidebar.jsx:32 | "Admin" and "OWNER" pass the admin-or-owner test; "Karyawan" and no role do not |
| Sidebar.Logout | src/components/Sidebar.jsx:58-67 | a confirmed logout removes exactly the four session keys; without confirmation storage is untouched; no value changes |
| Sidebar.LogoutStopsWatcher | src/components/NotificationWatcher.jsx:23-26 | after a confirmed logout the watcher's next interval tick stops polling, shows nothing and leaves its maps alone |
| UnreadBadge.OwnedLogs | src/components/Sidebar.jsx:83-99 | the restricted user keeps exactly the logs whose device body has a numerically equal owner, and never more logs than it got; any lookup that throws fails the whole filter |
| UnreadBadge.RoleFilter | src/components/Sidebar.jsx:125-141 | other roles keep every log with no lookup; the restricted role gets the owned logs |
| UnreadBadge.MaxIdFrom | src/components/Sidebar.jsx:142 | the fold is at least its start, bounds every id, and is either the start or some log's id |
| UnreadBadge.LatestId | src/components/Sidebar.jsx:100 | the latest id is the maximum log id, and 0 when there are no logs |
| UnreadBadge.MarkerAsNumber | src/components/Sidebar.jsx:143 | the sidebar reads a missing or empty marker as 0 and any other stored text with `Number()` |
| UnreadBadge.MarkerAsParsedInt | src/pages/Dashboard.jsx:134 | the dashboard reads a missing or empty marker as 0 and any other stored text with `parseInt` |
| UnreadBadge.MarkerReadsBack | src/components/Sidebar.jsx:102-143 | a marker the bell stored as the text of an integer reads back as that integer on both pages |
| UnreadBadge.VisibleLogs | src/components/Sidebar.jsx:111-141 | an unreachable or not-ok log request yields no logs; a missing result yields the empty list; a result that is not a list throws; a list result yields the role-filtered list |
| UnreadBadge.SidebarCheck | src/components/Sidebar.jsx:111-149 | the badge shows exactly when the latest visible id exceeds the numeric marker; any failure leaves the badge as it was |
| UnreadBadge.DashboardCheck | src/pages/Dashboard.jsx:120-158 | the flag is set exactly when some visible log's id exceeds the parsed marker; any failure leaves the flag as it was |
| UnreadBadge.BellClick | src/components/Sidebar.jsx:69-108 | the page moves on to the notification history exactly when the click succeeds; on success the marker becomes the latest visible id, the badge clears and nothing else in storage changes; on failure nothing changes |
| UnreadBadge.BellNavigationIsObservable | src/components/Sidebar.jsx:100-104 | with the badge clear and the marker already at the latest id, a successful and a failed click leave the same storage and badge, and only the successful one leaves the page |
| UnreadBadge.BellThenCheckShowsNoBadge | src/components/Sidebar.jsx:100-103 | after a successful bell, re-checking the same logs as the same viewer (role and id) shows no badge by either page's test |
| UnreadBadge.SidebarViewer | src/components/Sidebar.jsx:22-25 | the sidebar's viewer has the lowercased role of the stored user and the `Number()` of the stored id, 0 when it is missing |
| UnreadBadge.DashboardViewer | src/pages/Dashboard.jsx:19-20 | the dashboard's viewer has the raw stored role and the `parseInt` of the stored id, NaN when it is missing |
| UnreadBadge.ViewerIds | src/components/Sidebar.jsx:24 | an id stored as the text of an integer reads as that integer on both pages; a missing id reads as 0 on the sidebar and NaN on the dashboard |
| UnreadBadge.SidebarBellThenCheck | src/components/Sidebar.jsx:69-149 | after the sidebar's own successful bell, its next check on the same logs shows no badge |
| UnreadBadge.DashboardBellThenCheck | src/pages/Dashboard.jsx:120-199 | after the dashboard's own successful bell, its next check on the same logs sets no flag |
| UnreadBadge.KaryawanSpellingSplitsPages | src/pages/Dashboard.jsx:20 | for a user stored with role "Karyawan", the sidebar's bell clears its own badge while the dashboard, which does not restrict that spelling, still sees another user's newer log |
| UnreadBadge.BellCanLowerMarker | src/components/Sidebar.jsx:100-102 | the bell overwrites the marker instead of raising it: with no logs it writes "0" whatever was stored |
| UnreadBadge.DashboardAgreesWithSidebar | src/pages/Dashboard.jsx:149 | for a marker of 0 or more, "some id exceeds the marker" holds exactly when "the latest id exceeds the marker" does |
| UnreadBadge.NegativeMarkerDisagrees | src/components/Sidebar.jsx:143-145 | with a marker of -1 and no logs, the sidebar shows the badge and the dashboard does not |
| UnreadBadge.BadgeExample | src/components/Sidebar.jsx:142-145 | ids 5, 12 and 7 against marker 7 show the badge; after the bell the marker is "12" and the badge is gone |
| Dashboard.VoltageStatus | src/pages/Dashboard.jsx:231-236 | below 342 V is below normal and above 400 V is above normal; everything else, including both bounds and NaN, is normal |
| Dashboard.VoltageStatusMonotone | src/pages/Dashboard.jsx:231-236 | a higher reading is above normal whenever a lower one is, a lower one below normal whenever a higher one is, and the normal readings form one band |
| Dashboard.VoltageBoundsAreNormal | src/pages/Dashboard.jsx:231-236 | 342 V, 400 V and NaN are normal; 341.9 V and 400.1 V are not |
| Dashboard.WindowStart | src/pages/Dashboard.jsx:239-255 | a missing start time opens the window at midnight |
| Dashboard.WindowEnd | src/pages/Dashboard.jsx:239-255 | a missing end time closes the window at 23:59:00.000 |
| Dashboard.FlowStatus | src/pages/Dashboard.jsx:239-255 | outside the operating window is reported before any limit; inside it, only a flow strictly above a readable limit is over it |
| Dashboard.FlowStatusMonotone | src/pages/Dashboard.jsx:239-255 | within one window a larger flow is over the limit whenever a smaller one is, and being out of hours does not depend on the flow or the limit |
| Dashboard.DefaultWindowEndsAt2359 | src/pages/Dashboard.jsx:239-255 | with no times set, out of hours means before midnight or after 86 340 000 ms, so the day's last minute is already out of hours |
| Dashboard.FlowAtLimitIsNormal | src/pages/Dashboard.jsx:239-255 | inside the window, a flow equal to the limit is normal |
| Dashboard.ConnectionLabel | src/pages/Dashboard.jsx:56-63 | a device is labelled connected exactly when its update is less than 30 000 ms old; an unparseable date is never connected |
| Dashboard.ConnectionExpires | src/pages/Dashboard.jsx:56-58 | a device is connected 29 999 ms after its update and not at 30 000 ms, and once stale it stays stale |
| Dashboard.VisibleDevices | src/pages/Dashboard.jsx:40-43 | the restricted role sees exactly the devices whose numeric owner equals its id; other roles see all devices in order |
| Dashboard.StringOwnerIsVisible | src/pages/Dashboard.jsx:40-43 | a device owned by the string "5" is visible to user 5 |
| Dashboard.Cards | src/pages/Dashboard.jsx:45-70 | every visible device gets a card, in order; the card lacks a status exactly when its detail request threw, and otherwise carries its connection label |
| Dashboard.FetchDevices | src/pages/Dashboard.jsx:26-79 | a failed request empties the cards and keeps the page count; success gives one card per visible device, in order, and the page count of the reply's total, one page when it is missing or zero |
| Dashboard.VisibleDevicesAppend | src/pages/Dashboard.jsx:39-42 | the device filter keeps list order: one more device in the list is one more visible device exactly when the viewer may see it |
| Dashboard.CardsShowOwnDevices | src/pages/Dashboard.jsx:26-79 | after a successful list request a restricted user has a card for each own device and for nothing else; other users have a card for every listed device, in order |
| Dashboard.FormatLabel | src/pages/Dashboard.jsx:206-220 | a known field gets its label and any other key is shown as it is |
| Dashboard.FormatLabelKnownExactly | src/pages/Dashboard.jsx:206-220 | a key is shown as it is exactly when it is not one of the ten known fields; two different fields share a label only when they are the same channel of the two groups of three |
| Dashboard.ChannelLabelsRepeat | src/pages/Dashboard.jsx:206-220 | channels 1-3 and 4-6 share the labels rs, st and rt; an unknown key shows as itself |
| Paging.PageCountOrOne | src/pages/Dashboard.jsx:73-74 | a missing or zero total gives one page; otherwise the count is the least whose pages of the limit cover the total |
| Paging.PageCountNoMin | src/pages/Perangkat.jsx:31 | a missing total gives NaN pages, a zero total gives zero pages, and otherwise the least covering count |
| Paging.PageCountFallback | src/pages/RiwayatNotifikasi.jsx:70 | the count is never zero; a missing total gives one page, and a positive total gives the least covering count |
| Paging.PageCountsCompared | src/pages/Dashboard.jsx:73-74 | the three page-count formulas agree on a positive total and differ on a zero or missing total |
| Paging.PrevPage | src/pages/Dashboard.jsx:568 | "previous" never goes below page 1 and steps back one from any later page |
| Paging.NextPage | src/pages/Dashboard.jsx:580 | "next" never passes the page count and steps forward one from any earlier page |
| Paging.ControlsStayInRange | src/pages/DetailRiwayat.jsx:665-676 | from a page in range, both controls keep the page in range |
| Paging.ControlsUndoEachOther | src/pages/Perangkat.jsx:179-190 | next then previous, or previous then next, returns to the page wherever the step was possible |
| Calibration.NewPoint | src/pages/KalibrasiPerangkat.jsx:79-87 | a new point keeps the reply's six readings and its timestamp, falling back to the local time when the timestamp is empty |
| Calibration.FetchVoltage | src/pages/KalibrasiPerangkat.jsx:69-93 | a failed read leaves the buffer alone; a successful one ends with the new point, preceded by the old buffer's newest points in order, within 50 points |
| Calibration.BufferHoldsNewest | src/pages/KalibrasiPerangkat.jsx:89 | whatever reads fail or succeed, the buffer is exactly the newest 50 points ever received, in the order received |
| Calibration.ToggleChannel | src/pages/KalibrasiPerangkat.jsx:135-137 | a checkbox flips its own channel's visibility and no other |
| Calibration.VisibilityStaysComplete | src/pages/KalibrasiPerangkat.jsx:16-18 | all six channels start visible, and toggling never drops a channel from the map |
| Calibration.ToggleTwice | src/pages/KalibrasiPerangkat.jsx:135-137 | toggling the same checkbox twice restores the visibility |
| Calibration.VisibleValuesMembers | src/pages/KalibrasiPerangkat.jsx:150 | a value is among the visible readings exactly when some point carries it on some visible channel |
| Calibration.RangeOf | src/pages/KalibrasiPerangkat.jsx:154-160 | no readings give an automatic axis and a NaN reading gives NaN bounds; otherwise whole-volt bounds lie at least 5 V outside every reading and within 1 V of that margin at the extremes |
| Calibration.VoltageRange | src/pages/KalibrasiPerangkat.jsx:147-161 | the axis is automatic exactly when there is no visible reading, and NaN exactly when a visible reading is NaN; otherwise it encloses every visible reading tightly |
| Calibration.RangeEnclosesVisibleReadings | src/pages/KalibrasiPerangkat.jsx:156-160 | with any point and a visible channel the axis is never automatic; with numeric bounds, every reading on a visible channel lies strictly between them |
| Calibration.HiddenChannelsIgnored | src/pages/KalibrasiPerangkat.jsx:150 | two buffers that agree on the visible channels give the same visible readings, whatever the hidden channels and time labels hold |
| Calibration.RangeIgnoresHiddenChannels | src/pages/KalibrasiPerangkat.jsx:147-161 | hidden channels and time labels never change the axis range |
| Calibration.HandleToggle | src/pages/KalibrasiPerangkat.jsx:102-133 | with no device token nothing is sent and nothing changes; a failed request keeps the mode; success flips it, and switching on starts reading at once |
| Calibration.ToggleTwiceRestores | src/pages/KalibrasiPerangkat.jsx:121-128 | two successful toggles restore the mode, and exactly one of the two starts reading |
| Calibration.LeaveRequestsOff | src/pages/KalibrasiPerangkat.jsx:47-66 | the cleanup sends the switch-off exactly when calibration runs and a device token is known, by the values it was set up with |
| Calibration.LeaveAfterToggle | src/pages/KalibrasiPerangkat.jsx:47-133 | leaving right after a toggle sends the switch-off exactly when there is a token and the toggle left calibration running: a successful switch-on or a failed switch-off |
| Calibration.SwitchOffSendsTwice | src/pages/KalibrasiPerangkat.jsx:47-66 | a successful switch-off is followed by a second switch-off from the cleanup of the running render; a switch-on is not |
| DeviceDetail.FetchDevice | src/pages/crud_perangkat/detail_perangkat.jsx:24-62 | loading ends either way; a failed fetch changes nothing else; success replaces the device and ends both histories with points of the same timestamp, each within 20 points, and keeps the histories in step |
| DeviceDetail.PushInStep | src/pages/crud_perangkat/detail_perangkat.jsx:35-56 | appending one point stamped alike to each history keeps the two the same length with the same time labels |
| DeviceDetail.HistoriesStayInStep | src/pages/crud_perangkat/detail_perangkat.jsx:35-56 | over any series of fetches, the voltage and flow histories keep equal lengths within 20 and the same time label at every position |
| DeviceDetail.InitialIsInStep | src/pages/crud_perangkat/detail_perangkat.jsx:15-16 | the two empty starting histories are in step |
| DeviceDetail.ViewOf | src/pages/crud_perangkat/detail_perangkat.jsx:90-91 | the page shows loading while loading, not found once loaded with no device, and the device otherwise |
| DeviceDetail.FailedFirstFetchIsNotFound | src/pages/crud_perangkat/detail_perangkat.jsx:57-61 | a first fetch that fails shows the not-found view |
| DeviceDetail.PointNumbersMembers | src/pages/crud_perangkat/detail_perangkat.jsx:93-95 | a point contributes exactly its channels' numeric readings |
| DeviceDetail.AllVoltagesMembers | src/pages/crud_perangkat/detail_perangkat.jsx:93-95 | a number is among the chart's readings exactly when some point reads it on some channel, NaN dropped |
| DeviceDetail.AxisBounds | src/pages/crud_perangkat/detail_perangkat.jsx:122-127 | with no numeric reading the bounds are -10 and 10; otherwise whole-volt bounds lie at least 10 V outside every reading and within 1 V of that margin at the extremes |
| DeviceDetail.BoundsEncloseReadings | src/pages/crud_perangkat/detail_perangkat.jsx:122-127 | every numeric reading of every point lies at least 10 V inside the bounds |
| DeviceDetail.RefreshRealtime | src/pages/crud_perangkat/detail_perangkat.jsx:97-120 | no request is made without a device token; the refresh succeeds exactly with a token and an ok request |
| DeviceDetail.RefreshAlert | src/pages/crud_perangkat/detail_perangkat.jsx:100-119 | the refresh shows one of its three alerts |
| DeviceDetail.RefreshAlertTellsOutcome | src/pages/crud_perangkat/detail_perangkat.jsx:97-120 | the alert says there is no token exactly when none is known, success exactly on a token and an ok request, and failure exactly on a token and a failed request |
| DeviceDetail.RefreshAndToggleShareTokenGate | src/pages/crud_perangkat/detail_perangkat.jsx:100-103 | the refresh and the calibration toggle send a request for the same tokens, and the refresh succeeds exactly when the toggle would change the mode |
| VoltageMonitor.TimeLabel | src/pages/Tegangan.jsx:36 | the label is the first five characters of the local time |
| VoltageMonitor.PushSameTimes | src/pages/Tegangan.jsx:38-50 | two histories aligned by label stay aligned when each receives an entry with the same label |
| VoltageMonitor.OnSnapshot | src/pages/Tegangan.jsx:29-50 | without a device id, or with an empty snapshot, nothing changes; otherwise each channel's history is its old window with the new entry pushed in (keeping 10), under one label, and the histories stay in step |
| VoltageMonitor.AppendInStep | src/pages/Tegangan.jsx:38-50 | appending one entry per channel under one label keeps the three histories in step |
| VoltageMonitor.NewestLast | src/pages/Tegangan.jsx:38-50 | after a snapshot the newest reading is last, after the older entries in their order, within 10 entries |
| VoltageMonitor.HistoriesStayInStep | src/pages/Tegangan.jsx:36-50 | over any series of snapshots, the three histories keep equal lengths within 10 and the same label at every position |
| VoltageMonitor.InitialIsInStep | src/pages/Tegangan.jsx:22-26 | the empty starting histories are in step |
| HistoryFilter.ApplyFilter | src/pages/DetailRiwayat.jsx:202-207 | applying copies the four pending inputs into the applied filter and changes nothing else |
| HistoryFilter.ApplyMonth | src/pages/DetailRiwayat.jsx:302-304 | the month button applies only the pending start date and leaves the other applied inputs alone |
| HistoryFilter.ChangeType | src/pages/DetailRiwayat.jsx:239-245 | choosing a filter type clears the pending inputs and keeps the applied ones |
| HistoryFilter.AppliedSurvivesTypeChange | src/pages/DetailRiwayat.jsx:239-245 | a month applied before switching to the hour filter is still the applied start date afterwards |
| HistoryFilter.MonthFilter | src/pages/DetailRiwayat.jsx:144-150 | the month filter keeps exactly the records whose creation date starts with the prefix |
| HistoryFilter.EmptyPrefixKeepsAll | src/pages/DetailRiwayat.jsx:144-150 | an empty prefix keeps every record, in order |
| HistoryFilter.FilterTable | src/pages/DetailRiwayat.jsx:111-157 | with no raw data the table keeps what it had; an hour filter lacking an input, or a month filter with no month, shows the raw data unfiltered; otherwise the table holds exactly the history's records that pass the chosen filter |
| HistoryFilter.FilterReport | src/pages/DetailRiwayat.jsx:166-200 | the today view leaves the report alone; an hour filter lacking an input shows the whole report; the other views hold exactly the report's records that pass the filter |
| HistoryFilter.MonthViewsAgree | src/pages/DetailRiwayat.jsx:144-176 | on the month view, the table over the raw data and the report both equal the month filter, whether or not a month is applied |
| HistoryFilter.FetchReport | src/pages/DetailRiwayat.jsx:86-105 | a failed report request or a missing result gives an empty report; a list result is kept as it is |
| HistoryFilter.FailedReportShowsNothing | src/pages/DetailRiwayat.jsx:98-102 | after a failed report request every view but today's shows an empty report |
| HistoryFilter.DeviceName | src/pages/DetailRiwayat.jsx:67-71 | the heading names the first record's device when it has a name, otherwise "Perangkat " followed by the id |
| HistoryFilter.FetchHistory | src/pages/DetailRiwayat.jsx:45-84 | a failed request leads to not-found and changes nothing; success sets the page count (at least one page) and puts the same records in the raw data, the history and the table; a non-list result leads to not-found after the count and name are set |
| HistoryFilter.FetchedPageFeedsTable | src/pages/DetailRiwayat.jsx:45-157 | after a successful fetch the table shows only the fetched records under any filter, and on the month view exactly the fetched records of that month, in order |
| NotificationHistory.LogsOf | src/pages/RiwayatNotifikasi.jsx:40 | a result that is not a list counts as no logs |
| NotificationHistory.DeviceLabel | src/pages/RiwayatNotifikasi.jsx:52-63 | a log is named after its device when the lookup succeeds with a nonempty name, otherwise "Perangkat ID " followed by the volt id |
| NotificationHistory.Enrich | src/pages/RiwayatNotifikasi.jsx:42-66 | every log is kept, in order, each with its device's name, and a failed lookup only changes the name |
| NotificationHistory.NameMatchesWatcherTitle | src/pages/RiwayatNotifikasi.jsx:57 | for a device that answers, the history shows the same name the watcher used as the notification title |
| NotificationHistory.FetchLogs | src/pages/RiwayatNotifikasi.jsx:23-76 | loading ends either way; a failed request keeps the logs and pages; success shows the enriched logs, the reply's page (1 when missing or zero) and a nonzero page count |
| NotificationHistory.FetchedPagesNeverZero | src/pages/RiwayatNotifikasi.jsx:70 | a successful fetch never leaves zero pages, and leaves at least one for a non-negative or missing total |
| NotificationHistory.PreviousRequest | src/pages/RiwayatNotifikasi.jsx:85-89 | the previous page is requested exactly when the page is past the first |
| NotificationHistory.NextRequest | src/pages/RiwayatNotifikasi.jsx:91-95 | the next page is requested exactly when the page is before the last |
| NotificationHistory.RequestsStayInRange | src/pages/RiwayatNotifikasi.jsx:85-95 | from a page in range every requested page is in range, and a request the other way leads back |
| DeviceLists.OwnDevices | src/pages/Perangkat.jsx:26-28 | the restricted role keeps exactly the devices whose owner is strictly equal to its id; other roles keep all devices in order |
| DeviceLists.OwnDevicesAppend | src/pages/Perangkat.jsx:26-28 | the filter keeps list order: one more device is one more kept device exactly when the viewer may see it |
| DeviceLists.ActionsFollowRawRole | src/pages/Perangkat.jsx:135 | the edit, delete, calibrate and add actions are withheld only from the exact role "karyawan": "Karyawan", admins and a missing role get them, and "Karyawan" also sees every device, though the sidebar treats that spelling as restricted |
| DeviceLists.ListIsWithinDashboard | src/pages/Riwayat.jsx:26-28 | every device these lists keep, the dashboard keeps too; a device owned by the string "5" shows on the dashboard and not on these lists |
| DeviceLists.FetchDevices | src/pages/Perangkat.jsx:17-37 | loading ends either way; a failed request, or a restricted user's reply without a list, keeps the list and page count; a list result shows the filtered devices and a page count with no minimum |
| DeviceLists.EmptyListHasNoPages | src/pages/Perangkat.jsx:31 | an empty list with a zero total has zero pages |
| DeviceLists.DeleteDevice | src/pages/Perangkat.jsx:65-77 | nothing is sent and nothing shown without confirmation; a failed delete alerts its failure and keeps the list; a successful one alerts success and refetches the current page |
| DeviceLists.DeletedDeviceDisappears | src/pages/Perangkat.jsx:65-77 | after a successful delete and a refetch that no longer lists the device, it is gone from the page; otherwise the list is unchanged |
| DeviceLists.CopyToken | src/pages/Perangkat.jsx:39-63 | a token is copied exactly when the reply is ok, carries a nonempty token and the clipboard accepts it, and it is the reply's token |
| DeviceLists.CopyAlert | src/pages/Perangkat.jsx:58-61 | the copy handler shows one of its two alerts |
| DeviceLists.CopyAlertTellsOutcome | src/pages/Perangkat.jsx:39-63 | the success alert is shown exactly when a token was copied, and the copied text is then the reply's token |
| UserLists.ListsAreDisjoint | src/pages/crud_user/UserNonaktif.jsx:30-32 | no user is both active and inactive, and any status other than true, 1, false or 0 keeps a user out of both |
| UserLists.Shown | src/pages/user.jsx:30 | a page shows exactly the users with its status |
| UserLists.ShownAppend | src/pages/user.jsx:30 | the page keeps list order: one more user in the reply is one more shown user, at the end, exactly when its status matches the page |
| UserLists.ShownCounts | src/pages/user.jsx:30 | a user with the page's status is shown as many times as the reply lists it, any other user never |
| UserLists.FetchUsers | src/pages/user.jsx:15-38 | loading ends either way; the alert is raised exactly on a failed request or a non-list result, and then the list stays; otherwise a missing result gives no users |
| UserLists.PagesPartition | src/pages/crud_user/UserNonaktif.jsx:30-32 | over one reply, a user with a boolean or 0/1 status appears on exactly one of the two pages |
| UserLists.DeleteUser | src/pages/user.jsx:44-63 | a failed delete alerts its failure and leaves the list; a successful one alerts its success and refetches the list |
| UserLists.DeleteAlertTellsOutcome | src/pages/user.jsx:55-61 | the success alert is shown exactly when the delete succeeded, and the list changes only after a success |
| UserLists.DeletedUserDisappears | src/pages/crud_user/UserNonaktif.jsx:53-56 | after a successful delete and a refetch that no longer lists the user, the user is gone from the page |
| UserForms.CapitalizeRole | src/pages/crud_user/UserEdit.jsx:36-44 | the four known roles, in any letter case, get their canonical spelling; any other role is kept as it is |
| UserForms.CapitalizeRoleIdempotent | src/pages/crud_user/UserEdit.jsx:36-44 | canonicalising a role twice is the same as once |
| UserForms.CapitalizeRoleExamples | src/pages/crud_user/UserEdit.jsx:36-44 | "OWNER" becomes "Owner", "ADMIN" becomes "admin", and "manager" stays |
| UserForms.LoadedForm | src/pages/crud_user/UserEdit.jsx:46-53 | the loaded form has the same fields as a blank one; name and username are the user's or blank; the password is always blank; a missing role becomes Karyawan; a null or missing status becomes active |
| UserForms.LoadedDefaults | src/pages/crud_user/UserEdit.jsx:48-53 | a missing role loads as Karyawan; a false status stays false and a null one becomes true |
| UserForms.LoadUser | src/pages/crud_user/UserEdit.jsx:45-63 | an ok reply fills the form with no alert; a not-ok reply alerts that the user could not be fetched and a request that threw alerts that the server could not be reached; either failure keeps the form and returns to the user list |
| UserForms.LoadAlertTellsFailure | src/pages/crud_user/UserEdit.jsx:54-62 | an alert is raised exactly when the page leaves, and its text tells a refusal by the server from a request that got no answer |
| UserForms.HandleChange | src/pages/crud_user/UserTambah.jsx:24-33 | a change stores the checkbox's state or the input's text in the named field only, and clears that field's error only |
| UserForms.ChangesCommute | src/pages/crud_user/UserEdit.jsx:69-76 | editing two different fields gives the same form and errors in either order |
| UserForms.CompanyId | src/pages/crud_user/UserEdit.jsx:24-25 | the company id is the snake-case field when truthy, else the camel-case one when truthy, else null |
| UserForms.EditPayload | src/pages/crud_user/UserEdit.jsx:83-90 | the update sends the five form fields as they are, plus the company id |
| UserForms.SaveThenReload | src/pages/crud_user/UserEdit.jsx:46-90 | saving a loaded form unedited sends the user's name and username, a blank password, the canonical role and the company id; loading those values back gives the same form |
| UserForms.ThrownAlert | src/pages/crud_user/UserEdit.jsx:116-117 | a thrown error alerts its own message when it has one, and the alert is never empty |
| UserForms.Settle | src/pages/crud_user/UserTambah.jsx:56-73 | a submission leaves the page exactly on an ok reply; server field errors are shown with no alert and no navigation; any other failure alerts the reply's message or the fallback |
| UserForms.EditSubmit | src/pages/crud_user/UserEdit.jsx:78-122 | the edit form leaves exactly on success and shows server field errors without leaving |
| UserForms.AddSubmit | src/pages/crud_user/UserTambah.jsx:35-78 | a click while a submission is running does nothing; otherwise the reply settles the form and both guards are lowered again |
| UserForms.AddSubmitCompletes | src/pages/crud_user/UserTambah.jsx:74-77 | after any completed submission the next one is not ignored, and server field errors never navigate away |
| DeviceForm.HandleChange | src/pages/crud_perangkat/tambah_perangkat.jsx:43-46 | a change sets the named input and leaves every other input as it was |
| DeviceForm.CreatePayload | src/pages/crud_perangkat/tambah_perangkat.jsx:64-77 | the created device has the form's name and times, the parsed user id, six voltages of 0 and a flow rate of 0 |
| DeviceForm.Submit | src/pages/crud_perangkat/tambah_perangkat.jsx:48-93 | a click during a submission is ignored; an invalid form is rejected with no request; a valid one posts the payload; every path past the guard lowers both flags |
| DeviceForm.BlankNameRejected | src/pages/crud_perangkat/tambah_perangkat.jsx:55-59 | a name of JavaScript white space only (including the no-break, ideographic and other Unicode spaces) is rejected before any request, and the guard is released |
| DeviceForm.UnicodeSpaceNameRejected | src/pages/crud_perangkat/tambah_perangkat.jsx:55-59 | names made only of an ideographic space, or of no-break, em and ASCII spaces, are rejected |
| DeviceForm.LetterBetweenSpacesPasses | src/pages/crud_perangkat/tambah_perangkat.jsx:55-59 | a letter between ideographic spaces makes the name pass the check |
| DeviceForm.GuardAlwaysReleased | src/pages/crud_perangkat/tambah_perangkat.jsx:89-92 | after any submission that passed the guard, the next one is not ignored |
| Auth.StoredText | src/pages/LoginPage.jsx:41-44 | a number is stored as its decimal text and a string as itself |
| Auth.RefusalMessage | src/pages/LoginPage.jsx:31-35 | a refused login shows the password error first, then the username error, then the server's message, then "Login gagal", and never an empty message |
| Auth.Login | src/pages/LoginPage.jsx:14-51 | the user is logged in exactly when the reply is ok and carries credentials; a refused or thrown login writes nothing and shows its message; an ok reply without credentials has already written the token and the text "undefined" as the user when it fails; success writes the four session entries and leaves every other entry alone |
| Auth.LoginStartsWatcherSession | src/components/NotificationWatcher.jsx:18-20 | after a login with a numeric id, the watcher reads back that very id, the token and the role, and polls when all three are present and the id is nonzero |
| Auth.LogoutUndoesLogin | src/components/Sidebar.jsx:58-67 | a login followed by a confirmed logout leaves no session entry and every other entry as before the login |
| Auth.Register | src/pages/RegisterPage.jsx:16-50 | a request is sent exactly when the passwords match, always asking for the casual role; a mismatch shows its message; the page moves on to login exactly on an ok reply, and otherwise shows the reply's message or "Gagal mendaftar" |
| Auth.RegisterAlwaysCasual | src/pages/RegisterPage.jsx:35 | whatever the reply, a matching submission asks for the casual role, and its message does not depend on the name or username |
| Window.Push | src/pages/KalibrasiPerangkat.jsx:89 | a push ends with the new element, preceded by the newest elements of the old window in order; the window grows by one until it holds the cap, then stays at the cap |
| Window.TrimTo | src/pages/Tegangan.jsx:45-50 | trimming keeps at most the cap and leaves a short history alone |
| Window.PushKeepsNewest | src/pages/KalibrasiPerangkat.jsx:89 | pushing onto the window of a history gives the window of the extended history |
| Window.TrimAfterAppendIsPush | src/pages/Tegangan.jsx:38-50 | appending then trimming is the same as pushing into the window |
| Api.ForOfItems | src/components/NotificationWatcher.jsx:44-45 | a for-of over `result || []` reads a string as no records at all and throws on any other non-array value; on every other `result` it reads the same records the list pages take |
| Js.ParseInt | src/pages/Dashboard.jsx:19 | parsing an empty string gives NaN, and any number parsed comes from a string holding a digit |
| Js.ParseIntOfIntToString | src/pages/Dashboard.jsx:19 | an integer written as text and parsed back with parseInt is the same integer |
| Js.StringToNumberOfIntToString | src/components/Sidebar.jsx:143 | an integer written as text and read back with Number() is the same integer |
| Js.NumberOfSigns | src/components/Sidebar.jsx:143 | a lone sign is NaN, and a plus sign before digits reads as the digits' value with both `Number()` and parseInt |
| Js.IncludesIffOccurs | src/components/NotificationWatcher.jsx:48-50 | the substring search succeeds exactly when the pattern occurs at some offset |
| Js.TrimEmptyIffBlank | src/pages/crud_perangkat/tambah_perangkat.jsx:55 | a string trims to nothing exactly when every character is white space in ECMAScript's sense, Unicode spaces and line terminators included |
| Js.ToLowerIdempotent | src/components/Sidebar.jsx:25 | lowercasing twice is the same as once |
| Js.CeilDiv | src/pages/Dashboard.jsx:74 | the rounded-up quotient is the least count whose multiples of the divisor cover the dividend |
| Lists.Filter | src/pages/user.jsx:30 | a filter keeps only passing elements and every passing element |
| Lists.FilterSnoc | src/pages/user.jsx:30 | filtering keeps order: filtering a list with one more element at the end adds that element at the end exactly when it passes |
| Lists.FilterCounts | src/pages/user.jsx:30 | a passing element is kept as many times as it occurs, a failing one never |
| Readings.MinOf | src/pages/crud_perangkat/detail_perangkat.jsx:122 | the minimum is one of the readings and no reading is below it |
| Readings.MaxOf | src/pages/crud_perangkat/detail_perangkat.jsx:123 | the maximum is one of the readings and no reading is above it |

## Left out

- HTTP requests, the realtime database and `localStorage` are not modelled
  as services. Every reply, lookup result and stored value is a parameter,
  and every write is part of the returned state.
- Timers are not modelled:
  - the watcher's and the dashboard badge's 30-second polls;
  - the 300 ms detail refresh and the calibration interval;
  - `useEffect` re-runs and component teardown.
  Ticks are applied one at a time, so overlapping polls and their
  last-write-wins race on the stored map are outside the model.
- Browser services appear only as inputs or outputs:
  - the Notification API (permission is a boolean; notifications are a
    returned list, and clicking one is not modelled);
  - the clipboard (a boolean);
  - `window.confirm` (a boolean);
  - `alert` (a returned message, or an outcome that determines the message:
    the device form's `Rejected` and `CreateFailed`, the calibration
    toggle's `requested` and `running`, and the user lists' `failed` flag);
  - navigation (a returned flag; the logout goes to the login page exactly
    when it is confirmed, so its navigation is the `confirmed` input).
- Wall-clock and date logic is passed in precomputed:
  - the today, last-week and hour-window comparisons of the history page
    are predicates given by the caller;
  - the dashboard's "now" and the operating window's times are
    milliseconds given by the caller;
  - `Date` parsing, `toLocaleString` and `toLocaleTimeString` are not
    modelled; the local time is an input string.
- Floating point is not modelled. `parseFloat` and `toFixed` are left out,
  and readings are exact reals with NaN as `None`. The device form keeps
  `max_flow_daily` and `Daya` as the raw strings.
- `Number()` and `parseInt` are modelled for an optional sign followed by
  decimal digits. Leading white space, decimals, exponents, hex prefixes and
  `parseInt`'s radix guessing are left out.
- `toLowerCase` is modelled for ASCII letters only.
- `JSON.stringify` and `JSON.parse` of the stored user are not modelled:
  - the login writes the serialised credentials as given text;
  - the edit form receives the parsed company-id fields directly.
- Lookups in object literals (`labels[key]`, `roles[...]`) ignore inherited
  prototype properties such as `constructor`.
- Dashboard.FetchDevices: the per-device history request in the dashboard's
  card loop and the username header are not modelled. A result that is not a
  list is modelled as a failed fetch.
- DeviceLists.FetchDevices: a reply with no `metadata` object, which makes
  the handler throw before the page count is set, is not modelled. A missing
  `total` inside `metadata` is modelled as NaN pages.
- The scan-token requests that the calibration and detail pages make on
  mount are not modelled. The device token is an input to `HandleToggle`,
  `LeaveRequestsOff` and `RefreshRealtime`.
- The calibration page's interval start and stop is not modelled; only
  whether a toggle starts reading at once is returned.
- HistoryFilter.FetchReport: a report result that is not a list is returned
  as `None`. The filtering that then throws on it is not modelled.
- Two pieces of the history page are not modelled:
  - the rule that fetches the report only for views other than today;
  - the `currentPage` effect that refetches the history.
- Auth.Login: the `TypeError` text for missing credentials is modelled as
  one engine's wording. The register page's hard-coded URL is not modelled.
- UserLists.DeletedUserDisappears: assumes the refetch succeeds with a list.
  A failed refetch keeps the old list, which may still show the user, as
  `FetchUsers` states.
- The add-user form's validation beyond the server's field errors is not
  modelled, because the form only guards against double submission. Its
  blank-start defaults are the constant `UserForms.InitialForm`.
- Pages with no decision logic are out of scope:
  - the edit-device page;
  - the generic device history page;
  - the water-flow pages;
  - profile, settings, routing and the UI components.

=== FILE: api.dfy ===
/** Shapes of the REST responses and browser-storage entries that the
    application's rules read, with every network or storage outcome made an
    explicit value. */
module Api {
  import opened Js

  /** One record of `GET /Volt_device/Log`. */
  datatype LogEntry = LogEntry(id: int, voltId: int, statusMessage: Option<string>)

  /** The fields of `GET /Volt_device/{id}` that the rules read. */
  datatype Device = Device(userId: Value, name: Option<string>)

  /** Outcome of one device lookup: an ok response, a non-ok response whose
      body still parses, or a thrown error (network failure or a body that is
      not JSON). */
  datatype DeviceReply = DeviceOk(device: Device) | DeviceNotOk(body: Device) | DeviceUnreachable

  /** The device lookups of one poll, by device id; an id with no entry is unreachable. */
  type Devices = map<int, DeviceReply>

  function Lookup(devices: Devices, voltId: int): DeviceReply {
    if voltId in devices then devices[voltId] else DeviceUnreachable
  }

  /** The parsed body of a device reply, whether or not the status was ok. */
  function ReplyBody(reply: DeviceReply): Option<Device> {
    match reply
    case DeviceOk(d) => Some(d)
    case DeviceNotOk(d) => Some(d)
    case DeviceUnreachable => None
  }

  /** The `result` field of a list response: an array, a falsy value (missing,
      null, 0, ""), or some other truthy value that is not an array, which is
      either a non-empty string (`text`) or a number, `true` or an object. */
  datatype ResultField<T> = Items(items: seq<T>) | Missing | NotArray(text: bool)

  /** `result || []` as the list pages use it, or None where `.map` or
      `.filter` on the value would throw, as they do on every value that is
      not an array. */
  function ItemsOrEmpty<T>(r: ResultField<T>): (xs: Option<seq<T>>)
    ensures r.Missing? ==> xs == Some([])
    ensures r.NotArray? ==> xs.None?
    ensures r.Items? ==> xs == Some(r.items)
  {
    match r
    case Items(items) => Some(items)
    case Missing => Some([])
    case NotArray(_) => None
  }

  /** `for (const x of result || [])` with only the entries that look like
      records: a string is iterated one character at a time, and a character
      has neither an `id` nor any other field a record is read by, so it
      contributes no entry; iterating a number, `true` or an object throws
      (None). It differs from `ItemsOrEmpty` on a string only. */
  function ForOfItems<T>(r: ResultField<T>): (xs: Option<seq<T>>)
    ensures r.NotArray? && r.text ==> xs == Some([])
    ensures !(r.NotArray? && r.text) ==> xs == ItemsOrEmpty(r)
  {
    match r
    case NotArray(text) => if text then Some([]) else None
    case _ => ItemsOrEmpty(r)
  }

  /** Outcome of `GET /Volt_device/Log`: an HTTP status with its parsed body,
      or a thrown error (network failure, or an ok status whose body is not JSON). */
  datatype LogReply = LogReply(status: int, result: ResultField<LogEntry>) | LogUnreachable

  /** `response.ok`. */
  predicate IsOk(status: int) {
    200 <= status <= 299
  }

  /** `localStorage`, as a map from key to stored string. */
  type Storage = map<string, string>

  /** `localStorage.getItem(key)`: None stands for null. */
  function Get(storage: Storage, key: string): Option<string> {
    if key in storage then Some(storage[key]) else None
  }

  const TokenKey := "token"
  const UserKey := "user"
  const UserIdKey := "user_id"
  const RoleKey := "role"
  const LastSeenKey := "lastSeenNotifId"

  /** The four keys a login writes and a logout removes. */
  const SessionKeys: set<string> := {UserIdKey, TokenKey, UserKey, RoleKey}

  /** The restricted role: such a user sees only the devices they own. */
  const Karyawan := "karyawan"

  /** `role === "karyawan"`. */
  predicate IsKaryawan(role: Option<string>) {
    role == Some(Karyawan)
  }
}

=== FILE: auth.dfy ===
/** The login and registration handlers: which message a failed attempt
    shows, which storage entries a successful login writes, and what the
    rest of the application reads back from them. */
module Auth {
  import opened Js
  import opened Api
  import NotificationWatcher
  import Sidebar

  // ---------------------------------------------------------------------------
  // Login

  /** The `creds` object of a successful login, with `JSON.stringify(creds)`
      given as text (the serialiser is not modelled). */
  datatype Creds = Creds(id: Value, role: Value, json: string)

  /** The outcome of `POST /auth/login`: the status and the fields of the
      parsed body, or a thrown error (network failure, or a body that is not
      JSON) with its message. */
  datatype LoginReply =
    | LoginResponse(ok: bool, passwordError: Option<string>, usernameError: Option<string>,
                    message: Option<string>, token: Option<string>, creds: Option<Creds>)
    | LoginThrew(error: string)

  datatype LoginOutcome =
    | LoggedIn(storage: Storage)
    | LoginFailed(storage: Storage, errorMsg: string)

  /** `String(v)`, as `localStorage.setItem` stores a scalar. */
  function StoredText(v: Value): (s: string)
    ensures v.VNum? ==> s == IntToString(v.n)
    ensures v.VStr? ==> s == v.s
  {
    match v
    case VNum(n) => IntToString(n)
    case VStr(s) => s
    case VBool(b) => if b then "true" else "false"
    case VNull => "null"
    case VUndefined => "undefined"
  }

  /** `String(undefined)`, stored when a field is missing. */
  const Undefined := "undefined"

  /** The message of the `TypeError` that reading `id` of a missing `creds` throws. */
  const MissingCredsError := "Cannot read properties of undefined (reading 'id')"

  const LoginFallback := "Login gagal"

  /** The message a refused login shows: the password error first, then the
      username error, then the body's message, then a fixed text. */
  function RefusalMessage(passwordError: Option<string>, usernameError: Option<string>, message: Option<string>): (m: string)
    ensures m != []
    ensures Present(passwordError) ==> m == passwordError.value
    ensures !Present(passwordError) && Present(usernameError) ==> m == usernameError.value
    ensures !Present(passwordError) && !Present(usernameError) && Present(message) ==> m == message.value
    ensures !Present(passwordError) && !Present(usernameError) && !Present(message) ==> m == LoginFallback
  {
    OrElse(passwordError, OrElse(usernameError, OrElse(message, LoginFallback)))
  }

  /** `handleLogin`. A refused or thrown request shows its message and
      writes nothing. An accepted one writes the token, the user and, from
      `creds`, the id and the role, each as text, and leaves every other entry
      alone; when `creds` is missing the token and the text "undefined" are
      already written before reading its id throws. */
  function Login(storage: Storage, reply: LoginReply): (r: LoginOutcome)
    ensures r.LoggedIn? <==> reply.LoginResponse? && reply.ok && reply.creds.Some?
    ensures reply.LoginThrew? ==> r == LoginFailed(storage, reply.error)
    ensures reply.LoginResponse? && !reply.ok ==>
      r == LoginFailed(storage, RefusalMessage(reply.passwordError, reply.usernameError, reply.message))
    ensures r.LoggedIn? ==>
      && r.storage.Keys == storage.Keys + SessionKeys
      && r.storage[TokenKey] == (if reply.token.Some? then reply.token.value else Undefined)
      && r.storage[UserKey] == reply.creds.value.json
      && r.storage[UserIdKey] == StoredText(reply.creds.value.id)
      && r.storage[RoleKey] == StoredText(reply.creds.value.role)
      && forall k :: k in storage && k !in SessionKeys ==> r.storage[k] == storage[k]
    ensures reply.LoginResponse? && reply.ok && reply.creds.None? ==>
      && r.errorMsg == MissingCredsError
      && r.storage.Keys == storage.Keys + {TokenKey, UserKey}
      && r.storage[UserKey] == Undefined
      && forall k :: k in storage && k != TokenKey && k != UserKey ==> r.storage[k] == storage[k]
  {
    match reply
    case LoginThrew(error) => LoginFailed(storage, error)
    case LoginResponse(ok, passwordError, usernameError, message, token, creds) =>
      if !ok then LoginFailed(storage, RefusalMessage(passwordError, usernameError, message))
      else
        var tokenText := match token case Some(t) => t case None => Undefined;
        match creds
        case None =>
          LoginFailed(storage[TokenKey := tokenText][UserKey := Undefined], MissingCredsError)
        case Some(c) =>
          LoggedIn(storage[TokenKey := tokenText][UserKey := c.json]
                          [UserIdKey := StoredText(c.id)][RoleKey := StoredText(c.role)])
  }

  /** A login whose `creds` carry a numeric id hands the notification watcher
      a session with that very id, the received token and role; with a
      nonzero id, a nonempty token and a nonempty role the watcher polls. */
  lemma LoginStartsWatcherSession(storage: Storage, reply: LoginReply)
    requires Login(storage, reply).LoggedIn?
    requires reply.creds.value.id.VNum?
    ensures var s := NotificationWatcher.ReadSession(Login(storage, reply).storage);
      && s.userId == Int(reply.creds.value.id.n)
      && s.token == Some(if reply.token.Some? then reply.token.value else Undefined)
      && s.role == Some(StoredText(reply.creds.value.role))
    ensures (Present(reply.token) && reply.creds.value.id.n != 0
             && reply.creds.value.role.VStr? && reply.creds.value.role.s != []) ==>
      NotificationWatcher.SessionPresent(NotificationWatcher.ReadSession(Login(storage, reply).storage))
  {
    ParseIntOfIntToString(reply.creds.value.id.n);
  }

  /** A login followed by a confirmed logout leaves no session entry and
      every other entry as it was before the login. */
  lemma LogoutUndoesLogin(storage: Storage, reply: LoginReply)
    requires Login(storage, reply).LoggedIn?
    ensures var after := Sidebar.Logout(Login(storage, reply).storage, true);
      && after.Keys == storage.Keys - SessionKeys
      && forall k :: k in after ==> after[k] == storage[k]
  {
  }

  // ---------------------------------------------------------------------------
  // Registration

  /** The body of `POST /api/register`. */
  datatype RegisterPayload = RegisterPayload(name: string, username: string, password: string, role: string)

  /** The outcome of the registration request: the status with the body's
      message, or a thrown error (network failure, or a body that is not JSON). */
  datatype RegisterReply = RegisterResponse(ok: bool, message: Option<string>) | RegisterThrew(error: string)

  /** What one submission does: the request it sends, the message it leaves
      shown (empty for none), and whether it moves on to the login page. */
  datatype Registration = Registration(request: Option<RegisterPayload>, errorMsg: string, toLogin: bool)

  const MismatchMessage := "Password dan konfirmasi tidak cocok!"
  const RegisterFallback := "Gagal mendaftar"

  /** Every account registered here asks for this role. */
  const DefaultRole := "casual"

  /** `handleRegister`: the old message is cleared; differing passwords show
      the mismatch message and send nothing; otherwise the request asks for
      the default role, success moves on to the login page and failure shows
      the reply's message or the fallback. */
  function Register(name: string, username: string, password: string, confirm: string, reply: RegisterReply): (r: Registration)
    ensures r.request.Some? <==> password == confirm
    ensures r.request.Some? ==> r.request.value == RegisterPayload(name, username, password, DefaultRole)
    ensures password != confirm ==> r.errorMsg == MismatchMessage && !r.toLogin
    ensures r.toLogin <==> password == confirm && reply.RegisterResponse? && reply.ok
    ensures r.errorMsg == [] <==> r.toLogin
    ensures password == confirm && reply.RegisterResponse? && !reply.ok ==> r.errorMsg == OrElse(reply.message, RegisterFallback)
    ensures password == confirm && reply.RegisterThrew? ==> r.errorMsg == OrElse(Some(reply.error), RegisterFallback)
  {
    if password != confirm then Registration(None, MismatchMessage, false)
    else
      var payload := RegisterPayload(name, username, password, DefaultRole);
      match reply
      case RegisterThrew(error) => Registration(Some(payload), OrElse(Some(error), RegisterFallback), false)
      case RegisterResponse(ok, message) =>
        if ok then Registration(Some(payload), "", true)
        else
          // The refusal is thrown as an error and caught: its message passes
          // through `error.message || "Gagal mendaftar"` a second time.
          var thrown := OrElse(message, RegisterFallback);
          Registration(Some(payload), OrElse(Some(thrown), RegisterFallback), false)
  }

  /** Whatever the reply, a submission whose passwords match asks for the
      default role, and the outcome does not depend on the name or username. */
  lemma RegisterAlwaysCasual(name: string, username: string, other: string, password: string, reply: RegisterReply)
    ensures Register(name, username, password, password, reply).request.value.role == DefaultRole
    ensures Register(name, username, password, password, reply).errorMsg
         == Register(other, other, password, password, reply).errorMsg
  {
  }
}

=== FILE: calibration.dfy ===
/** The calibration page: a 50-point voltage buffer fed by repeated reads,
    per-channel chart visibility, the padded axis range over the visible
    channels, and the start/stop switch of calibration mode. */
module Calibration {
  import opened Js
  import opened Readings
  import opened Window

  /** Points the calibration chart keeps. */
  const BufferCap := 50

  // ---------------------------------------------------------------------------
  // Buffer

  /** The point built from a device reply: the reply's `timestamp`, or the
      local time label when that is empty or missing. */
  function NewPoint(reply: VoltPoint, nowLabel: string): (p: VoltPoint)
    ensures forall c :: Volt(p, c) == Volt(reply, c)
    ensures p.time == OrElse(Some(reply.time), nowLabel)
  {
    reply.(time := OrElse(Some(reply.time), nowLabel))
  }

  /** One read of the device: None when the request threw. */
  datatype Read = Read(reply: Option<VoltPoint>, nowLabel: string)

  /** `fetchVoltage`: a failed read leaves the buffer alone; a successful one
      keeps the last 49 points and appends the new one. */
  function FetchVoltage(buffer: seq<VoltPoint>, read: Read): (r: seq<VoltPoint>)
    ensures read.reply.None? ==> r == buffer
    ensures read.reply.Some? ==>
      && 1 <= |r| <= BufferCap && |r| <= |buffer| + 1
      && r[|r| - 1] == NewPoint(read.reply.value, read.nowLabel)
      && r[..|r| - 1] == buffer[|buffer| - (|r| - 1)..]
  {
    if read.reply.None? then buffer
    else Push(buffer, NewPoint(read.reply.value, read.nowLabel), BufferCap)
  }

  /** The buffer after a series of reads, the last read applied last. */
  function FetchAll(buffer: seq<VoltPoint>, series: seq<Read>): seq<VoltPoint>
    decreases |series|
  {
    if series == [] then buffer
    else FetchVoltage(FetchAll(buffer, series[..|series| - 1]), series[|series| - 1])
  }

  /** The points the successful series of a series produce, in order. */
  function Received(series: seq<Read>): seq<VoltPoint>
    decreases |series|
  {
    if series == [] then []
    else
      var last := series[|series| - 1];
      Received(series[..|series| - 1])
        + (if last.reply.Some? then [NewPoint(last.reply.value, last.nowLabel)] else [])
  }

  /** Whatever series fail or succeed, the buffer holds exactly the newest 50
      points of everything received, in the order received. */
  lemma {:induction false} BufferHoldsNewest(history: seq<VoltPoint>, series: seq<Read>)
    ensures FetchAll(LastN(history, BufferCap), series) == LastN(history + Received(series), BufferCap)
    decreases |series|
  {
    if series == [] {
      assert history + Received(series) == history;
    } else {
      BufferHoldsNewest(history, series[..|series| - 1]);
      BufferStep(history, series);
    }
  }

  /** The step of the induction above: one more read, successful or not. */
  lemma BufferStep(history: seq<VoltPoint>, series: seq<Read>)
    requires series != []
    requires FetchAll(LastN(history, BufferCap), series[..|series| - 1])
          == LastN(history + Received(series[..|series| - 1]), BufferCap)
    ensures FetchAll(LastN(history, BufferCap), series) == LastN(history + Received(series), BufferCap)
  {
    var init, last := series[..|series| - 1], series[|series| - 1];
    var h := history + Received(init);
    var w := FetchAll(LastN(history, BufferCap), init);
    assert FetchAll(LastN(history, BufferCap), series) == FetchVoltage(w, last);
    if last.reply.Some? {
      var p := NewPoint(last.reply.value, last.nowLabel);
      assert FetchVoltage(w, last) == Push(LastN(h, BufferCap), p, BufferCap);
      PushKeepsNewest(h, p, BufferCap);
      assert Received(series) == Received(init) + [p];
      AppendAssoc(history, Received(init), [p]);
    } else {
      assert Received(series) == Received(init);
    }
  }

  // ---------------------------------------------------------------------------
  // Visibility

  /** `visibleLines`: which channels the chart draws. */
  type Visibility = map<Channel, bool>

  const InitialVisibility: Visibility := map[T1 := true, T2 := true, T3 := true, T4 := true, T5 := true, T6 := true]

  predicate IsVisible(vis: Visibility, c: Channel) {
    c in vis && vis[c]
  }

  /** `handleCheckboxChange(key)`: `{ ...prev, [key]: !prev[key] }`. */
  function ToggleChannel(vis: Visibility, key: Channel): (r: Visibility)
    ensures r.Keys == vis.Keys + {key}
    ensures IsVisible(r, key) <==> !IsVisible(vis, key)
    ensures forall c :: c in vis && c != key ==> r[c] == vis[c]
  {
    vis[key := !IsVisible(vis, key)]
  }

  /** Every channel starts visible, and toggling never loses a channel. */
  lemma VisibilityStaysComplete(vis: Visibility, key: Channel)
    ensures forall c :: IsVisible(InitialVisibility, c)
    ensures (forall c :: c in vis) ==> forall c :: c in ToggleChannel(vis, key)
  {
    forall c
      ensures IsVisible(InitialVisibility, c)
    {
      assert c == T1 || c == T2 || c == T3 || c == T4 || c == T5 || c == T6;
    }
  }

  /** Toggling the same checkbox twice restores the visibility. */
  lemma ToggleTwice(vis: Visibility, key: Channel)
    requires key in vis
    ensures ToggleChannel(ToggleChannel(vis, key), key) == vis
  {
  }

  // ---------------------------------------------------------------------------
  // Axis range

  /** The readings of one point on the visible channels. */
  function PointValues(p: VoltPoint, vis: Visibility): seq<Option<real>> {
    (if IsVisible(vis, T1) then [p.t1] else [])
    + (if IsVisible(vis, T2) then [p.t2] else [])
    + (if IsVisible(vis, T3) then [p.t3] else [])
    + (if IsVisible(vis, T4) then [p.t4] else [])
    + (if IsVisible(vis, T5) then [p.t5] else [])
    + (if IsVisible(vis, T6) then [p.t6] else [])
  }

  /** `allVisibleVoltages`: the visible readings of every point; the time label is never among them. */
  function VisibleValues(data: seq<VoltPoint>, vis: Visibility): seq<Option<real>>
    decreases |data|
  {
    if data == [] then []
    else VisibleValues(data[..|data| - 1], vis) + PointValues(data[|data| - 1], vis)
  }

  lemma PointValuesMembers(p: VoltPoint, vis: Visibility)
    ensures forall v :: v in PointValues(p, vis) <==> exists c :: IsVisible(vis, c) && Volt(p, c) == v
  {
    forall v | v in PointValues(p, vis)
      ensures exists c :: IsVisible(vis, c) && Volt(p, c) == v
    {
      if IsVisible(vis, T1) && v == p.t1 { assert Volt(p, T1) == v; }
      else if IsVisible(vis, T2) && v == p.t2 { assert Volt(p, T2) == v; }
      else if IsVisible(vis, T3) && v == p.t3 { assert Volt(p, T3) == v; }
      else if IsVisible(vis, T4) && v == p.t4 { assert Volt(p, T4) == v; }
      else if IsVisible(vis, T5) && v == p.t5 { assert Volt(p, T5) == v; }
      else { assert Volt(p, T6) == v; }
    }
  }

  /** A value is among the visible readings exactly when some point carries
      it on some visible channel. */
  lemma {:induction false} VisibleValuesMembers(data: seq<VoltPoint>, vis: Visibility, v: Option<real>)
    ensures v in VisibleValues(data, vis) <==>
      exists k, c :: 0 <= k < |data| && IsVisible(vis, c) && Volt(data[k], c) == v
    decreases |data|
  {
    if data != [] {
      var init := data[..|data| - 1];
      VisibleValuesMembers(init, vis, v);
      PointValuesMembers(data[|data| - 1], vis);
      assert data == init + [data[|data| - 1]];
      VisibleStep(data, init, data[|data| - 1], vis, v);
    }
  }

  /** The step of the induction above: a visible reading of the data is one
      of all points but the last, or of the last one. */
  lemma VisibleStep(data: seq<VoltPoint>, init: seq<VoltPoint>, last: VoltPoint, vis: Visibility, v: Option<real>)
    requires data == init + [last]
    ensures (exists k, c :: 0 <= k < |data| && IsVisible(vis, c) && Volt(data[k], c) == v)
       <==> (exists k, c :: 0 <= k < |init| && IsVisible(vis, c) && Volt(init[k], c) == v)
            || (exists c :: IsVisible(vis, c) && Volt(last, c) == v)
  {
    if exists k, c :: 0 <= k < |data| && IsVisible(vis, c) && Volt(data[k], c) == v {
      var k, c :| 0 <= k < |data| && IsVisible(vis, c) && Volt(data[k], c) == v;
      if k < |init| {
        assert Volt(init[k], c) == v;
      }
    }
    if exists k, c :: 0 <= k < |init| && IsVisible(vis, c) && Volt(init[k], c) == v {
      var k, c :| 0 <= k < |init| && IsVisible(vis, c) && Volt(init[k], c) == v;
      assert data[k] == init[k];
    }
    if exists c :: IsVisible(vis, c) && Volt(last, c) == v {
      var c :| IsVisible(vis, c) && Volt(last, c) == v;
      assert data[|init|] == last;
    }
  }

  /** The value axis: recharts' `auto`, a NaN domain when some visible
      reading is NaN, or whole-volt bounds. */
  datatype AxisRange = Auto | NaNRange | Range(lo: int, hi: int)

  function Reals(vs: seq<Option<real>>): (r: seq<real>)
    requires None !in vs
    ensures |r| == |vs|
    ensures forall k :: 0 <= k < |vs| ==> vs[k] == Some(r[k])
  {
    var r := seq(|vs|, k requires 0 <= k < |vs| => assert vs[k] in vs; vs[k].value);
    assert forall k :: 0 <= k < |vs| ==> vs[k] in vs && vs[k] == Some(r[k]);
    r
  }

  /** The range over a list of readings: `auto` for none, NaN bounds when
      one of them is NaN, otherwise the floor of the minimum less 5 V and the
      ceiling of the maximum plus 5 V. */
  function RangeOf(vs: seq<Option<real>>): (r: AxisRange)
    ensures r.Auto? <==> vs == []
    ensures r.NaNRange? <==> None in vs
    ensures r.Range? ==> forall v :: v in vs ==>
      v.Some? && r.lo as real <= v.value - 5.0 && v.value + 5.0 <= r.hi as real
    ensures r.Range? ==> exists v :: v in vs && v.Some? && v.value - 5.0 < r.lo as real + 1.0
    ensures r.Range? ==> exists v :: v in vs && v.Some? && r.hi as real - 1.0 < v.value + 5.0
  {
    if vs == [] then Auto
    else if None in vs then NaNRange
    else
      var xs := Reals(vs);
      var lo := MinOf(xs);
      var hi := MaxOf(xs);
      assert forall v :: v in vs ==> exists k :: 0 <= k < |vs| && vs[k] == v;
      var i :| 0 <= i < |xs| && xs[i] == lo;
      var j :| 0 <= j < |xs| && xs[j] == hi;
      assert vs[i] in vs && vs[j] in vs;
      Range(Floor(lo - 5.0), Ceil(hi + 5.0))
  }

  /** `getVoltageRange`: the range over the visible readings of every point. */
  function VoltageRange(data: seq<VoltPoint>, vis: Visibility): (r: AxisRange)
    ensures r.Auto? <==> VisibleValues(data, vis) == []
    ensures r.NaNRange? <==> None in VisibleValues(data, vis)
    ensures r.Range? ==> forall v :: v in VisibleValues(data, vis) ==>
      v.Some? && r.lo as real <= v.value - 5.0 && v.value + 5.0 <= r.hi as real
    ensures r.Range? ==> exists v :: v in VisibleValues(data, vis) && v.Some? && v.value - 5.0 < r.lo as real + 1.0
    ensures r.Range? ==> exists v :: v in VisibleValues(data, vis) && v.Some? && r.hi as real - 1.0 < v.value + 5.0
  {
    RangeOf(VisibleValues(data, vis))
  }

  /** With a point and a visible channel the axis is never automatic, and
      every reading drawn lies strictly inside a numeric range. */
  lemma RangeEnclosesVisibleReadings(data: seq<VoltPoint>, vis: Visibility, k: int, c: Channel)
    requires 0 <= k < |data| && IsVisible(vis, c)
    ensures !VoltageRange(data, vis).Auto?
    ensures VoltageRange(data, vis).Range? ==>
      && Volt(data[k], c).Some?
      && VoltageRange(data, vis).lo as real < Volt(data[k], c).value < VoltageRange(data, vis).hi as real
  {
    VisibleValuesMembers(data, vis, Volt(data[k], c));
  }

  /** One point's visible readings depend only on its visible channels. */
  lemma PointValuesAgree(p1: VoltPoint, p2: VoltPoint, vis1: Visibility, vis2: Visibility)
    requires forall c :: IsVisible(vis1, c) == IsVisible(vis2, c)
    requires forall c :: IsVisible(vis1, c) ==> Volt(p1, c) == Volt(p2, c)
    ensures PointValues(p1, vis1) == PointValues(p2, vis2)
  {
    assert IsVisible(vis1, T1) ==> Volt(p1, T1) == Volt(p2, T1);
    assert IsVisible(vis1, T2) ==> Volt(p1, T2) == Volt(p2, T2);
    assert IsVisible(vis1, T3) ==> Volt(p1, T3) == Volt(p2, T3);
    assert IsVisible(vis1, T4) ==> Volt(p1, T4) == Volt(p2, T4);
    assert IsVisible(vis1, T5) ==> Volt(p1, T5) == Volt(p2, T5);
    assert IsVisible(vis1, T6) ==> Volt(p1, T6) == Volt(p2, T6);
  }

  /** Visible readings are all that count: two buffers that agree on the
      channels visible in two visibility maps with the same visible set
      give the same readings, whatever the hidden channels and time labels hold. */
  lemma {:induction false} HiddenChannelsIgnored(d1: seq<VoltPoint>, d2: seq<VoltPoint>, vis1: Visibility, vis2: Visibility)
    requires |d1| == |d2|
    requires forall c :: IsVisible(vis1, c) == IsVisible(vis2, c)
    requires forall k, c :: 0 <= k < |d1| && IsVisible(vis1, c) ==> Volt(d1[k], c) == Volt(d2[k], c)
    ensures VisibleValues(d1, vis1) == VisibleValues(d2, vis2)
    decreases |d1|
  {
    if d1 != [] {
      var n := |d1| - 1;
      var i1, i2 := d1[..n], d2[..n];
      forall k, c | 0 <= k < n && IsVisible(vis1, c)
        ensures Volt(i1[k], c) == Volt(i2[k], c)
      {
        assert i1[k] == d1[k] && i2[k] == d2[k];
      }
      HiddenChannelsIgnored(i1, i2, vis1, vis2);
      PointValuesAgree(d1[n], d2[n], vis1, vis2);
    }
  }

  /** Hence the range, too, ignores hidden channels and time labels. */
  lemma RangeIgnoresHiddenChannels(d1: seq<VoltPoint>, d2: seq<VoltPoint>, vis1: Visibility, vis2: Visibility)
    requires |d1| == |d2|
    requires forall c :: IsVisible(vis1, c) == IsVisible(vis2, c)
    requires forall k, c :: 0 <= k < |d1| && IsVisible(vis1, c) ==> Volt(d1[k], c) == Volt(d2[k], c)
    ensures VoltageRange(d1, vis1) == VoltageRange(d2, vis2)
  {
    HiddenChannelsIgnored(d1, d2, vis1, vis2);
    assert VoltageRange(d1, vis1) == RangeOf(VisibleValues(d1, vis1));
  }

  // ---------------------------------------------------------------------------
  // Calibration switch

  /** What `handleToggle` leaves behind: the running flag, whether it sent
      the mode change, and whether it started reading. */
  datatype ToggleOutcome = ToggleOutcome(running: bool, requested: bool, readsNow: bool)

  /** `handleToggle`: without a device token nothing is sent; a failed mode
      change keeps the flag; a successful one flips it, and switching on
      starts reading at once. */
  function HandleToggle(running: bool, token: Option<string>, requestOk: bool): (r: ToggleOutcome)
    ensures !Present(token) ==> r == ToggleOutcome(running, false, false)
    ensures r.requested <==> Present(token)
    ensures r.running != running <==> Present(token) && requestOk
    ensures r.readsNow <==> Present(token) && requestOk && !running
  {
    if !Present(token) then ToggleOutcome(running, false, false)
    else if !requestOk then ToggleOutcome(running, true, false)
    else ToggleOutcome(!running, true, !running)
  }

  /** Two successful toggles return to the starting mode, the first or the
      second of them reading at once. */
  lemma ToggleTwiceRestores(running: bool, token: Option<string>)
    requires Present(token)
    ensures HandleToggle(HandleToggle(running, token, true).running, token, true).running == running
    ensures HandleToggle(running, token, true).readsNow != HandleToggle(!running, token, true).readsNow
  {
  }

  /** The effect's cleanup sends the switch-off exactly when calibration is
      running and a device token is known, judged by the values it was set up
      with. It runs on leaving the page, and also each time the running flag
      or the token changes. */
  function LeaveRequestsOff(running: bool, token: Option<string>): (r: bool)
    ensures r ==> Present(token)
    ensures !running ==> !r
    ensures running && Present(token) ==> r
  {
    running && Present(token)
  }

  /** Leaving right after a toggle sends the switch-off exactly when the
      toggle left calibration running: after a successful switch-on, or after
      a failed switch-off. */
  lemma LeaveAfterToggle(running: bool, token: Option<string>, requestOk: bool)
    ensures LeaveRequestsOff(HandleToggle(running, token, requestOk).running, token)
       <==> Present(token) && (running != requestOk)
    ensures HandleToggle(running, token, requestOk).readsNow ==>
      LeaveRequestsOff(HandleToggle(running, token, requestOk).running, token)
  {
  }

  /** Because the cleanup also runs when the flag changes, with the values
      from before the change, a successful switch-off is followed by a second
      switch-off request from the cleanup. A switch-on sends no such request. */
  lemma SwitchOffSendsTwice(token: Option<string>)
    requires Present(token)
    ensures var t := HandleToggle(true, token, true);
      t.requested && !t.running && LeaveRequestsOff(true, token)
    ensures var t := HandleToggle(false, token, true);
      t.requested && t.running && !LeaveRequestsOff(false, token)
  {
  }
}

=== FILE: dashboard.dfy ===
/** The dashboard's reading classifiers, connection rule, device filter and
    field labels. Times are milliseconds: "now" is passed in, and a time of
    day is measured from local midnight. */
module Dashboard {
  import opened Js
  import opened Api
  import opened Paging
  import opened Lists

  // ---------------------------------------------------------------------------
  // Voltage status

  const BelowNormal := " \U{26A0}di bawah normal"
  const AboveNormal := " \U{26A0}di atas normal"
  const Normal := "Normal"

  const VoltageLow: real := 342.0
  const VoltageHigh: real := 400.0

  /** `getVoltageStatus` on `parseFloat(value)`, None standing for NaN. */
  function VoltageStatus(v: Option<real>): (r: string)
    ensures r == BelowNormal <==> v.Some? && v.value < VoltageLow
    ensures r == AboveNormal <==> v.Some? && v.value > VoltageHigh
    ensures r == Normal <==> v.None? || VoltageLow <= v.value <= VoltageHigh
  {
    if v.Some? && v.value < VoltageLow then BelowNormal
    else if v.Some? && v.value > VoltageHigh then AboveNormal
    else Normal
  }

  /** Both bounds belong to the normal band, and so does an unreadable value. */
  lemma VoltageBoundsAreNormal()
    ensures VoltageStatus(Some(342.0)) == Normal && VoltageStatus(Some(400.0)) == Normal
    ensures VoltageStatus(None) == Normal
    ensures VoltageStatus(Some(341.9)) == BelowNormal && VoltageStatus(Some(400.1)) == AboveNormal
  {
  }

  /** The status moves with the reading: a higher voltage is never further
      below the band, a lower one never further above it, and the normal
      readings form one unbroken band. */
  lemma VoltageStatusMonotone(a: real, b: real, c: real)
    requires a <= b <= c
    ensures VoltageStatus(Some(a)) == AboveNormal ==> VoltageStatus(Some(b)) == AboveNormal
    ensures VoltageStatus(Some(b)) == BelowNormal ==> VoltageStatus(Some(a)) == BelowNormal
    ensures VoltageStatus(Some(a)) == Normal && VoltageStatus(Some(c)) == Normal ==>
      VoltageStatus(Some(b)) == Normal
  {
  }

  // ---------------------------------------------------------------------------
  // Flow status

  /** An "HH:MM" time of day. */
  datatype Clock = Clock(hour: int, minute: int)

  /** `date.setHours(hour, minute, 0, 0)`, in milliseconds since midnight. */
  function ClockMs(c: Clock): int {
    c.hour * 3600000 + c.minute * 60000
  }

  /** The operating window, defaulting to 00:00 and 23:59 (86 340 000 ms)
      when a time is missing or empty. */
  function WindowStart(start: Option<Clock>): (r: int)
    ensures start.None? ==> r == 0
  {
    match start
    case None => 0
    case Some(c) => ClockMs(c)
  }

  function WindowEnd(end: Option<Clock>): (r: int)
    ensures end.None? ==> r == 86340000
  {
    match end
    case None => ClockMs(Clock(23, 59))
    case Some(c) => ClockMs(c)
  }

  /** The three outcomes of `getFlowStatus`, and the message each one shows. */
  datatype FlowState = OutOfHours | OverLimit | FlowNormal

  function FlowMessage(s: FlowState): string {
    match s
    case OutOfHours => "Pemakaian air di luar jam operasional"
    case OverLimit => "Pemakaian air di luar batas"
    case FlowNormal => Normal
  }

  /** `getFlowStatus`: the operating window is checked before the daily limit,
      and only a flow strictly above the limit is over it; an unreadable flow
      or limit (None, NaN) is never over it. */
  function FlowStatus(flow: Option<real>, max: Option<real>, start: Option<Clock>, end: Option<Clock>, nowMs: int): (r: FlowState)
    ensures r == OutOfHours <==> nowMs < WindowStart(start) || nowMs > WindowEnd(end)
    ensures r == OverLimit <==>
      WindowStart(start) <= nowMs <= WindowEnd(end) && flow.Some? && max.Some? && flow.value > max.value
    ensures r == FlowNormal <==>
      WindowStart(start) <= nowMs <= WindowEnd(end) && !(flow.Some? && max.Some? && flow.value > max.value)
  {
    if nowMs < WindowStart(start) || nowMs > WindowEnd(end) then OutOfHours
    else if flow.Some? && max.Some? && flow.value > max.value then OverLimit
    else FlowNormal
  }

  /** With no times set, the window runs from midnight to 23:59:00.000
      (86 340 000 ms), so the last minute of the day already counts as out
      of hours, whatever the flow. */
  lemma DefaultWindowEndsAt2359(flow: Option<real>, max: Option<real>, nowMs: int)
    ensures FlowStatus(flow, max, None, None, nowMs) == OutOfHours <==> nowMs < 0 || nowMs > 86340000
  {
  }

  /** A flow equal to the limit is not over it. */
  lemma FlowAtLimitIsNormal(limit: real, start: Option<Clock>, end: Option<Clock>, nowMs: int)
    requires WindowStart(start) <= nowMs <= WindowEnd(end)
    ensures FlowStatus(Some(limit), Some(limit), start, end, nowMs) == FlowNormal
  {
  }

  /** Within the same window, a larger flow is over the limit whenever a
      smaller one is, and whether the time is out of hours does not depend on
      the flow or the limit at all. */
  lemma FlowStatusMonotone(a: real, b: real, max: Option<real>, start: Option<Clock>, end: Option<Clock>, nowMs: int)
    requires a <= b
    ensures FlowStatus(Some(a), max, start, end, nowMs) == OverLimit ==> FlowStatus(Some(b), max, start, end, nowMs) == OverLimit
    ensures FlowStatus(Some(b), max, start, end, nowMs) == FlowNormal ==> FlowStatus(Some(a), max, start, end, nowMs) == FlowNormal
    ensures FlowStatus(Some(a), max, start, end, nowMs) == OutOfHours <==> FlowStatus(None, None, start, end, nowMs) == OutOfHours
  {
  }

  // ---------------------------------------------------------------------------
  // Connection

  /** Freshness limit of a device's last update. */
  const FreshMs := 30 * 1000

  /** `now - new Date(updatedAt) < 30 * 1000`; an unparseable date (None) is NaN and never fresh. */
  predicate IsConnected(nowMs: int, updatedAtMs: Option<int>) {
    updatedAtMs.Some? && nowMs - updatedAtMs.value < FreshMs
  }

  const Connected := "\U{2705} Terhubung"
  const NotConnected := "\U{274C} Tidak Terhubung"

  function ConnectionLabel(nowMs: int, updatedAtMs: Option<int>): (r: string)
    ensures r == Connected <==> IsConnected(nowMs, updatedAtMs)
    ensures r == NotConnected <==> !IsConnected(nowMs, updatedAtMs)
  {
    if IsConnected(nowMs, updatedAtMs) then Connected else NotConnected
  }

  /** A device stays connected for exactly 30 000 ms after its update: at
      29 999 ms it is connected, at 30 000 ms it is not, and once stale it
      stays stale as time goes on. */
  lemma ConnectionExpires(updatedAtMs: int, nowMs: int, laterMs: int)
    requires nowMs <= laterMs
    ensures IsConnected(updatedAtMs + 29999, Some(updatedAtMs))
    ensures !IsConnected(updatedAtMs + 30000, Some(updatedAtMs))
    ensures !IsConnected(nowMs, Some(updatedAtMs)) ==> !IsConnected(laterMs, Some(updatedAtMs))
  {
  }

  // ---------------------------------------------------------------------------
  // Device filter

  /** A row of `GET /Volt_device`. */
  datatype DeviceRow = DeviceRow(id: int, userId: Value, updatedAtMs: Option<int>)

  /** The dashboard's device filter: the restricted role keeps the devices
      whose `Number(user_id)` equals the user's id, in order; other roles keep all. */
  function VisibleDevices(devices: seq<DeviceRow>, role: Option<string>, userId: Num): (r: seq<DeviceRow>)
    ensures !IsKaryawan(role) ==> r == devices
    ensures IsKaryawan(role) ==>
      forall d :: d in r <==> d in devices && NumEq(ToNumber(d.userId), userId)
  {
    if !IsKaryawan(role) then devices
    else Filter(devices, (d: DeviceRow) => NumEq(ToNumber(d.userId), userId))
  }

  /** The coercion lets a string id through: a device owned by "5" is visible
      to user 5 here, though the device and history lists compare strictly. */
  lemma StringOwnerIsVisible()
    ensures VisibleDevices([DeviceRow(1, VStr("5"), None)], Some(Karyawan), Int(5)) == [DeviceRow(1, VStr("5"), None)]
  {
    assert "5"[0] == '5';
    assert StringToNumber("5") == Int(5);
  }

  /** The filter keeps the order of the list: extending the list by one
      device extends what the restricted role sees by that device exactly
      when it is the user's own. */
  lemma VisibleDevicesAppend(devices: seq<DeviceRow>, d: DeviceRow, role: Option<string>, userId: Num)
    ensures VisibleDevices(devices + [d], role, userId) ==
      VisibleDevices(devices, role, userId) + (if !IsKaryawan(role) || NumEq(ToNumber(d.userId), userId) then [d] else [])
  {
    if IsKaryawan(role) {
      FilterSnoc(devices, d, (x: DeviceRow) => NumEq(ToNumber(x.userId), userId));
    }
  }

  /** A card of the dashboard: the device row, with its connection label
      when the detail request went through. */
  datatype Card = Card(row: DeviceRow, status: Option<string>)

  /** The reply to the device list request. */
  datatype DeviceListReply =
    | DeviceList(ok: bool, result: ResultField<DeviceRow>, total: Option<int>)
    | DeviceListUnreachable

  /** The cards of the visible devices: a device whose detail request threw
      keeps its plain row, every other one gets the label of its last update. */
  function Cards(rows: seq<DeviceRow>, detailThrows: set<int>, nowMs: int): (r: seq<Card>)
    ensures |r| == |rows|
    ensures forall k :: 0 <= k < |rows| ==>
      r[k].row == rows[k]
      && (r[k].status.None? <==> rows[k].id in detailThrows)
      && (r[k].status.Some? ==> r[k].status.value == ConnectionLabel(nowMs, rows[k].updatedAtMs))
  {
    seq(|rows|, k requires 0 <= k < |rows| =>
      Card(rows[k], if rows[k].id in detailThrows then None
                    else Some(ConnectionLabel(nowMs, rows[k].updatedAtMs))))
  }

  /** One run of `fetchDevices`: the cards and the page count on success; on
      any failure the list empties and the page count stays as it was. */
  function FetchDevices(reply: DeviceListReply, role: Option<string>, userId: Num, detailThrows: set<int>,
                        nowMs: int, pagesBefore: int): (r: (seq<Card>, int))
    ensures reply.DeviceListUnreachable? || !reply.ok ==> r == ([], pagesBefore)
    ensures reply.DeviceList? && reply.ok && reply.result.Items? ==>
      var visible := VisibleDevices(reply.result.items, role, userId);
      && |r.0| == |visible|
      && (forall k :: 0 <= k < |visible| ==> r.0[k].row == visible[k])
      && r.1 == PageCountOrOne(reply.total, DevicesPerPage)
    ensures reply.DeviceList? && reply.ok && reply.result.Missing? ==> r == ([], PageCountOrOne(reply.total, DevicesPerPage))
  {
    match reply
    case DeviceListUnreachable => ([], pagesBefore)
    case DeviceList(ok, result, total) =>
      if !ok then ([], pagesBefore)
      else match ItemsOrEmpty(result)
        case None => ([], pagesBefore)
        case Some(rows) =>
          (Cards(VisibleDevices(rows, role, userId), detailThrows, nowMs), PageCountOrOne(total, DevicesPerPage))
  }

  /** After a successful list request a restricted user gets a card for each
      of their own devices and for nothing else, in the list's order, and any
      other user gets a card for every device listed. */
  lemma CardsShowOwnDevices(reply: DeviceListReply, role: Option<string>, userId: Num, detailThrows: set<int>,
                            nowMs: int, pagesBefore: int)
    requires reply.DeviceList? && reply.ok && reply.result.Items?
    ensures var cards := FetchDevices(reply, role, userId, detailThrows, nowMs, pagesBefore).0;
      && (!IsKaryawan(role) ==>
            |cards| == |reply.result.items| && forall k :: 0 <= k < |cards| ==> cards[k].row == reply.result.items[k])
      && (IsKaryawan(role) ==> forall c :: c in cards ==>
            c.row in reply.result.items && NumEq(ToNumber(c.row.userId), userId))
      && (IsKaryawan(role) ==> forall d :: d in reply.result.items && NumEq(ToNumber(d.userId), userId) ==>
            exists c :: c in cards && c.row == d)
  {
    var visible := VisibleDevices(reply.result.items, role, userId);
    var cards := FetchDevices(reply, role, userId, detailThrows, nowMs, pagesBefore).0;
    if IsKaryawan(role) {
      forall c | c in cards
        ensures c.row in reply.result.items && NumEq(ToNumber(c.row.userId), userId)
      {
        var k :| 0 <= k < |cards| && cards[k] == c;
        assert visible[k] in visible;
      }
      forall d | d in reply.result.items && NumEq(ToNumber(d.userId), userId)
        ensures exists c :: c in cards && c.row == d
      {
        assert d in visible;
        var k :| 0 <= k < |visible| && visible[k] == d;
        assert cards[k] in cards;
      }
    }
  }

  // ---------------------------------------------------------------------------
  // Labels

  const Labels: map<string, string> := map[
    "tegangan1" := "Tegangan rs",
    "tegangan2" := "Tegangan st",
    "tegangan3" := "Tegangan rt",
    "tegangan4" := "Tegangan rs",
    "tegangan5" := "Tegangan st",
    "tegangan6" := "Tegangan rt",
    "flow_rate" := "Flow Rate",
    "total_flow_today" := "Total Air/Hari",
    "totalKwH" := "Total kWh",
    "Daya" := "Konsumsi Daya (Watt)"
  ]

  /** `formatLabel`: a known field gets its label, any other key is shown as is. */
  function FormatLabel(key: string): (r: string)
    ensures key in Labels ==> r == Labels[key]
    ensures key !in Labels ==> r == key
  {
    if key in Labels && Labels[key] != [] then Labels[key] else key
  }

  /** The two groups of three voltage channels share their labels. */
  lemma ChannelLabelsRepeat()
    ensures FormatLabel("tegangan1") == FormatLabel("tegangan4")
    ensures FormatLabel("tegangan2") == FormatLabel("tegangan5")
    ensures FormatLabel("tegangan3") == FormatLabel("tegangan6")
    ensures FormatLabel("tegangan7") == "tegangan7"
  {
  }

  /** Every key other than the ten known fields is shown as it is, and no
      known field is: each has a label that differs from its key. Two
      different fields share a label only when they are the same channel of
      the two groups of three. */
  lemma FormatLabelKnownExactly(key: string, other: string)
    ensures FormatLabel(key) == key <==> key !in Labels
    ensures key in Labels && other in Labels && key != other && FormatLabel(key) == FormatLabel(other) ==>
      SameChannel(key, other)
  {
  }

  /** Channels k and k + 3 of the voltage readings. */
  predicate SameChannel(a: string, b: string) {
    (a, b) in {("tegangan1", "tegangan4"), ("tegangan2", "tegangan5"), ("tegangan3", "tegangan6"),
                ("tegangan4", "tegangan1"), ("tegangan5", "tegangan2"), ("tegangan6", "tegangan3")}
  }
}

=== FILE: device_detail.dfy ===
/** The device detail page: 20-point voltage and flow histories appended
    together under one time label, the axis bounds over the readings that
    are numbers, and the realtime-refresh request. */
module DeviceDetail {
  import opened Js
  import opened Readings
  import opened Window
  import Calibration

  /** Points each detail chart keeps. */
  const HistoryCap := 20

  /** A point of the flow chart. */
  datatype FlowPoint = FlowPoint(time: string, flow: Option<real>)

  /** A device reply: its six voltages (the point's own time is not used) and its flow rate. */
  datatype Snapshot = Snapshot(volts: VoltPoint, flowRate: Option<real>)

  datatype DetailState = DetailState(
    device: Option<Snapshot>,
    loading: bool,
    voltageHistory: seq<VoltPoint>,
    flowHistory: seq<FlowPoint>)

  const InitialDetail := DetailState(None, true, [], [])

  function VoltTime(p: VoltPoint): string { p.time }
  function FlowTime(p: FlowPoint): string { p.time }

  /** The two histories move in step: within the cap, and with the same
      time labels point by point. */
  ghost predicate InStep(st: DetailState) {
    && |st.voltageHistory| <= HistoryCap
    && Project(st.voltageHistory, VoltTime) == Project(st.flowHistory, FlowTime)
  }

  /** `fetchDevice`: on success the device is replaced and both histories get
      a point stamped with the same local time label; on failure they stay.
      Loading ends either way. */
  function FetchDevice(st: DetailState, reply: Option<Snapshot>, timestamp: string): (r: DetailState)
    ensures !r.loading
    ensures reply.None? ==> r == st.(loading := false)
    ensures reply.Some? ==>
      && r.device == reply
      && 1 <= |r.voltageHistory| <= HistoryCap && 1 <= |r.flowHistory| <= HistoryCap
      && r.voltageHistory[|r.voltageHistory| - 1] == reply.value.volts.(time := timestamp)
      && r.flowHistory[|r.flowHistory| - 1] == FlowPoint(timestamp, reply.value.flowRate)
    ensures InStep(st) ==> InStep(r)
  {
    match reply
    case None => st.(loading := false)
    case Some(snap) =>
      var v := Push(st.voltageHistory, snap.volts.(time := timestamp), HistoryCap);
      var f := Push(st.flowHistory, FlowPoint(timestamp, snap.flowRate), HistoryCap);
      PushInStep(st.voltageHistory, st.flowHistory, snap.volts.(time := timestamp), FlowPoint(timestamp, snap.flowRate));
      DetailState(reply, false, v, f)
  }

  /** Pushing one point stamped alike onto each of two histories in step keeps them in step. */
  lemma PushInStep(vs: seq<VoltPoint>, fs: seq<FlowPoint>, v: VoltPoint, f: FlowPoint)
    requires v.time == f.time
    ensures InStep(DetailState(None, false, vs, fs)) ==>
      InStep(DetailState(None, false, Push(vs, v, HistoryCap), Push(fs, f, HistoryCap)))
  {
    PushProject(vs, v, HistoryCap, VoltTime);
    PushProject(fs, f, HistoryCap, FlowTime);
  }

  /** The state after a series of fetches, each with its reply and time label. */
  function FetchAll(st: DetailState, replies: seq<(Option<Snapshot>, string)>): DetailState
    decreases |replies|
  {
    if replies == [] then st
    else FetchAll(FetchDevice(st, replies[0].0, replies[0].1), replies[1..])
  }

  /** From the initial state, the histories stay in step whatever the fetches return. */
  lemma {:induction false} HistoriesStayInStep(st: DetailState, replies: seq<(Option<Snapshot>, string)>)
    requires InStep(st)
    ensures InStep(FetchAll(st, replies))
    decreases |replies|
  {
    if replies != [] {
      HistoriesStayInStep(FetchDevice(st, replies[0].0, replies[0].1), replies[1..]);
    }
  }

  lemma InitialIsInStep()
    ensures InStep(InitialDetail)
  {
  }

  /** What the page shows. */
  datatype View = Loading | NotFound | Shown(device: Snapshot)

  function ViewOf(st: DetailState): (v: View)
    ensures v.Loading? <==> st.loading
    ensures v.NotFound? <==> !st.loading && st.device.None?
    ensures v.Shown? ==> st.device == Some(v.device)
  {
    if st.loading then Loading
    else if st.device.None? then NotFound
    else Shown(st.device.value)
  }

  /** A first fetch that fails leaves the page reporting the device as not found. */
  lemma FailedFirstFetchIsNotFound(timestamp: string)
    ensures ViewOf(FetchDevice(InitialDetail, None, timestamp)) == NotFound
  {
  }

  // ---------------------------------------------------------------------------
  // Axis bounds

  /** The six readings of a point that are numbers. */
  function PointNumbers(p: VoltPoint): seq<real> {
    (if p.t1.Some? then [p.t1.value] else [])
    + (if p.t2.Some? then [p.t2.value] else [])
    + (if p.t3.Some? then [p.t3.value] else [])
    + (if p.t4.Some? then [p.t4.value] else [])
    + (if p.t5.Some? then [p.t5.value] else [])
    + (if p.t6.Some? then [p.t6.value] else [])
  }

  /** `allVoltages`: every reading of every point, NaN dropped. */
  function AllVoltages(history: seq<VoltPoint>): seq<real>
    decreases |history|
  {
    if history == [] then []
    else AllVoltages(history[..|history| - 1]) + PointNumbers(history[|history| - 1])
  }

  lemma PointNumbersMembers(p: VoltPoint, x: real)
    ensures x in PointNumbers(p) <==> exists c :: Volt(p, c) == Some(x)
  {
    if Volt(p, T1) == Some(x) || Volt(p, T2) == Some(x) || Volt(p, T3) == Some(x)
      || Volt(p, T4) == Some(x) || Volt(p, T5) == Some(x) || Volt(p, T6) == Some(x) {
    } else {
      forall c ensures Volt(p, c) != Some(x) {
        assert c == T1 || c == T2 || c == T3 || c == T4 || c == T5 || c == T6;
      }
    }
  }

  /** A number is among `allVoltages` exactly when some point reads it on some channel. */
  lemma {:induction false} AllVoltagesMembers(history: seq<VoltPoint>, x: real)
    ensures x in AllVoltages(history) <==> exists k, c :: 0 <= k < |history| && Volt(history[k], c) == Some(x)
    decreases |history|
  {
    if history != [] {
      var init := history[..|history| - 1];
      AllVoltagesMembers(init, x);
      PointNumbersMembers(history[|history| - 1], x);
      assert history == init + [history[|history| - 1]];
      LastPointStep(history, init, history[|history| - 1], x);
    }
  }

  /** The step of the induction above: a reading of the history is a reading
      of all points but the last, or of the last one. */
  lemma LastPointStep(history: seq<VoltPoint>, init: seq<VoltPoint>, last: VoltPoint, x: real)
    requires history == init + [last]
    ensures (exists k, c :: 0 <= k < |history| && Volt(history[k], c) == Some(x))
       <==> (exists k, c :: 0 <= k < |init| && Volt(init[k], c) == Some(x))
            || (exists c :: Volt(last, c) == Some(x))
  {
    if exists k, c :: 0 <= k < |history| && Volt(history[k], c) == Some(x) {
      var k, c :| 0 <= k < |history| && Volt(history[k], c) == Some(x);
      if k < |init| {
        assert Volt(init[k], c) == Some(x);
      }
    }
    if exists k, c :: 0 <= k < |init| && Volt(init[k], c) == Some(x) {
      var k, c :| 0 <= k < |init| && Volt(init[k], c) == Some(x);
      assert history[k] == init[k];
    }
    if exists c :: Volt(last, c) == Some(x) {
      var c :| Volt(last, c) == Some(x);
      assert history[|init|] == last;
    }
  }

  /** `paddedMin` and `paddedMax`: 10 V around the extreme readings, whole
      volts outwards; with no numeric reading the extremes are taken as 0. */
  function AxisBounds(history: seq<VoltPoint>): (r: (int, int))
    ensures AllVoltages(history) == [] ==> r == (-10, 10)
    ensures forall x :: x in AllVoltages(history) ==> r.0 as real <= x - 10.0 && x + 10.0 <= r.1 as real
    ensures AllVoltages(history) != [] ==>
      (exists x :: x in AllVoltages(history) && x - 10.0 < r.0 as real + 1.0)
      && (exists x :: x in AllVoltages(history) && r.1 as real - 1.0 < x + 10.0)
  {
    var vs := AllVoltages(history);
    var lo := if vs != [] then MinOf(vs) else 0.0;
    var hi := if vs != [] then MaxOf(vs) else 0.0;
    assert forall x :: x in vs ==> exists k :: 0 <= k < |vs| && vs[k] == x;
    (Floor(lo - 10.0), Ceil(hi + 10.0))
  }

  /** Every numeric reading on the chart lies at least 10 V inside the bounds. */
  lemma BoundsEncloseReadings(history: seq<VoltPoint>, k: int, c: Channel)
    requires 0 <= k < |history| && Volt(history[k], c).Some?
    ensures AxisBounds(history).0 as real <= Volt(history[k], c).value - 10.0
    ensures Volt(history[k], c).value + 10.0 <= AxisBounds(history).1 as real
  {
    AllVoltagesMembers(history, Volt(history[k], c).value);
  }

  // ---------------------------------------------------------------------------
  // Realtime refresh

  datatype RefreshOutcome = NoToken | Refreshed | RefreshFailed

  /** `handleRefreshRealtime`: no request without a device token. */
  function RefreshRealtime(token: Option<string>, requestOk: bool): (r: RefreshOutcome)
    ensures r.NoToken? <==> !Present(token)
    ensures r.Refreshed? <==> Present(token) && requestOk
  {
    if !Present(token) then NoToken
    else if requestOk then Refreshed
    else RefreshFailed
  }

  const NoTokenMessage := "Token perangkat belum tersedia."
  const RefreshedMessage := "\U{2705} Data realtime diperbarui. Silakan tunggu sebentar..."
  const RefreshFailedMessage := "Gagal memperbarui data realtime."

  /** The alert each outcome of the refresh shows. */
  function RefreshAlert(r: RefreshOutcome): (m: string)
    ensures m == NoTokenMessage || m == RefreshedMessage || m == RefreshFailedMessage
  {
    match r
    case NoToken => NoTokenMessage
    case Refreshed => RefreshedMessage
    case RefreshFailed => RefreshFailedMessage
  }

  /** The alert tells the user which of the three things happened: no
      request for want of a device token, a request that went through, or
      one that failed. */
  lemma RefreshAlertTellsOutcome(token: Option<string>, requestOk: bool)
    ensures RefreshAlert(RefreshRealtime(token, requestOk)) == NoTokenMessage <==> !Present(token)
    ensures RefreshAlert(RefreshRealtime(token, requestOk)) == RefreshedMessage <==> Present(token) && requestOk
    ensures RefreshAlert(RefreshRealtime(token, requestOk)) == RefreshFailedMessage <==> Present(token) && !requestOk
  {
  }

  /** The refresh on this page and the calibration toggle guard their
      requests on the same device token: either both send one or neither does. */
  lemma RefreshAndToggleShareTokenGate(token: Option<string>, requestOk: bool, running: bool)
    ensures !RefreshRealtime(token, requestOk).NoToken? <==> Calibration.HandleToggle(running, token, requestOk).requested
    ensures RefreshRealtime(token, requestOk).Refreshed? <==>
      Calibration.HandleToggle(running, token, requestOk).running != running
  {
  }
}

=== FILE: device_form.dfy ===
/** The add-device form: field changes, the guard against double
    submission, the required-field check and the create payload. */
module DeviceForm {
  import opened Js

  /** The form's inputs, all strings. */
  datatype DeviceForm = DeviceForm(name: string, userId: string, maxFlowDaily: string,
                                   startTime: string, endTime: string, daya: string)

  const InitialDeviceForm := DeviceForm("", "", "", "", "", "")

  datatype FormField = Name | UserId | MaxFlowDaily | StartTime | EndTime | Daya

  function Get(f: DeviceForm, field: FormField): string {
    match field
    case Name => f.name
    case UserId => f.userId
    case MaxFlowDaily => f.maxFlowDaily
    case StartTime => f.startTime
    case EndTime => f.endTime
    case Daya => f.daya
  }

  /** `handleChange`: the named input takes the new value, the others keep theirs. */
  function HandleChange(f: DeviceForm, field: FormField, value: string): (r: DeviceForm)
    ensures Get(r, field) == value
    ensures forall other :: other != field ==> Get(r, other) == Get(f, other)
  {
    match field
    case Name => f.(name := value)
    case UserId => f.(userId := value)
    case MaxFlowDaily => f.(maxFlowDaily := value)
    case StartTime => f.(startTime := value)
    case EndTime => f.(endTime := value)
    case Daya => f.(daya := value)
  }

  /** The device a submission creates. The two `parseFloat` fields are kept
      as the raw strings; the six voltages and the flow rate start at 0. */
  datatype Payload = Payload(name: string, userId: Num, maxFlowDaily: string, startTime: string, endTime: string,
                             tegangan: seq<int>, flowRate: int, daya: string)

  function CreatePayload(f: DeviceForm): (p: Payload)
    ensures p.name == f.name && p.userId == ParseInt(f.userId)
    ensures p.startTime == f.startTime && p.endTime == f.endTime
    ensures |p.tegangan| == 6 && (forall k :: 0 <= k < 6 ==> p.tegangan[k] == 0) && p.flowRate == 0
  {
    Payload(f.name, ParseInt(f.userId), f.maxFlowDaily, f.startTime, f.endTime, [0, 0, 0, 0, 0, 0], 0, f.daya)
  }

  /** A name of white space only, or no user chosen, fails validation. */
  predicate Valid(f: DeviceForm) {
    Trim(f.name) != [] && f.userId != []
  }

  /** The module-wide `isSubmitting` flag and the `isLoading` state. */
  datatype Guard = Guard(submitting: bool, loading: bool)

  datatype SubmitOutcome = Ignored | Rejected | Created(payload: Payload) | CreateFailed(payload: Payload)

  /** `handleSubmit`: ignored while a submission is in flight; rejected with
      no request when invalid; otherwise the payload is posted. Every path
      that got past the guard lowers both flags again. */
  function Submit(g: Guard, f: DeviceForm, requestOk: bool): (r: (Guard, SubmitOutcome))
    ensures g.submitting || g.loading ==> r == (g, Ignored)
    ensures !(g.submitting || g.loading) ==> r.0 == Guard(false, false)
    ensures r.1.Rejected? <==> !(g.submitting || g.loading) && !Valid(f)
    ensures r.1.Created? <==> !(g.submitting || g.loading) && Valid(f) && requestOk
    ensures r.1.Created? || r.1.CreateFailed? ==> r.1.payload == CreatePayload(f)
  {
    if g.submitting || g.loading then (g, Ignored)
    else if !Valid(f) then (Guard(false, g.loading), Rejected)
    else if requestOk then (Guard(false, false), Created(CreatePayload(f)))
    else (Guard(false, false), CreateFailed(CreatePayload(f)))
  }

  /** A blank or white-space name is rejected before any request. */
  lemma BlankNameRejected(g: Guard, f: DeviceForm, requestOk: bool)
    requires !g.submitting && !g.loading
    requires forall k :: 0 <= k < |f.name| ==> IsSpace(f.name[k])
    ensures Submit(g, f, requestOk).1 == Rejected
    ensures Submit(g, f, requestOk).0 == g
  {
    TrimEmptyIffBlank(f.name);
  }

  /** White space is JavaScript's: an ideographic space, a no-break space or
      an em space is as blank as an ASCII space. */
  lemma UnicodeSpaceNameRejected(g: Guard, requestOk: bool)
    requires !g.submitting && !g.loading
    ensures Submit(g, InitialDeviceForm.(name := "\U{3000}", userId := "1"), requestOk).1 == Rejected
    ensures Submit(g, InitialDeviceForm.(name := "\U{00A0}\U{2003} ", userId := "1"), requestOk).1 == Rejected
  {
    var ideographic, mixed := "\U{3000}", "\U{00A0}\U{2003} ";
    assert |ideographic| == 1 && IsSpace(ideographic[0]);
    TrimEmptyIffBlank(ideographic);
    assert |mixed| == 3 && IsSpace(mixed[0]) && IsSpace(mixed[1]) && IsSpace(mixed[2]);
    TrimEmptyIffBlank(mixed);
  }

  /** A letter between such spaces makes the name valid. */
  lemma LetterBetweenSpacesPasses(g: Guard, requestOk: bool)
    requires !g.submitting && !g.loading
    ensures !Submit(g, InitialDeviceForm.(name := "\U{3000}A\U{3000}", userId := "1"), requestOk).1.Rejected?
  {
    var lettered := "\U{3000}A\U{3000}";
    assert !IsSpace(lettered[1]);
    TrimEmptyIffBlank(lettered);
  }

  /** After any submission that got past the guard, the next one is not ignored. */
  lemma GuardAlwaysReleased(g: Guard, f: DeviceForm, ok: bool, f2: DeviceForm, ok2: bool)
    requires !g.submitting && !g.loading
    ensures !Submit(Submit(g, f, ok).0, f2, ok2).1.Ignored?
  {
  }
}

=== FILE: device_lists.dfy ===
/** The device list and the device history list: one page of devices, kept
    to the user's own devices for the restricted role by STRICT equality of
    `user_id` with the parsed user id, with role-gated actions, delete
    confirmation and the copy-token request. Both pages share this logic. */
module DeviceLists {
  import opened Js
  import opened Api
  import opened Paging
  import opened Lists
  import Dashboard
  import Sidebar

  type DeviceRow = Dashboard.DeviceRow

  /** `device.user_id === userId`: a string id never matches. */
  predicate OwnedStrictly(d: DeviceRow, userId: Num) {
    StrictEqNum(d.userId, userId)
  }

  /** The list filter: the restricted role keeps its own devices, in order. */
  function OwnDevices(devices: seq<DeviceRow>, role: Option<string>, userId: Num): (r: seq<DeviceRow>)
    ensures !IsKaryawan(role) ==> r == devices
    ensures IsKaryawan(role) ==> forall d :: d in r <==> d in devices && OwnedStrictly(d, userId)
  {
    if IsKaryawan(role) then Filter(devices, (d: DeviceRow) => OwnedStrictly(d, userId)) else devices
  }

  /** The list keeps the reply's order: one more device at the end is listed
      last exactly when the viewer may see it. */
  lemma OwnDevicesAppend(devices: seq<DeviceRow>, d: DeviceRow, role: Option<string>, userId: Num)
    ensures OwnDevices(devices + [d], role, userId)
         == OwnDevices(devices, role, userId) + (if !IsKaryawan(role) || OwnedStrictly(d, userId) then [d] else [])
  {
    FilterSnoc(devices, d, (d: DeviceRow) => OwnedStrictly(d, userId));
  }

  /** Every device the list keeps, the dashboard keeps too; the converse
      fails for an id stored as a string. */
  lemma ListIsWithinDashboard(devices: seq<DeviceRow>, role: Option<string>, userId: Num)
    ensures forall d :: d in OwnDevices(devices, role, userId) ==> d in Dashboard.VisibleDevices(devices, role, userId)
    ensures var d := Dashboard.DeviceRow(1, VStr("5"), None);
      OwnDevices([d], Some(Karyawan), Int(5)) == [] && Dashboard.VisibleDevices([d], Some(Karyawan), Int(5)) == [d]
  {
    Dashboard.StringOwnerIsVisible();
    var d := Dashboard.DeviceRow(1, VStr("5"), None);
    assert !OwnedStrictly(d, Int(5));
  }

  /** The device list reply: `result` (None when it is not a list) and `metadata.total`. */
  datatype ListReply = ListReply(result: Option<seq<DeviceRow>>, total: Option<int>) | ListFailed

  /** What the page holds: the devices (None once a non-list result was
      stored), the loading flag and the page count, NaN without a total. */
  datatype ListState = ListState(devices: Option<seq<DeviceRow>>, loading: bool, totalPages: Num)

  /** `fetchDevices`: a failed request, or a restricted user's filter over a
      result that is not a list, keeps the devices and page count; otherwise
      the filtered devices and `ceil(total / 5)`. Loading ends either way. */
  function FetchDevices(st: ListState, reply: ListReply, role: Option<string>, userId: Num): (r: ListState)
    ensures !r.loading
    ensures reply.ListFailed? ==> r == st.(loading := false)
    ensures reply.ListReply? && reply.result.None? && IsKaryawan(role) ==> r == st.(loading := false)
    ensures reply.ListReply? && reply.result.Some? ==>
      r.devices == Some(OwnDevices(reply.result.value, role, userId))
      && r.totalPages == PageCountNoMin(reply.total, DevicesPerPage)
  {
    match reply
    case ListFailed => st.(loading := false)
    case ListReply(result, total) =>
      if result.None? && IsKaryawan(role) then st.(loading := false)
      else
        var devices := if result.Some? then Some(OwnDevices(result.value, role, userId)) else None;
        ListState(devices, false, PageCountNoMin(total, DevicesPerPage))
  }

  /** An empty list has no pages at all, so the page indicator reads page 1 of 0. */
  lemma EmptyListHasNoPages(st: ListState, role: Option<string>, userId: Num)
    ensures FetchDevices(st, ListReply(Some([]), Some(0)), role, userId).totalPages == Int(0)
  {
  }

  /** Edit, delete, calibrate and add are offered unless the raw `role`
      entry is exactly "karyawan". */
  predicate ActionsOffered(role: Option<string>) {
    !IsKaryawan(role)
  }

  /** The actions follow the raw stored role, case and all: a user stored as
      "Karyawan" is offered edit, delete, calibrate and add here, and sees all devices,
      while the sidebar, which lowercases the role, restricts that same user. */
  lemma ActionsFollowRawRole()
    ensures !ActionsOffered(Some(Karyawan))
    ensures ActionsOffered(Some("Karyawan")) && ActionsOffered(Some("admin")) && ActionsOffered(None)
    ensures forall devices, userId :: OwnDevices(devices, Some("Karyawan"), userId) == devices
    ensures Sidebar.SidebarRole(Some("Karyawan")) == Some(Karyawan)
  {
    assert ToLower("Karyawan") == "karyawan";
  }

  const DeletedMessage := "Perangkat berhasil dihapus."
  const DeleteFailedMessage := "Gagal menghapus perangkat."

  /** The page after a delete attempt, and the alert shown (None for none). */
  datatype DeleteOutcome = DeleteOutcome(state: ListState, alert: Option<string>)

  /** `handleDelete`: nothing is sent unless confirmed; a failed delete alerts
      and leaves the page; a successful one alerts and refetches the page. */
  function DeleteDevice(st: ListState, confirmed: bool, deleteOk: bool, refetch: ListReply,
                        role: Option<string>, userId: Num): (r: DeleteOutcome)
    ensures !confirmed ==> r == DeleteOutcome(st, None)
    ensures confirmed && !deleteOk ==> r == DeleteOutcome(st, Some(DeleteFailedMessage))
    ensures confirmed && deleteOk ==>
      r.alert == Some(DeletedMessage) && r.state == FetchDevices(st, refetch, role, userId)
  {
    if !confirmed then DeleteOutcome(st, None)
    else if !deleteOk then DeleteOutcome(st, Some(DeleteFailedMessage))
    else DeleteOutcome(FetchDevices(st, refetch, role, userId), Some(DeletedMessage))
  }

  /** Once a confirmed delete succeeds and the refetched page no longer lists
      the device, the device is gone from the page; any other outcome leaves
      the page exactly as it was. */
  lemma DeletedDeviceDisappears(st: ListState, confirmed: bool, deleteOk: bool, rows: seq<DeviceRow>,
                                total: Option<int>, role: Option<string>, userId: Num, id: int)
    requires forall d :: d in rows ==> d.id != id
    ensures var r := DeleteDevice(st, confirmed, deleteOk, ListReply(Some(rows), total), role, userId);
      && (confirmed && deleteOk ==> r.state.devices.Some? && forall d :: d in r.state.devices.value ==> d.id != id)
      && (!(confirmed && deleteOk) ==> r.state == st)
  {
  }

  /** The reply to the token request. */
  datatype ScanReply = ScanReply(ok: bool, token: Option<string>) | ScanUnreachable

  const CopiedMessage := "Token berhasil disalin ke clipboard!"
  const CopyFailedMessage := "Gagal menyalin token perangkat."

  /** `handleCopyToken`: the token copied, or None when the request failed,
      was not ok, carried no token or the clipboard refused it. */
  function CopyToken(reply: ScanReply, clipboardOk: bool): (r: Option<string>)
    ensures r.Some? <==> reply.ScanReply? && reply.ok && Present(reply.token) && clipboardOk
    ensures r.Some? ==> r == reply.token
  {
    match reply
    case ScanUnreachable => None
    case ScanReply(ok, token) => if !ok || !Present(token) || !clipboardOk then None else token
  }

  /** The alert `handleCopyToken` ends with: every failure, whatever its
      cause, ends in the same message. */
  function CopyAlert(reply: ScanReply, clipboardOk: bool): (m: string)
    ensures m == CopiedMessage || m == CopyFailedMessage
  {
    match reply
    case ScanUnreachable => CopyFailedMessage
    case ScanReply(ok, token) =>
      if !ok || !Present(token) then CopyFailedMessage
      else if !clipboardOk then CopyFailedMessage
      else CopiedMessage
  }

  /** The alert tells the truth: it reports success exactly when the token
      was copied, and then the clipboard holds the reply's token. */
  lemma CopyAlertTellsOutcome(reply: ScanReply, clipboardOk: bool)
    ensures CopyAlert(reply, clipboardOk) == CopiedMessage <==> CopyToken(reply, clipboardOk).Some?
    ensures CopyAlert(reply, clipboardOk) == CopiedMessage ==> CopyToken(reply, clipboardOk) == reply.token
  {
  }
}

=== FILE: history_filter.dfy ===
/** A device's history page: the fetched page of records, the device name
    shown over it, the four filter types with their pending and applied
    inputs, and the filtered table and report. Date comparisons that depend
    on the wall clock or on date parsing arrive as predicates computed by the
    caller; the month filter is plain string logic and is modelled in full. */
module HistoryFilter {
  import opened Js
  import opened Api
  import opened Paging
  import opened Lists

  /** A history or report record: its `createdAt` string and its device `name`. */
  datatype Record = Record(createdAt: string, name: Option<string>)

  datatype FilterType = Today | Week | Hour | Month

  /** The four date and time inputs, as the pending form or the applied filter holds them. */
  datatype Inputs = Inputs(dateStart: string, dateEnd: string, timeStart: string, timeEnd: string)

  const Blank := Inputs("", "", "", "")

  datatype FilterState = FilterState(filterType: FilterType, applied: Inputs, pending: Inputs)

  /** The page opens on today's records with every input blank. */
  const InitialFilter := FilterState(Today, Blank, Blank)

  /** The comparisons against the clock: same calendar day as now, within the
      last seven days, and inside the chosen date's time window. */
  datatype Clock = Clock(isToday: Record -> bool, inLastWeek: Record -> bool, inHourWindow: Record -> bool)

  // ---------------------------------------------------------------------------
  // Inputs

  /** `handleApplyFilter`: the pending inputs become the applied filter. */
  function ApplyFilter(st: FilterState): (r: FilterState)
    ensures r.applied == st.pending
    ensures r.pending == st.pending && r.filterType == st.filterType
  {
    st.(applied := st.pending)
  }

  /** The month picker's own button, which applies only the start date. */
  function ApplyMonth(st: FilterState): (r: FilterState)
    ensures r.applied.dateStart == st.pending.dateStart
    ensures r.applied.(dateStart := st.applied.dateStart) == st.applied
    ensures r.pending == st.pending && r.filterType == st.filterType
  {
    st.(applied := st.applied.(dateStart := st.pending.dateStart))
  }

  /** Choosing a filter type clears the pending inputs and keeps the applied ones. */
  function ChangeType(st: FilterState, t: FilterType): (r: FilterState)
    ensures r.filterType == t && r.pending == Blank
    ensures r.applied == st.applied
  {
    FilterState(t, st.applied, Blank)
  }

  /** Applied inputs outlive a change of type: a month applied before
      switching to the hour filter is still the applied start date after it. */
  lemma AppliedSurvivesTypeChange(month: string)
    ensures var st := ApplyMonth(InitialFilter.(filterType := Month, pending := Blank.(dateStart := month)));
      ChangeType(st, Hour).applied.dateStart == month && ChangeType(st, Hour).pending == Blank
  {
  }

  // ---------------------------------------------------------------------------
  // Filters

  /** The records of the month (or any prefix) chosen: `createdAt.startsWith(prefix)`. */
  function MonthFilter(records: seq<Record>, prefix: string): (r: seq<Record>)
    ensures forall x :: x in r <==> x in records && StartsWith(x.createdAt, prefix)
  {
    Filter(records, (x: Record) => StartsWith(x.createdAt, prefix))
  }

  /** An empty prefix keeps every record, in order. */
  lemma EmptyPrefixKeepsAll(records: seq<Record>)
    ensures MonthFilter(records, "") == records
  {
    FilterKeepsAll(records, (x: Record) => StartsWith(x.createdAt, ""));
  }

  /** Whether the hour filter has what it needs: a date and both times. */
  predicate HourReady(f: Inputs) {
    f.dateStart != [] && f.timeStart != [] && f.timeEnd != []
  }

  /** The table's filter effect. With no raw data the table keeps what it
      had; an hour filter that lacks an input, or a month filter with no
      month, shows the raw data unfiltered. */
  function FilterTable(st: FilterState, rawData: seq<Record>, history: seq<Record>, filtered: seq<Record>, clock: Clock): (r: seq<Record>)
    ensures rawData == [] ==> r == filtered
    ensures rawData != [] && st.filterType == Hour && !HourReady(st.applied) ==> r == rawData
    ensures rawData != [] && st.filterType == Month && st.applied.dateStart == [] ==> r == rawData
    ensures rawData != [] && st.filterType == Month && st.applied.dateStart != [] ==>
      r == MonthFilter(history, st.applied.dateStart)
    ensures rawData != [] && st.filterType == Hour && HourReady(st.applied) ==>
      forall x :: x in r <==> x in history && clock.inHourWindow(x)
    ensures rawData != [] && st.filterType == Today ==> forall x :: x in r <==> x in history && clock.isToday(x)
    ensures rawData != [] && st.filterType == Week ==> forall x :: x in r <==> x in history && clock.inLastWeek(x)
  {
    if rawData == [] then filtered
    else match st.filterType
      case Today => Filter(history, clock.isToday)
      case Week => Filter(history, clock.inLastWeek)
      case Hour => if HourReady(st.applied) then Filter(history, clock.inHourWindow) else rawData
      case Month => if st.applied.dateStart != [] then MonthFilter(history, st.applied.dateStart) else rawData
  }

  /** The report's filter effect: nothing happens on the today view; the
      month and hour filters apply only when their inputs are there. */
  function FilterReport(st: FilterState, report: seq<Record>, filteredReport: seq<Record>, clock: Clock): (r: seq<Record>)
    ensures st.filterType == Today ==> r == filteredReport
    ensures st.filterType == Hour && !HourReady(st.applied) ==> r == report
    ensures st.filterType == Month ==> r == MonthFilter(report, st.applied.dateStart)
    ensures st.filterType == Hour && HourReady(st.applied) ==>
      forall x :: x in r <==> x in report && clock.inHourWindow(x)
    ensures st.filterType == Week ==> forall x :: x in r <==> x in report && clock.inLastWeek(x)
  {
    match st.filterType
    case Today => filteredReport
    case Month =>
      if st.applied.dateStart != [] then MonthFilter(report, st.applied.dateStart)
      else EmptyPrefixKeepsAll(report); report
    case Hour => if HourReady(st.applied) then Filter(report, clock.inHourWindow) else report
    case Week => Filter(report, clock.inLastWeek)
  }

  /** On the month view the table and the report agree with the month
      filter, applied or not, once the table has data. */
  lemma MonthViewsAgree(st: FilterState, rawData: seq<Record>, filtered: seq<Record>, report: seq<Record>, fr: seq<Record>, clock: Clock)
    requires st.filterType == Month && rawData != []
    ensures FilterTable(st, rawData, rawData, filtered, clock) == MonthFilter(rawData, st.applied.dateStart)
    ensures FilterReport(st, report, fr, clock) == MonthFilter(report, st.applied.dateStart)
  {
    EmptyPrefixKeepsAll(rawData);
  }

  /** The report request's reply: `json.data.result`. */
  datatype ReportReply = ReportReply(ok: bool, result: ResultField<Record>) | ReportUnreachable

  /** `fetchReportData`: the reply's list, nothing for a missing result or a
      failed request. None stands for a result that is not a list, which is
      stored as it came. */
  function FetchReport(reply: ReportReply): (r: Option<seq<Record>>)
    ensures reply.ReportUnreachable? || !reply.ok ==> r == Some([])
    ensures r.None? <==> reply.ReportReply? && reply.ok && reply.result.NotArray?
    ensures reply.ReportReply? && reply.ok && reply.result.Items? ==> r == Some(reply.result.items)
    ensures reply.ReportReply? && reply.ok && reply.result.Missing? ==> r == Some([])
  {
    match reply
    case ReportUnreachable => Some([])
    case ReportReply(ok, result) => if ok then ItemsOrEmpty(result) else Some([])
  }

  /** After a failed report request every filter but today's shows an empty report. */
  lemma FailedReportShowsNothing(st: FilterState, fr: seq<Record>, clock: Clock)
    requires st.filterType != Today
    ensures FilterReport(st, FetchReport(ReportUnreachable).value, fr, clock) == []
  {
  }

  // ---------------------------------------------------------------------------
  // Fetching a page

  /** The history request's reply: `data.result` and `data.metadata.total`. */
  datatype HistoryReply =
    | HistoryReply(ok: bool, result: ResultField<Record>, total: Option<int>)
    | HistoryUnreachable

  datatype PageState = PageState(
    deviceName: string,
    totalPages: int,
    rawData: seq<Record>,
    history: seq<Record>,
    filtered: seq<Record>,
    notFound: bool)

  /** The heading's device name: the first record's name, else `Perangkat <id>`. */
  function DeviceName(data: seq<Record>, id: string): (r: string)
    ensures data != [] && Present(data[0].name) ==> r == data[0].name.value
    ensures !(data != [] && Present(data[0].name)) ==> r == "Perangkat " + id
  {
    if data != [] && Present(data[0].name) then data[0].name.value else "Perangkat " + id
  }

  /** `fetchTokenAndHistory`. A failed request changes nothing but leads to
      the not-found page. A result that is not a list still sets the page
      count and the fallback name before the `map` over it throws. */
  function FetchHistory(st: PageState, reply: HistoryReply, id: string): (r: PageState)
    ensures reply.HistoryUnreachable? || !reply.ok ==> r == st.(notFound := true)
    ensures reply.HistoryReply? && reply.ok ==> r.totalPages == PageCountOrOne(reply.total, DevicesPerPage)
    ensures reply.HistoryReply? && reply.ok && reply.result.NotArray? ==>
      r == st.(totalPages := r.totalPages, deviceName := "Perangkat " + id, notFound := true)
    ensures reply.HistoryReply? && reply.ok && !reply.result.NotArray? ==>
      var data := if reply.result.Items? then reply.result.items else [];
      && r.rawData == r.history == r.filtered == data
      && r.deviceName == DeviceName(data, id)
      && r.notFound == st.notFound
  {
    match reply
    case HistoryUnreachable => st.(notFound := true)
    case HistoryReply(ok, result, total) =>
      if !ok then st.(notFound := true)
      else
        var pages := PageCountOrOne(total, DevicesPerPage);
        match ItemsOrEmpty(result)
        case None => st.(totalPages := pages, deviceName := "Perangkat " + id, notFound := true)
        case Some(data) => st.(totalPages := pages, deviceName := DeviceName(data, id),
                               rawData := data, history := data, filtered := data)
  }

  /** Whatever filter is chosen, once a page has been fetched the table shows
      only records of that page; on the month view it shows exactly the
      page's records of that month, in order. */
  lemma FetchedPageFeedsTable(st: PageState, reply: HistoryReply, id: string, fs: FilterState, clock: Clock)
    requires reply.HistoryReply? && reply.ok && !reply.result.NotArray?
    ensures var r := FetchHistory(st, reply, id);
      var data := if reply.result.Items? then reply.result.items else [];
      && (forall x :: x in FilterTable(fs, r.rawData, r.history, r.filtered, clock) ==> x in data)
      && (fs.filterType == Month ==>
            FilterTable(fs, r.rawData, r.history, r.filtered, clock) == MonthFilter(data, fs.applied.dateStart))
  {
    var data := if reply.result.Items? then reply.result.items else [];
    EmptyPrefixKeepsAll(data);
    if data == [] {
      assert MonthFilter(data, fs.applied.dateStart) == [];
    }
  }
}

=== FILE: js.dfy ===
/** JavaScript value semantics that the application's decision rules depend on:
    truthiness, strict equality, `Number()` / `parseInt` coercion of the
    strings this application stores, `String.prototype.includes`,
    `startsWith`, `trim`, ASCII `toLowerCase` and `Math.ceil` of a quotient. */
module Js {

  datatype Option<+T> = None | Some(value: T)

  /** A JavaScript number restricted to integers, plus NaN. */
  datatype Num = NaN | Int(i: int)

  /** A JSON scalar as it arrives from the backend or from storage. */
  datatype Value = VNum(n: int) | VStr(s: string) | VBool(b: bool) | VNull | VUndefined

  /** JavaScript truthiness of a JSON scalar. */
  predicate Truthy(v: Value) {
    match v
    case VNum(n) => n != 0
    case VStr(s) => s != []
    case VBool(b) => b
    case _ => false
  }

  /** `!!s` for an optional string: present and nonempty. */
  predicate Present(s: Option<string>) {
    s.Some? && s.value != []
  }

  /** `opt || fallback` for an optional string field: empty and missing fall through. */
  function OrElse(s: Option<string>, fallback: string): string {
    if Present(s) then s.value else fallback
  }

  /** `a === b` for a number: NaN equals nothing, not even NaN. */
  predicate NumEq(a: Num, b: Num) {
    a.Int? && b.Int? && a.i == b.i
  }

  /** `v === n` for a JSON scalar against a number: no coercion. */
  predicate StrictEqNum(v: Value, n: Num) {
    v.VNum? && n.Int? && v.n == n.i
  }

  // ---------------------------------------------------------------------------
  // Decimal digits

  predicate IsDigit(c: char) {
    '0' <= c <= '9'
  }

  predicate AllDigits(s: string) {
    forall k :: 0 <= k < |s| ==> IsDigit(s[k])
  }

  function DigitChar(d: nat): (c: char)
    requires d < 10
    ensures IsDigit(c)
  {
    ['0', '1', '2', '3', '4', '5', '6', '7', '8', '9'][d]
  }

  function DigitValue(c: char): (d: nat)
    requires IsDigit(c)
    ensures d < 10
  {
    (c as int - '0' as int) as nat
  }

  lemma DigitValueOfDigitChar(d: nat)
    requires d < 10
    ensures DigitValue(DigitChar(d)) == d
  {
  }

  /** Value of a string of decimal digits, most significant first. */
  function DigitsValue(s: string): nat
    requires AllDigits(s)
  {
    if s == [] then 0 else DigitsValue(s[..|s| - 1]) * 10 + DigitValue(s[|s| - 1])
  }

  /** Decimal rendering of a natural number, as `${n}` produces it. */
  function NatToString(n: nat): (s: string)
    ensures s != [] && AllDigits(s)
    ensures n > 0 ==> s[0] != '0'
  {
    if n < 10 then [DigitChar(n)] else NatToString(n / 10) + [DigitChar(n % 10)]
  }

  /** Decimal rendering of an integer, as `${i}` and `String(i)` produce it. */
  function IntToString(i: int): (s: string)
    ensures s != []
    ensures i >= 0 <==> IsDigit(s[0])
  {
    if i >= 0 then NatToString(i) else "-" + NatToString(-i)
  }

  lemma {:induction false} DigitsValueOfNatToString(n: nat)
    ensures DigitsValue(NatToString(n)) == n
  {
    if n < 10 {
      DigitValueOfDigitChar(n);
    } else {
      var s := NatToString(n);
      var p := NatToString(n / 10);
      assert s == p + [DigitChar(n % 10)];
      assert s[..|s| - 1] == p;
      DigitsValueOfNatToString(n / 10);
      DigitValueOfDigitChar(n % 10);
    }
  }

  /** The longest prefix of `s` made of decimal digits. */
  function LeadingDigits(s: string): (p: string)
    ensures |p| <= |s| && p == s[..|p|]
    ensures AllDigits(p)
    ensures |p| < |s| ==> !IsDigit(s[|p|])
  {
    if s == [] || !IsDigit(s[0]) then [] else [s[0]] + LeadingDigits(s[1..])
  }

  /** `Number(s)` for the strings this application writes: an optional `-`
      or `+` followed by decimal digits; the empty string reads as 0; anything
      else (decimals, exponents, surrounding white space are not modelled) is NaN. */
  function StringToNumber(s: string): (r: Num)
    ensures AllDigits(s) ==> r == Int(DigitsValue(s))
    ensures r.Int? && r.i < 0 ==> s != [] && s[0] == '-'
    ensures r.Int? && s != [] && !IsDigit(s[0]) ==> (s[0] == '-' || s[0] == '+') && |s| > 1 && AllDigits(s[1..])
    ensures |s| > 1 && s[0] == '+' && AllDigits(s[1..]) ==> r == Int(DigitsValue(s[1..]))
  {
    if AllDigits(s) then Int(DigitsValue(s))
    else if (s[0] == '-' || s[0] == '+') && s[1..] != [] && AllDigits(s[1..]) then
      Int(if s[0] == '-' then -(DigitsValue(s[1..]) as int) else DigitsValue(s[1..]))
    else NaN
  }

  /** A sign on its own is not a number, and `+` before digits is ignored. */
  lemma NumberOfSigns(n: nat)
    ensures StringToNumber("+") == NaN && StringToNumber("-") == NaN
    ensures StringToNumber("+" + NatToString(n)) == Int(n)
    ensures StringToNumber("+" + NatToString(n)) == ParseInt("+" + NatToString(n))
  {
    var t := NatToString(n);
    assert ("+" + t)[0] == '+' && ("+" + t)[1..] == t;
    assert !IsDigit(("+" + t)[0]);
    DigitsValueOfNatToString(n);
    LeadingDigitsOfAllDigits(t);
  }

  /** `parseInt(s, 10)`: an optional sign, then the longest run of digits;
      NaN when there is none (leading white space is not modelled). */
  function ParseInt(s: string): (r: Num)
    ensures s == [] ==> r == NaN
    ensures r.Int? ==> exists k :: 0 <= k < |s| && IsDigit(s[k])
  {
    if s != [] && (s[0] == '-' || s[0] == '+') then
      var ds := LeadingDigits(s[1..]);
      if ds == [] then NaN
      else
        assert IsDigit(s[1..][0]);
        Int(if s[0] == '-' then -(DigitsValue(ds) as int) else DigitsValue(ds))
    else
      var ds := LeadingDigits(s);
      if ds == [] then NaN else assert IsDigit(s[0]); Int(DigitsValue(ds))
  }

  lemma LeadingDigitsOfAllDigits(s: string)
    requires AllDigits(s)
    ensures LeadingDigits(s) == s
  {
  }

  /** Writing an integer with `${i}` and reading it back with `Number()` is the identity. */
  lemma StringToNumberOfIntToString(i: int)
    ensures StringToNumber(IntToString(i)) == Int(i)
  {
    if i >= 0 {
      DigitsValueOfNatToString(i);
    } else {
      NumberOfMinusDigits(-i);
    }
  }

  lemma NumberOfMinusDigits(n: nat)
    requires n > 0
    ensures StringToNumber("-" + NatToString(n)) == Int(-(n as int))
  {
    var t := NatToString(n);
    var s := "-" + t;
    assert !IsDigit(s[0]);
    assert s[0] == '-' && s[1..] == t;
    DigitsValueOfNatToString(n);
  }

  /** Writing an integer with `String(i)` and reading it back with `parseInt` is the identity. */
  lemma ParseIntOfIntToString(i: int)
    ensures ParseInt(IntToString(i)) == Int(i)
  {
    if i >= 0 {
      ParseIntOfDigits(i);
    } else {
      ParseIntOfMinusDigits(-i);
    }
  }

  lemma ParseIntOfDigits(n: nat)
    ensures ParseInt(NatToString(n)) == Int(n)
  {
    var s := NatToString(n);
    assert IsDigit(s[0]);
    LeadingDigitsOfAllDigits(s);
    DigitsValueOfNatToString(n);
  }

  lemma ParseIntOfMinusDigits(n: nat)
    ensures ParseInt("-" + NatToString(n)) == Int(-(n as int))
  {
    var t := NatToString(n);
    var s := "-" + t;
    assert s[0] == '-' && s[1..] == t;
    LeadingDigitsOfAllDigits(t);
    DigitsValueOfNatToString(n);
  }

  /** `Number(v)` of a JSON scalar. */
  function ToNumber(v: Value): (r: Num)
    ensures v.VNum? ==> r == Int(v.n)
    ensures v.VUndefined? ==> r == NaN
    ensures v.VNull? ==> r == Int(0)
  {
    match v
    case VNum(n) => Int(n)
    case VStr(s) => StringToNumber(s)
    case VBool(b) => Int(if b then 1 else 0)
    case VNull => Int(0)
    case VUndefined => NaN
  }

  // ---------------------------------------------------------------------------
  // Strings

  predicate StartsWith(s: string, prefix: string) {
    |prefix| <= |s| && s[..|prefix|] == prefix
  }

  /** `s.includes(sub)`, stated as an occurrence at some offset. */
  ghost predicate OccursIn(sub: string, s: string) {
    exists k :: 0 <= k <= |s| && StartsWith(s[k..], sub)
  }

  /** `s.includes(sub)` as a left-to-right search. */
  function Includes(s: string, sub: string): bool
    decreases |s|
  {
    if StartsWith(s, sub) then true
    else if s == [] then false
    else Includes(s[1..], sub)
  }

  lemma {:induction false} IncludesIffOccurs(s: string, sub: string)
    ensures Includes(s, sub) <==> OccursIn(sub, s)
    decreases |s|
  {
    if StartsWith(s, sub) {
      assert s[0..] == s;
    } else if s == [] {
      forall k | 0 <= k <= |s|
        ensures !StartsWith(s[k..], sub)
      {
        assert s[k..] == s;
      }
    } else {
      IncludesIffOccurs(s[1..], sub);
      if Includes(s[1..], sub) {
        var k :| 0 <= k <= |s[1..]| && StartsWith(s[1..][k..], sub);
        assert s[1..][k..] == s[k + 1..];
      } else {
        forall k | 0 <= k <= |s|
          ensures !StartsWith(s[k..], sub)
        {
          if k > 0 {
            assert s[1..][k - 1..] == s[k..];
          }
        }
      }
    }
  }

  /** Searching for a single character finds it exactly when it occurs. */
  lemma {:induction false} IncludesChar(s: string, c: char)
    ensures Includes(s, [c]) <==> c in s
    decreases |s|
  {
    if s != [] {
      IncludesChar(s[1..], c);
      assert s == [s[0]] + s[1..];
    }
  }

  /** The characters `String.prototype.trim` strips: the white space of
      section 12.2 of ECMA-262 (tab, vertical tab, form feed, the byte-order
      mark and every space separator of category Zs) and its line terminators
      of section 12.3 (line feed, carriage return, U+2028 and U+2029). */
  predicate IsSpace(c: char) {
    || c == '\t' || c == '\U{000B}' || c == '\U{000C}' || c == '\U{FEFF}'
    || c == '\n' || c == '\r' || c == '\U{2028}' || c == '\U{2029}'
    || c == ' ' || c == '\U{00A0}' || c == '\U{1680}' || '\U{2000}' <= c <= '\U{200A}'
    || c == '\U{202F}' || c == '\U{205F}' || c == '\U{3000}'
  }

  function TrimStart(s: string): (r: string)
    ensures |r| <= |s| && r == s[|s| - |r|..]
    ensures r != [] ==> !IsSpace(r[0])
    ensures forall k :: 0 <= k < |s| - |r| ==> IsSpace(s[k])
  {
    if s != [] && IsSpace(s[0]) then TrimStart(s[1..]) else s
  }

  function TrimEnd(s: string): (r: string)
    ensures |r| <= |s| && r == s[..|r|]
    ensures r != [] ==> !IsSpace(r[|r| - 1])
    ensures forall k :: |r| <= k < |s| ==> IsSpace(s[k])
  {
    if s != [] && IsSpace(s[|s| - 1]) then TrimEnd(s[..|s| - 1]) else s
  }

  /** `s.trim()`. */
  function Trim(s: string): string {
    TrimEnd(TrimStart(s))
  }

  /** A string trims to nothing exactly when every character is white space. */
  lemma TrimEmptyIffBlank(s: string)
    ensures Trim(s) == [] <==> forall k :: 0 <= k < |s| ==> IsSpace(s[k])
  {
    var t := TrimStart(s);
    if Trim(s) == [] {
      // A nonempty `t` would start with a non-space that trimming the end removed.
      if t != [] {
        assert false;
      }
    } else {
      assert t != [];
      assert t[0] == s[|s| - |t|];
    }
  }

  /** ASCII `toLowerCase` (other scripts are not modelled). */
  function ToLower(s: string): (r: string)
    ensures |r| == |s|
    ensures forall k :: 0 <= k < |s| && !('A' <= s[k] <= 'Z') ==> r[k] == s[k]
  {
    seq(|s|, k requires 0 <= k < |s| =>
      if 'A' <= s[k] <= 'Z' then (s[k] as int + 32) as char else s[k])
  }

  lemma ToLowerIdempotent(s: string)
    ensures ToLower(ToLower(s)) == ToLower(s)
  {
  }

  // ---------------------------------------------------------------------------
  // Arithmetic

  /** `Math.ceil(a / k)` for a positive divisor. */
  function CeilDiv(a: int, k: int): (r: int)
    requires k > 0
    ensures (r - 1) * k < a <= r * k
  {
    -((-a) / k)
  }
}

=== FILE: lists.dfy ===
/** `Array.prototype.filter`, which every list page uses to pick rows. */
module Lists {

  /** `s.filter(p)`: the elements satisfying `p`, in their original order. */
  function Filter<T>(s: seq<T>, p: T -> bool): (r: seq<T>)
    ensures |r| <= |s|
    ensures forall k :: 0 <= k < |r| ==> r[k] in s && p(r[k])
    ensures forall k :: 0 <= k < |s| && p(s[k]) ==> s[k] in r
    decreases |s|
  {
    if s == [] then []
    else
      var rest := Filter(s[1..], p);
      assert forall k :: 0 <= k < |rest| ==> rest[k] in s;
      assert forall k :: 1 <= k < |s| ==> s[k] == s[1..][k - 1];
      (if p(s[0]) then [s[0]] else []) + rest
  }

  /** Filtering distributes over concatenation, so the kept elements keep
      their relative order. */
  lemma {:induction false} FilterAppend<T>(a: seq<T>, b: seq<T>, p: T -> bool)
    ensures Filter(a + b, p) == Filter(a, p) + Filter(b, p)
    decreases |a|
  {
    if a != [] {
      assert (a + b)[1..] == a[1..] + b;
      FilterAppend(a[1..], b, p);
    } else {
      assert a + b == b;
    }
  }

  /** Filtering one more element at the end appends it exactly when it
      passes: with `Filter([], p) == []` this fixes the result completely, so
      the kept elements come out in their original order. */
  lemma FilterSnoc<T>(s: seq<T>, x: T, p: T -> bool)
    ensures Filter(s + [x], p) == Filter(s, p) + (if p(x) then [x] else [])
  {
    FilterAppend(s, [x], p);
    assert [x][1..] == [];
  }

  /** Each passing element is kept as often as it occurs, a failing one never. */
  lemma {:induction false} FilterCounts<T>(s: seq<T>, p: T -> bool, x: T)
    ensures multiset(Filter(s, p))[x] == if p(x) then multiset(s)[x] else 0
    decreases |s|
  {
    if s != [] {
      FilterCounts(s[1..], p, x);
      assert s == [s[0]] + s[1..];
      assert multiset(s) == multiset([s[0]]) + multiset(s[1..]);
    }
  }

  /** A filter that every element passes keeps the list as it is. */
  lemma {:induction false} FilterKeepsAll<T>(s: seq<T>, p: T -> bool)
    requires forall k :: 0 <= k < |s| ==> p(s[k])
    ensures Filter(s, p) == s
    decreases |s|
  {
    if s != [] {
      FilterKeepsAll(s[1..], p);
    }
  }

  /** Filters with the same verdict on every element give the same list. */
  lemma {:induction false} FilterCongruent<T>(s: seq<T>, p: T -> bool, q: T -> bool)
    requires forall k :: 0 <= k < |s| ==> p(s[k]) == q(s[k])
    ensures Filter(s, p) == Filter(s, q)
    decreases |s|
  {
    if s != [] {
      FilterCongruent(s[1..], p, q);
    }
  }
}

=== FILE: notification_history.dfy ===
/** The notification history page: a page of logs, each given the name of
    its device, with the page number and page count from the reply. */
module NotificationHistory {
  import opened Js
  import opened Api
  import opened Paging
  import NotificationWatcher

  /** A log with the `device_name` added to it. */
  datatype NamedLog = NamedLog(log: LogEntry, deviceName: string)

  /** The reply to one log page request: `result` and `metadata.page` / `metadata.total`. */
  datatype LogPageReply =
    | LogPage(ok: bool, result: ResultField<LogEntry>, page: Option<int>, total: Option<int>)
    | LogPageUnreachable

  datatype HistoryState = HistoryState(logs: seq<NamedLog>, loading: bool, currentPage: int, totalPages: int)

  const InitialHistory := HistoryState([], true, 1, 1)

  /** `Array.isArray(data.result) ? data.result : []`. */
  function LogsOf(result: ResultField<LogEntry>): (r: seq<LogEntry>)
    ensures result.Items? ==> r == result.items
    ensures !result.Items? ==> r == []
  {
    if result.Items? then result.items else []
  }

  /** The name a log's device lookup yields: the device's name when the
      lookup succeeded and the name is nonempty, `Perangkat ID <volt_id>` otherwise. */
  function DeviceLabel(reply: DeviceReply, voltId: int): (r: string)
    ensures reply.DeviceOk? && Present(reply.device.name) ==> r == reply.device.name.value
    ensures !(reply.DeviceOk? && Present(reply.device.name)) ==> r == "Perangkat ID " + IntToString(voltId)
  {
    if reply.DeviceOk? then OrElse(reply.device.name, "Perangkat ID " + IntToString(voltId))
    else "Perangkat ID " + IntToString(voltId)
  }

  /** The enrichment: every log kept, in order, each with its device's name.
      A failed lookup only falls back to the default name. */
  function Enrich(logs: seq<LogEntry>, devices: Devices): (r: seq<NamedLog>)
    ensures |r| == |logs|
    ensures forall k :: 0 <= k < |logs| ==>
      r[k].log == logs[k] && r[k].deviceName == DeviceLabel(Lookup(devices, logs[k].voltId), logs[k].voltId)
  {
    seq(|logs|, k requires 0 <= k < |logs| =>
      NamedLog(logs[k], DeviceLabel(Lookup(devices, logs[k].voltId), logs[k].voltId)))
  }

  /** For a device that answers, the history shows the name the watcher
      used as the title of the log's notification. */
  lemma NameMatchesWatcherTitle(log: LogEntry, devices: Devices)
    requires Lookup(devices, log.voltId).DeviceOk?
    ensures DeviceLabel(Lookup(devices, log.voltId), log.voltId)
      == NotificationWatcher.Title(log, Lookup(devices, log.voltId).device)
  {
  }

  /** `fetchLogs`: on success the logs, the page from the reply (default 1)
      and `ceil(total / 10) || 1`; on failure the logs and pages stay.
      Loading ends either way. */
  function FetchLogs(st: HistoryState, reply: LogPageReply, devices: Devices): (r: HistoryState)
    ensures !r.loading
    ensures reply.LogPageUnreachable? || !reply.ok ==> r == st.(loading := false)
    ensures reply.LogPage? && reply.ok ==>
      && r.logs == Enrich(LogsOf(reply.result), devices)
      && r.currentPage == (if reply.page.Some? && reply.page.value != 0 then reply.page.value else 1)
      && r.totalPages == PageCountFallback(reply.total, LogsPerPage)
  {
    match reply
    case LogPageUnreachable => st.(loading := false)
    case LogPage(ok, result, page, total) =>
      if !ok then st.(loading := false)
      else HistoryState(Enrich(LogsOf(result), devices), false,
                        if page.Some? && page.value != 0 then page.value else 1,
                        PageCountFallback(total, LogsPerPage))
  }

  /** A successful fetch never leaves zero pages, whatever the total. */
  lemma FetchedPagesNeverZero(st: HistoryState, reply: LogPageReply, devices: Devices)
    requires reply.LogPage? && reply.ok
    ensures FetchLogs(st, reply, devices).totalPages != 0
    ensures reply.total.None? || reply.total.value >= 0 ==> FetchLogs(st, reply, devices).totalPages >= 1
  {
  }

  /** `handlePrevious`: the page requested, if any. */
  function PreviousRequest(page: int): (r: Option<int>)
    ensures r.Some? <==> page > 1
    ensures r.Some? ==> r.value == page - 1 && r.value >= 1
  {
    if page > 1 then Some(page - 1) else None
  }

  /** `handleNext`: the page requested, if any. */
  function NextRequest(page: int, totalPages: int): (r: Option<int>)
    ensures r.Some? <==> page < totalPages
    ensures r.Some? ==> r.value == page + 1 && r.value <= totalPages
  {
    if page < totalPages then Some(page + 1) else None
  }

  /** From a page in range, every page requested is in range, and a request
      the other way leads back. */
  lemma RequestsStayInRange(page: int, totalPages: int)
    requires 1 <= page <= totalPages
    ensures PreviousRequest(page).Some? ==>
      && 1 <= PreviousRequest(page).value <= totalPages
      && NextRequest(PreviousRequest(page).value, totalPages) == Some(page)
    ensures NextRequest(page, totalPages).Some? ==>
      && 1 <= NextRequest(page, totalPages).value <= totalPages
      && PreviousRequest(NextRequest(page, totalPages).value) == Some(page)
  {
  }
}

=== FILE: notification_watcher.dfy ===
/** One poll tick of the global anomaly watcher: read the session, fetch the
    log list, and for every entry not yet notified that is an anomaly on a
    device the user may see, show a browser notification and mark the entry's
    id in the persisted "sent" map. */
module NotificationWatcher {
  import opened Js
  import opened Api

  /** The persisted map from log id to "notified"; an id counts as sent when its flag is true. */
  type SentMap = map<int, bool>

  predicate IsSent(sent: SentMap, id: int) {
    id in sent && sent[id]
  }

  ghost function SentIds(sent: SentMap): set<int> {
    set id | id in sent && sent[id]
  }

  /** The map with every id of `ids` set to true. */
  function Mark(sent: SentMap, ids: set<int>): (r: SentMap)
    ensures r.Keys == sent.Keys + ids
    ensures forall id :: id in r ==> r[id] == (id in ids || sent[id])
  {
    sent + map id | id in ids :: true
  }

  /** The warning and error markers that make a status message an anomaly. */
  const WarningMarker := "\U{26A0}"
  const ErrorMarker := "\U{274C}"

  predicate IsAnomaly(log: LogEntry) {
    log.statusMessage.Some?
    && (Includes(log.statusMessage.value, WarningMarker) || Includes(log.statusMessage.value, ErrorMarker))
  }

  /** An entry is an anomaly exactly when its message contains one of the two markers. */
  lemma IsAnomalyIffMarker(log: LogEntry)
    ensures IsAnomaly(log) <==>
      log.statusMessage.Some?
      && (OccursIn(WarningMarker, log.statusMessage.value) || OccursIn(ErrorMarker, log.statusMessage.value))
  {
    if log.statusMessage.Some? {
      IncludesIffOccurs(log.statusMessage.value, WarningMarker);
      IncludesIffOccurs(log.statusMessage.value, ErrorMarker);
    }
  }

  /** The session as the watcher reads it from storage on every tick. */
  datatype Session = Session(token: Option<string>, role: Option<string>, userId: Num)

  function ReadSession(storage: Storage): (s: Session)
    ensures s.token == Get(storage, TokenKey) && s.role == Get(storage, RoleKey)
    ensures UserIdKey !in storage ==> s.userId == NaN
  {
    var userId := match Get(storage, UserIdKey) case None => NaN case Some(t) => ParseInt(t);
    Session(Get(storage, TokenKey), Get(storage, RoleKey), userId)
  }

  /** `token && role && userId`: all three present, and the id neither NaN nor 0. */
  predicate SessionPresent(s: Session) {
    s.token.Some? && s.token.value != []
    && s.role.Some? && s.role.value != []
    && s.userId.Int? && s.userId.i != 0
  }

  /** The restricted role sees a device only when its `user_id` is strictly equal to the user's id. */
  predicate Permitted(s: Session, d: Device) {
    !IsKaryawan(s.role) || StrictEqNum(d.userId, s.userId)
  }

  /** An entry the watcher notifies about once its id is not yet sent. */
  predicate Qualifies(log: LogEntry, s: Session, devices: Devices) {
    IsAnomaly(log) && Lookup(devices, log.voltId).DeviceOk? && Permitted(s, Lookup(devices, log.voltId).device)
  }

  ghost function QualifyingIds(logs: seq<LogEntry>, s: Session, devices: Devices): set<int> {
    set k | 0 <= k < |logs| && Qualifies(logs[k], s, devices) :: logs[k].id
  }

  /** The notification title: the device name, else `Perangkat ID <volt_id>`. */
  function Title(log: LogEntry, d: Device): (t: string)
    ensures d.name.Some? && d.name.value != [] ==> t == d.name.value
    ensures d.name.None? || d.name.value == [] ==> t == "Perangkat ID " + IntToString(log.voltId)
  {
    OrElse(d.name, "Perangkat ID " + IntToString(log.voltId))
  }

  /** A browser notification, tagged with the log id it was shown for. */
  datatype Notification = Notification(logId: int, title: string, body: Option<string>)

  ghost function ShownIds(shown: seq<Notification>): set<int> {
    set k | 0 <= k < |shown| :: shown[k].logId
  }

  predicate DistinctIds(shown: seq<Notification>) {
    forall i, j :: 0 <= i < j < |shown| ==> shown[i].logId != shown[j].logId
  }

  /** What the loop body does with one entry. */
  datatype Verdict = Pass | Abort | Deliver(title: string)

  function Judge(sent: SentMap, log: LogEntry, s: Session, devices: Devices): (v: Verdict)
    ensures v.Deliver? <==> !IsSent(sent, log.id) && Qualifies(log, s, devices)
    ensures v.Abort? <==> !IsSent(sent, log.id) && IsAnomaly(log) && Lookup(devices, log.voltId).DeviceUnreachable?
  {
    if IsSent(sent, log.id) then Pass
    else if !IsAnomaly(log) then Pass
    else match Lookup(devices, log.voltId)
      case DeviceUnreachable => Abort
      case DeviceNotOk(_) => Pass
      case DeviceOk(d) => if Permitted(s, d) then Deliver(Title(log, d)) else Pass
  }

  /** The map and the notifications after the loop; `completed` is false when
      a device lookup threw part-way, which skips the write to storage. */
  datatype Batch = Batch(sent: SentMap, shown: seq<Notification>, completed: bool)

  /** The dedup loop over one batch of entries, in order. */
  function RunBatch(sent: SentMap, logs: seq<LogEntry>, s: Session, devices: Devices, permission: bool): (b: Batch)
    // the map only grows, and only by setting flags to true
    ensures sent.Keys <= b.sent.Keys
    ensures forall id :: IsSent(sent, id) ==> IsSent(b.sent, id)
    ensures forall id :: id in b.sent ==> b.sent[id] || (id in sent && !sent[id])
    // each notification is for an id not sent before and sent after, at most once per id
    ensures forall n :: n in b.shown ==> !IsSent(sent, n.logId) && IsSent(b.sent, n.logId)
    ensures DistinctIds(b.shown)
    ensures !permission ==> b.shown == []
    decreases |logs|
  {
    if logs == [] then Batch(sent, [], true)
    else
      var log := logs[0];
      match Judge(sent, log, s, devices)
      case Pass =>
        RunBatch(sent, logs[1..], s, devices, permission)
      case Abort =>
        Batch(sent, [], false)
      case Deliver(title) =>
        var rest := RunBatch(sent[log.id := true], logs[1..], s, devices, permission);
        var here := if permission then [Notification(log.id, title, log.statusMessage)] else [];
        DistinctCons(here, rest.shown, sent[log.id := true]);
        Batch(rest.sent, here + rest.shown, rest.completed)
  }

  lemma DistinctCons(here: seq<Notification>, rest: seq<Notification>, m: SentMap)
    requires |here| <= 1 && DistinctIds(rest)
    requires forall n :: n in here ==> IsSent(m, n.logId)
    requires forall n :: n in rest ==> !IsSent(m, n.logId)
    ensures DistinctIds(here + rest)
  {
    if here != [] {
      forall j | 0 < j < |here + rest|
        ensures (here + rest)[0].logId != (here + rest)[j].logId
      {
        assert (here + rest)[j] == rest[j - 1];
        assert rest[j - 1] in rest;
      }
    } else {
      assert here + rest == rest;
    }
  }

  /** A completed batch marks exactly the qualifying ids on top of the old map. */
  lemma {:induction false} RunBatchMarksExactly(sent: SentMap, logs: seq<LogEntry>, s: Session, devices: Devices, permission: bool)
    ensures var b := RunBatch(sent, logs, s, devices, permission);
      b.completed ==> b.sent == Mark(sent, QualifyingIds(logs, s, devices))
    decreases |logs|
  {
    if logs == [] {
      assert QualifyingIds(logs, s, devices) == {};
      MarkNothing(sent);
    } else {
      var log := logs[0];
      var tail := logs[1..];
      QualifyingIdsCons(logs, s, devices);
      var qt := QualifyingIds(tail, s, devices);
      var v := Judge(sent, log, s, devices);
      if v.Pass? {
        assert RunBatch(sent, logs, s, devices, permission) == RunBatch(sent, tail, s, devices, permission);
        RunBatchMarksExactly(sent, tail, s, devices, permission);
        if Qualifies(log, s, devices) {
          assert QualifyingIds(logs, s, devices) == {log.id} + qt;
          MarkAbsorbsSent(sent, qt, log.id);
        } else {
          assert QualifyingIds(logs, s, devices) == qt;
        }
      } else if v.Deliver? {
        var m := sent[log.id := true];
        assert QualifyingIds(logs, s, devices) == {log.id} + qt;
        assert RunBatch(sent, logs, s, devices, permission).sent == RunBatch(m, tail, s, devices, permission).sent;
        assert RunBatch(sent, logs, s, devices, permission).completed == RunBatch(m, tail, s, devices, permission).completed;
        RunBatchMarksExactly(m, tail, s, devices, permission);
        MarkStep(sent, log.id, qt);
      } else {
        assert !RunBatch(sent, logs, s, devices, permission).completed;
      }
    }
  }

  lemma MarkNothing(sent: SentMap)
    ensures Mark(sent, {}) == sent
  {
  }

  lemma MarkAbsorbsSent(sent: SentMap, ids: set<int>, id: int)
    requires IsSent(sent, id)
    ensures Mark(sent, {id} + ids) == Mark(sent, ids)
  {
    var a := Mark(sent, {id} + ids);
    var b := Mark(sent, ids);
    assert a.Keys == b.Keys;
    forall k | k in a
      ensures a[k] == b[k]
    {
    }
  }

  lemma MarkStep(sent: SentMap, id: int, ids: set<int>)
    ensures Mark(sent[id := true], ids) == Mark(sent, {id} + ids)
  {
    var a := Mark(sent[id := true], ids);
    var b := Mark(sent, {id} + ids);
    assert a.Keys == b.Keys;
    forall k | k in a
      ensures a[k] == b[k]
    {
    }
  }

  /** Every id a batch newly marks, completed or not, belongs to a qualifying entry. */
  lemma {:induction false} RunBatchMarksOnlyQualifying(sent: SentMap, logs: seq<LogEntry>, s: Session, devices: Devices, permission: bool)
    ensures var b := RunBatch(sent, logs, s, devices, permission);
      forall id :: IsSent(b.sent, id) ==> IsSent(sent, id) || id in QualifyingIds(logs, s, devices)
    decreases |logs|
  {
    if logs != [] {
      var log := logs[0];
      var tail := logs[1..];
      QualifyingIdsCons(logs, s, devices);
      match Judge(sent, log, s, devices)
      case Pass =>
        RunBatchMarksOnlyQualifying(sent, tail, s, devices, permission);
      case Abort =>
      case Deliver(_) =>
        RunBatchMarksOnlyQualifying(sent[log.id := true], tail, s, devices, permission);
    }
  }

  /** With permission, a completed batch shows one notification for each
      qualifying id that was not sent before, and for nothing else. */
  lemma {:induction false} RunBatchShowsExactly(sent: SentMap, logs: seq<LogEntry>, s: Session, devices: Devices)
    ensures var b := RunBatch(sent, logs, s, devices, true);
      b.completed ==> ShownIds(b.shown) == QualifyingIds(logs, s, devices) - SentIds(sent)
    decreases |logs|
  {
    var b := RunBatch(sent, logs, s, devices, true);
    if logs == [] {
      assert QualifyingIds(logs, s, devices) == {};
    } else if b.completed {
      var log := logs[0];
      var tail := logs[1..];
      QualifyingIdsCons(logs, s, devices);
      var qt := QualifyingIds(tail, s, devices);
      match Judge(sent, log, s, devices)
      case Pass =>
        RunBatchShowsExactly(sent, tail, s, devices);
        if Qualifies(log, s, devices) {
          assert IsSent(sent, log.id);
        }
      case Deliver(title) =>
        var m := sent[log.id := true];
        var rest := RunBatch(m, tail, s, devices, true);
        RunBatchShowsExactly(m, tail, s, devices);
        assert b.shown == [Notification(log.id, title, log.statusMessage)] + rest.shown;
        ShownIdsCons(Notification(log.id, title, log.statusMessage), rest.shown);
        assert SentIds(m) == SentIds(sent) + {log.id};
    }
  }

  lemma ShownIdsCons(n: Notification, rest: seq<Notification>)
    ensures ShownIds([n] + rest) == {n.logId} + ShownIds(rest)
  {
    var all := [n] + rest;
    forall id | id in ShownIds(rest)
      ensures id in ShownIds(all)
    {
      var k :| 0 <= k < |rest| && rest[k].logId == id;
      assert all[k + 1] == rest[k];
    }
    assert all[0] == n;
  }

  lemma QualifyingIdsCons(logs: seq<LogEntry>, s: Session, devices: Devices)
    requires logs != []
    ensures QualifyingIds(logs, s, devices)
      == (if Qualifies(logs[0], s, devices) then {logs[0].id} else {}) + QualifyingIds(logs[1..], s, devices)
  {
    var tail := logs[1..];
    forall id | id in QualifyingIds(tail, s, devices)
      ensures id in QualifyingIds(logs, s, devices)
    {
      var k :| 0 <= k < |tail| && Qualifies(tail[k], s, devices) && tail[k].id == id;
      assert logs[k + 1] == tail[k];
    }
    forall id | id in QualifyingIds(logs, s, devices)
      ensures id in (if Qualifies(logs[0], s, devices) then {logs[0].id} else {}) + QualifyingIds(tail, s, devices)
    {
      var k :| 0 <= k < |logs| && Qualifies(logs[k], s, devices) && logs[k].id == id;
      if k > 0 {
        assert tail[k - 1] == logs[k];
      }
    }
  }

  /** The in-memory map (the component's ref) and the copy in storage. */
  datatype WatcherState = WatcherState(memory: SentMap, stored: SentMap)

  /** Mounting loads the stored map into memory (a missing entry reads as the empty map). */
  function Mount(stored: SentMap): (st: WatcherState)
    ensures st.memory == stored && st.stored == stored
  {
    WatcherState(stored, stored)
  }

  /** Everything in storage is also in memory. */
  predicate StoredWithinMemory(st: WatcherState) {
    forall id | id in st.stored :: IsSent(st.stored, id) ==> IsSent(st.memory, id)
  }

  /** The state after a tick, the notifications it showed, and whether the timer keeps running. */
  datatype TickResult = TickResult(state: WatcherState, shown: seq<Notification>, polling: bool)

  /** One run of `fetchLogs`. The call that mounting makes (`firstOfMount`)
      checks the session before the interval is assigned, so its
      `clearInterval` clears nothing and the timer starts anyway. A 401
      arrives only after the first `await`, by which time the interval
      exists, so it stops the timer on any call. */
  function Tick(st: WatcherState, storage: Storage, reply: LogReply, devices: Devices, permission: bool,
                firstOfMount: bool): (r: TickResult)
    // a missing token, role or user id changes nothing; it stops the timer except on the mount's own call
    ensures !SessionPresent(ReadSession(storage)) ==> r == TickResult(st, [], firstOfMount)
    // a 401 stops the timer and changes nothing
    ensures SessionPresent(ReadSession(storage)) && reply.LogReply? && reply.status == 401 ==>
      r.state == st && r.shown == [] && !r.polling
    ensures r.polling <==>
      if SessionPresent(ReadSession(storage)) then !(reply.LogReply? && reply.status == 401) else firstOfMount
    // any other failure of the log request leaves both maps as they were
    ensures reply.LogUnreachable? || (reply.LogReply? && !IsOk(reply.status)) ==> r.state == st && r.shown == []
    // a string `result` is iterated without a single record, so the batch
    // completes and memory is written to storage; any other non-array throws
    ensures SessionPresent(ReadSession(storage)) && reply.LogReply? && IsOk(reply.status) && reply.result.NotArray? ==>
      r.shown == [] && r.polling && r.state.memory == st.memory
      && r.state.stored == (if reply.result.text then st.memory else st.stored)
    // the stored map is either untouched or overwritten with the whole memory map
    ensures r.state.stored == st.stored || r.state.stored == r.state.memory
    ensures forall id :: IsSent(st.memory, id) ==> IsSent(r.state.memory, id)
    ensures forall n :: n in r.shown ==> !IsSent(st.memory, n.logId) && IsSent(r.state.memory, n.logId)
    ensures DistinctIds(r.shown)
    ensures StoredWithinMemory(st) ==> StoredWithinMemory(r.state)
  {
    var s := ReadSession(storage);
    if !SessionPresent(s) then TickResult(st, [], firstOfMount)
    else match reply
      case LogUnreachable => TickResult(st, [], true)
      case LogReply(status, result) =>
        if status == 401 then TickResult(st, [], false)
        else if !IsOk(status) then TickResult(st, [], true)
        else match ForOfItems(result)
          case None => TickResult(st, [], true)
          case Some(logs) =>
            var b := RunBatch(st.memory, logs, s, devices, permission);
            if b.completed then TickResult(WatcherState(b.sent, b.sent), b.shown, true)
            else TickResult(WatcherState(b.sent, st.stored), b.shown, true)
  }

  /** A successful tick over a list of entries writes back the old map plus
      exactly the anomalous, resolved, permitted ids, with or without
      notification permission. */
  lemma TickAddsExactlyQualifying(st: WatcherState, storage: Storage, logs: seq<LogEntry>, devices: Devices, permission: bool,
                                  firstOfMount: bool)
    requires SessionPresent(ReadSession(storage))
    requires forall k :: 0 <= k < |logs| ==> !(IsAnomaly(logs[k]) && Lookup(devices, logs[k].voltId).DeviceUnreachable?)
    ensures var r := Tick(st, storage, LogReply(200, Items(logs)), devices, permission, firstOfMount);
      r.state.memory == Mark(st.memory, QualifyingIds(logs, ReadSession(storage), devices))
      && r.state.stored == r.state.memory
  {
    NoAbortWithoutUnreachable(st.memory, logs, ReadSession(storage), devices, permission);
    RunBatchMarksExactly(st.memory, logs, ReadSession(storage), devices, permission);
  }

  lemma {:induction false} NoAbortWithoutUnreachable(sent: SentMap, logs: seq<LogEntry>, s: Session, devices: Devices, permission: bool)
    requires forall k :: 0 <= k < |logs| ==> !(IsAnomaly(logs[k]) && Lookup(devices, logs[k].voltId).DeviceUnreachable?)
    ensures RunBatch(sent, logs, s, devices, permission).completed
    decreases |logs|
  {
    if logs != [] {
      var tail := logs[1..];
      assert forall k :: 0 <= k < |tail| ==> tail[k] == logs[k + 1];
      NoAbortWithoutUnreachable(sent, tail, s, devices, permission);
      NoAbortWithoutUnreachable(sent[logs[0].id := true], tail, s, devices, permission);
    }
  }

  /** The inputs of one tick: storage, the log reply, the device lookups and the permission. */
  datatype TickInput = TickInput(storage: Storage, reply: LogReply, devices: Devices, permission: bool)

  /** The interval's ticks, 30 s apart; the timer stops at the first tick that stops polling. */
  function RunInterval(st: WatcherState, inputs: seq<TickInput>): (r: (WatcherState, seq<Notification>))
    // at most one notification per log id over the whole run
    ensures DistinctIds(r.1)
    ensures forall n :: n in r.1 ==> !IsSent(st.memory, n.logId) && IsSent(r.0.memory, n.logId)
    ensures forall id :: IsSent(st.memory, id) ==> IsSent(r.0.memory, id)
    ensures StoredWithinMemory(st) ==> StoredWithinMemory(r.0)
    decreases |inputs|
  {
    if inputs == [] then (st, [])
    else
      var i := inputs[0];
      var t := Tick(st, i.storage, i.reply, i.devices, i.permission, false);
      if !t.polling then (t.state, t.shown)
      else
        var rest := RunInterval(t.state, inputs[1..]);
        DistinctAppend(t.shown, rest.1, st.memory, t.state.memory);
        (rest.0, t.shown + rest.1)
  }

  /** The ticks of one mount: the call mounting makes, then the interval's ticks. */
  function RunTicks(st: WatcherState, inputs: seq<TickInput>): (r: (WatcherState, seq<Notification>))
    // at most one notification per log id over the whole run
    ensures DistinctIds(r.1)
    ensures forall n :: n in r.1 ==> !IsSent(st.memory, n.logId) && IsSent(r.0.memory, n.logId)
    ensures forall id :: IsSent(st.memory, id) ==> IsSent(r.0.memory, id)
    ensures StoredWithinMemory(st) ==> StoredWithinMemory(r.0)
    // a logged-out first call changes nothing and the interval runs on regardless
    ensures inputs != [] && !SessionPresent(ReadSession(inputs[0].storage)) ==> r == RunInterval(st, inputs[1..])
  {
    if inputs == [] then (st, [])
    else
      var i := inputs[0];
      var t := Tick(st, i.storage, i.reply, i.devices, i.permission, true);
      if !t.polling then (t.state, t.shown)
      else
        var rest := RunInterval(t.state, inputs[1..]);
        DistinctAppend(t.shown, rest.1, st.memory, t.state.memory);
        assert t.shown == [] ==> t.shown + rest.1 == rest.1;
        (rest.0, t.shown + rest.1)
  }

  lemma DistinctAppend(a: seq<Notification>, b: seq<Notification>, m0: SentMap, m1: SentMap)
    requires DistinctIds(a) && DistinctIds(b)
    requires forall n :: n in a ==> IsSent(m1, n.logId)
    requires forall n :: n in b ==> !IsSent(m1, n.logId)
    ensures DistinctIds(a + b)
  {
    forall i, j | 0 <= i < j < |a + b|
      ensures (a + b)[i].logId != (a + b)[j].logId
    {
      if j >= |a| && i < |a| {
        assert (a + b)[i] in a;
        assert (a + b)[j] in b;
      }
    }
  }

  /** A worked example: with an empty map, a batch holding one
      ordinary entry and one warning notifies once, and the same batch again
      notifies no more. */
  lemma SecondPollIsSilent(storage: Storage, devices: Devices)
    requires SessionPresent(ReadSession(storage))
    requires Lookup(devices, 9) == DeviceOk(Device(ToValue(ReadSession(storage).userId), Some("Mesin 1")))
    ensures var logs := [QuietLog, WarningLog];
      var first := Tick(Mount(map[]), storage, LogReply(200, Items(logs)), devices, true, true);
      var second := Tick(first.state, storage, LogReply(200, Items(logs)), devices, true, false);
      first.shown == [Notification(2, "Mesin 1", WarningLog.statusMessage)]
      && first.state.stored == map[2 := true]
      && second.shown == []
      && second.state == first.state
  {
    FirstBatchNotifiesWarning(ReadSession(storage), devices);
    SecondBatchIsSilent(ReadSession(storage), devices);
  }

  /** Loading the app logged out does not stop the watcher: a login before
      the first interval tick, 30 s later, gets the warning notified. */
  lemma LoginAfterLoggedOutLoadNotifies(loggedOut: Storage, loggedIn: Storage, devices: Devices)
    requires !SessionPresent(ReadSession(loggedOut)) && SessionPresent(ReadSession(loggedIn))
    requires Lookup(devices, 9) == DeviceOk(Device(ToValue(ReadSession(loggedIn).userId), Some("Mesin 1")))
    ensures var reply := LogReply(200, Items([QuietLog, WarningLog]));
      var r := RunTicks(Mount(map[]), [TickInput(loggedOut, reply, devices, true), TickInput(loggedIn, reply, devices, true)]);
      r.1 == [Notification(2, "Mesin 1", WarningLog.statusMessage)] && r.0.stored == map[2 := true]
  {
    var reply := LogReply(200, Items([QuietLog, WarningLog]));
    var inputs := [TickInput(loggedOut, reply, devices, true), TickInput(loggedIn, reply, devices, true)];
    FirstBatchNotifiesWarning(ReadSession(loggedIn), devices);
    var t := Tick(Mount(map[]), loggedIn, reply, devices, true, false);
    assert t.shown == [Notification(2, "Mesin 1", WarningLog.statusMessage)] && t.polling;
    assert inputs[1..][1..] == [];
    assert RunInterval(Mount(map[]), inputs[1..]) == (t.state, t.shown + []);
  }

  /** An entry with a plain message and one with the warning marker, of one device. */
  const QuietLog := LogEntry(1, 9, Some("OK"))
  const WarningLog := LogEntry(2, 9, Some("\U{26A0} overvoltage"))

  lemma ExampleAnomalies()
    ensures !IsAnomaly(QuietLog) && IsAnomaly(WarningLog)
    ensures IsAnomaly(OfflineLog(1, 7)) && IsAnomaly(OfflineLog(2, 8))
  {
    IncludesChar("OK", '\U{26A0}');
    IncludesChar("OK", '\U{274C}');
    assert "\U{26A0} overvoltage"[0] == '\U{26A0}';
    assert "\U{274C} offline"[0] == '\U{274C}';
  }

  lemma FirstBatchNotifiesWarning(s: Session, devices: Devices)
    requires SessionPresent(s)
    requires Lookup(devices, 9) == DeviceOk(Device(ToValue(s.userId), Some("Mesin 1")))
    ensures RunBatch(map[], [QuietLog, WarningLog], s, devices, true)
         == Batch(map[2 := true], [Notification(2, "Mesin 1", WarningLog.statusMessage)], true)
  {
    ExampleAnomalies();
    assert [QuietLog, WarningLog][1..] == [WarningLog];
    assert [WarningLog][1..] == [];
    assert Judge(map[], QuietLog, s, devices) == Pass;
    assert Judge(map[], WarningLog, s, devices) == Deliver("Mesin 1");
    assert map[][2 := true] == map[2 := true];
    assert RunBatch(map[2 := true], [], s, devices, true) == Batch(map[2 := true], [], true);
    assert RunBatch(map[], [WarningLog], s, devices, true)
        == Batch(map[2 := true], [Notification(2, "Mesin 1", WarningLog.statusMessage)], true);
    assert RunBatch(map[], [QuietLog, WarningLog], s, devices, true) == RunBatch(map[], [WarningLog], s, devices, true);
  }

  lemma SecondBatchIsSilent(s: Session, devices: Devices)
    requires SessionPresent(s)
    ensures RunBatch(map[2 := true], [QuietLog, WarningLog], s, devices, true) == Batch(map[2 := true], [], true)
  {
    ExampleAnomalies();
    assert [QuietLog, WarningLog][1..] == [WarningLog];
    assert [WarningLog][1..] == [];
    assert Judge(map[2 := true], QuietLog, s, devices) == Pass;
    assert Judge(map[2 := true], WarningLog, s, devices) == Pass;
    assert RunBatch(map[2 := true], [WarningLog], s, devices, true) == RunBatch(map[2 := true], [], s, devices, true);
    assert RunBatch(map[2 := true], [QuietLog, WarningLog], s, devices, true) == RunBatch(map[2 := true], [WarningLog], s, devices, true);
  }

  /** The number a present user id reads as, written back as a JSON scalar. */
  function ToValue(n: Num): Value {
    match n
    case Int(i) => VNum(i)
    case NaN => VUndefined
  }

  /** An entry reporting the device offline. */
  function OfflineLog(id: int, voltId: int): LogEntry {
    LogEntry(id, voltId, Some("\U{274C} offline"))
  }

  /** The at-most-once promise holds within one mount only: a tick that shows
      a notification and then aborts on an unreachable device does not write
      storage, so after a reload the same entry is notified again. */
  lemma ReloadAfterAbortedTickRepeats(storage: Storage)
    requires SessionPresent(ReadSession(storage)) && !IsKaryawan(ReadSession(storage).role)
    ensures var logs := [OfflineLog(1, 7), OfflineLog(2, 8)];
      var devices := map[7 := DeviceOk(Device(VNull, Some("A")))];
      var first := Tick(Mount(map[]), storage, LogReply(200, Items(logs)), devices, true, true);
      var again := Tick(Mount(first.state.stored), storage, LogReply(200, Items(logs)), devices, true, true);
      first.shown == again.shown == [Notification(1, "A", OfflineLog(1, 7).statusMessage)]
  {
    AbortedBatch(ReadSession(storage));
  }

  /** A string `result` rescues an aborted batch: the tick that iterates it
      writes the in-memory map to storage, so after a reload the entry that
      was already notified is skipped and nothing repeats. */
  lemma TextReplySavesAbortedTick(storage: Storage)
    requires SessionPresent(ReadSession(storage)) && !IsKaryawan(ReadSession(storage).role)
    ensures var logs := [OfflineLog(1, 7), OfflineLog(2, 8)];
      var devices := map[7 := DeviceOk(Device(VNull, Some("A")))];
      var first := Tick(Mount(map[]), storage, LogReply(200, Items(logs)), devices, true, true);
      var text := Tick(first.state, storage, LogReply(200, NotArray(true)), devices, true, false);
      var again := Tick(Mount(text.state.stored), storage, LogReply(200, Items(logs)), devices, true, true);
      text.state.stored == map[1 := true] && again.shown == []
  {
    var s := ReadSession(storage);
    AbortedBatch(s);
    var logs := [OfflineLog(1, 7), OfflineLog(2, 8)];
    var devices := map[7 := DeviceOk(Device(VNull, Some("A")))];
    var first := Tick(Mount(map[]), storage, LogReply(200, Items(logs)), devices, true, true);
    assert first.state == WatcherState(map[1 := true], map[]);
    var text := Tick(first.state, storage, LogReply(200, NotArray(true)), devices, true, false);
    assert text.state.stored == map[1 := true];
    RepeatedBatchIsSilent(s);
  }

  lemma RepeatedBatchIsSilent(s: Session)
    requires !IsKaryawan(s.role)
    ensures var devices := map[7 := DeviceOk(Device(VNull, Some("A")))];
      RunBatch(map[1 := true], [OfflineLog(1, 7), OfflineLog(2, 8)], s, devices, true).shown == []
  {
    var devices := map[7 := DeviceOk(Device(VNull, Some("A")))];
    ExampleAnomalies();
    assert [OfflineLog(1, 7), OfflineLog(2, 8)][1..] == [OfflineLog(2, 8)];
    assert Judge(map[1 := true], OfflineLog(1, 7), s, devices) == Pass;
    assert Judge(map[1 := true], OfflineLog(2, 8), s, devices) == Abort;
  }

  lemma AbortedBatch(s: Session)
    requires !IsKaryawan(s.role)
    ensures var devices := map[7 := DeviceOk(Device(VNull, Some("A")))];
      RunBatch(map[], [OfflineLog(1, 7), OfflineLog(2, 8)], s, devices, true)
      == Batch(map[1 := true], [Notification(1, "A", OfflineLog(1, 7).statusMessage)], false)
  {
    var devices := map[7 := DeviceOk(Device(VNull, Some("A")))];
    ExampleAnomalies();
    assert [OfflineLog(1, 7), OfflineLog(2, 8)][1..] == [OfflineLog(2, 8)];
    assert Judge(map[], OfflineLog(1, 7), s, devices) == Deliver("A");
    assert Judge(map[1 := true], OfflineLog(2, 8), s, devices) == Abort;
    assert map[][1 := true] == map[1 := true];
    assert RunBatch(map[1 := true], [OfflineLog(2, 8)], s, devices, true) == Batch(map[1 := true], [], false);
  }
}

=== FILE: paging.dfy ===
/** Page counts and the previous/next controls of the paged lists. The three
    page-count formulas differ from file to file and are kept apart. */
module Paging {
  import opened Js

  /** Rows per page on the dashboard, device, history and device-history lists. */
  const DevicesPerPage := 5
  /** Rows per page on the notification history. */
  const LogsPerPage := 10

  /** `Math.ceil((total || 1) / limit)` (dashboard and device history): a
      missing or zero total reads as one row. */
  function PageCountOrOne(total: Option<int>, limit: int): (r: int)
    requires limit > 0
    ensures total.None? || total == Some(0) ==> r == 1
    ensures total.Some? && total.value != 0 ==> (r - 1) * limit < total.value <= r * limit
    ensures total.None? || total.value >= 0 ==> r >= 1
  {
    var t := if total.Some? && total.value != 0 then total.value else 1;
    CeilDiv(t, limit)
  }

  /** `Math.ceil(total / limit)` with no minimum (device and history lists):
      a zero total gives zero pages and a missing total gives NaN. */
  function PageCountNoMin(total: Option<int>, limit: int): (r: Num)
    requires limit > 0
    ensures total.None? <==> r == NaN
    ensures total == Some(0) ==> r == Int(0)
    ensures total.Some? ==> (r.i - 1) * limit < total.value <= r.i * limit
  {
    if total.None? then NaN else Int(CeilDiv(total.value, limit))
  }

  /** `Math.ceil(total / limit) || 1` (notification history): a count of zero
      or NaN falls back to one page. */
  function PageCountFallback(total: Option<int>, limit: int): (r: int)
    requires limit > 0
    ensures r != 0
    ensures total.None? ==> r == 1
    ensures total.Some? && total.value > 0 ==> (r - 1) * limit < total.value <= r * limit
    ensures total.None? || total.value >= 0 ==> r >= 1
  {
    if total.None? then 1
    else
      var c := CeilDiv(total.value, limit);
      if c == 0 then 1 else c
  }

  /** The three formulas agree on a positive total and part ways on zero and
      on a missing total. */
  lemma PageCountsCompared(total: Option<int>, limit: int)
    requires limit > 0
    ensures total.Some? && total.value > 0 ==>
      PageCountNoMin(total, limit) == Int(PageCountOrOne(total, limit))
      && PageCountFallback(total, limit) == PageCountOrOne(total, limit)
    ensures total == Some(0) ==>
      PageCountOrOne(total, limit) == 1 && PageCountFallback(total, limit) == 1
      && PageCountNoMin(total, limit) == Int(0)
    ensures total.None? ==>
      PageCountOrOne(total, limit) == 1 && PageCountFallback(total, limit) == 1
      && PageCountNoMin(total, limit) == NaN
  {
  }

  /** `Math.max(page - 1, 1)`. */
  function PrevPage(page: int): (r: int)
    ensures r >= 1
    ensures r <= page || page < 1
    ensures page > 1 ==> r == page - 1
  {
    if page - 1 > 1 then page - 1 else 1
  }

  /** `Math.min(page + 1, totalPages)`. */
  function NextPage(page: int, totalPages: int): (r: int)
    ensures r <= totalPages
    ensures r >= page || page > totalPages
    ensures page < totalPages ==> r == page + 1
  {
    if page + 1 < totalPages then page + 1 else totalPages
  }

  /** Starting on a page in range, either control keeps the page in range. */
  lemma ControlsStayInRange(page: int, totalPages: int)
    requires 1 <= page <= totalPages
    ensures 1 <= PrevPage(page) <= totalPages
    ensures 1 <= NextPage(page, totalPages) <= totalPages
  {
  }

  /** Next then previous returns to the page, and so does previous then next,
      wherever the first step could move. */
  lemma ControlsUndoEachOther(page: int, totalPages: int)
    ensures 1 <= page < totalPages ==> PrevPage(NextPage(page, totalPages)) == page
    ensures 1 < page <= totalPages ==> NextPage(PrevPage(page), totalPages) == page
  {
  }
}

=== FILE: readings.dfy ===
/** Sensor readings shared by the calibration and device-detail charts: six
    voltage channels per point, each reading a `parseFloat` result with None
    standing for NaN, and the extrema and rounding the axis ranges use. */
module Readings {
  import opened Js

  /** The six voltage channels, `t1` to `t6`. */
  datatype Channel = T1 | T2 | T3 | T4 | T5 | T6

  /** One chart point: a time label and the six channel readings. */
  datatype VoltPoint = VoltPoint(time: string, t1: Option<real>, t2: Option<real>, t3: Option<real>,
                                 t4: Option<real>, t5: Option<real>, t6: Option<real>)

  /** The reading of one channel. */
  function Volt(p: VoltPoint, c: Channel): Option<real> {
    match c
    case T1 => p.t1
    case T2 => p.t2
    case T3 => p.t3
    case T4 => p.t4
    case T5 => p.t5
    case T6 => p.t6
  }

  /** `Math.min(...s)` of a nonempty list of numbers. */
  function MinOf(s: seq<real>): (m: real)
    requires s != []
    ensures m in s
    ensures forall k :: 0 <= k < |s| ==> m <= s[k]
  {
    if |s| == 1 then s[0]
    else
      var rest := MinOf(s[1..]);
      assert forall k :: 1 <= k < |s| ==> s[k] == s[1..][k - 1];
      if s[0] <= rest then s[0] else rest
  }

  /** `Math.max(...s)` of a nonempty list of numbers. */
  function MaxOf(s: seq<real>): (m: real)
    requires s != []
    ensures m in s
    ensures forall k :: 0 <= k < |s| ==> s[k] <= m
  {
    if |s| == 1 then s[0]
    else
      var rest := MaxOf(s[1..]);
      assert forall k :: 1 <= k < |s| ==> s[k] == s[1..][k - 1];
      if s[0] >= rest then s[0] else rest
  }

  /** `Math.floor(x)`. */
  function Floor(x: real): (r: int)
    ensures r as real <= x < r as real + 1.0
  {
    x.Floor
  }

  /** `Math.ceil(x)`. */
  function Ceil(x: real): (r: int)
    ensures r as real - 1.0 < x <= r as real
  {
    -((-x).Floor)
  }
}

=== FILE: sidebar.dfy ===
/** The sidebar's role-dependent menus and its logout handler. */
module Sidebar {
  import opened Js
  import opened Api
  import NotificationWatcher

  datatype MenuItem = MenuItem(caption: string, path: string)

  const DashboardItem := MenuItem("Dashboard", "/")
  const DevicesItem := MenuItem("Perangkat", "/perangkat")
  const UsersItem := MenuItem("User", "/user")
  const HistoryItem := MenuItem("Riwayat", "/riwayat")
  const SettingsItem := MenuItem("Pengaturan", "/pengaturan")

  /** `user?.role?.toLowerCase()`, as the sidebar reads the stored user's role. */
  function SidebarRole(userRole: Option<string>): (r: Option<string>)
    ensures r.None? <==> userRole.None?
    ensures r.Some? ==> r.value == ToLower(userRole.value)
  {
    match userRole
    case None => None
    case Some(s) => Some(ToLower(s))
  }

  /** `role === "admin" || role === "owner"` on the lowercased role. */
  predicate IsAdminOrOwner(userRole: Option<string>) {
    SidebarRole(userRole) == Some("admin") || SidebarRole(userRole) == Some("owner")
  }

  /** The desktop menu: the "User" entry appears only for admins and owners. */
  function DesktopMenu(userRole: Option<string>): (items: seq<MenuItem>)
    ensures UsersItem in items <==> IsAdminOrOwner(userRole)
    ensures |items| == if IsAdminOrOwner(userRole) then 4 else 3
    ensures items[..2] == [DashboardItem, DevicesItem] && items[|items| - 1] == HistoryItem
  {
    [DashboardItem, DevicesItem] + (if IsAdminOrOwner(userRole) then [UsersItem] else []) + [HistoryItem]
  }

  /** The mobile menu does not depend on the role: four entries, with
      "Pengaturan" in place of "User". */
  function MobileMenu(): (items: seq<MenuItem>)
    ensures |items| == 4 && UsersItem !in items && SettingsItem in items
  {
    [DashboardItem, DevicesItem, HistoryItem, SettingsItem]
  }

  /** Every role sees the same menu, in the same order, except that admins
      and owners get the "User" entry as the third one; and every desktop
      entry but "User" is also on the mobile menu. */
  lemma AdminMenuInsertsUsers(userRole: Option<string>)
    ensures !IsAdminOrOwner(userRole) ==> DesktopMenu(userRole) == DesktopMenu(None)
    ensures IsAdminOrOwner(userRole) ==>
      DesktopMenu(userRole) == DesktopMenu(None)[..2] + [UsersItem] + DesktopMenu(None)[2..]
    ensures forall item :: item in DesktopMenu(userRole) && item != UsersItem ==> item in MobileMenu()
  {
    assert !IsAdminOrOwner(None);
  }

  /** The role check ignores letter case: "Admin" and "OWNER" see the "User" entry. */
  lemma AdminCheckIgnoresCase()
    ensures IsAdminOrOwner(Some("Admin")) && IsAdminOrOwner(Some("OWNER"))
    ensures !IsAdminOrOwner(Some("Karyawan")) && !IsAdminOrOwner(None)
  {
    assert ToLower("Admin") == "admin";
    assert ToLower("OWNER") == "owner";
    assert ToLower("Karyawan") == "karyawan";
  }

  /** `handleLogout`: on confirmation the four session keys are removed and
      every other entry kept; without it storage is untouched. */
  function Logout(storage: Storage, confirmed: bool): (r: Storage)
    ensures !confirmed ==> r == storage
    ensures confirmed ==> r.Keys == storage.Keys - SessionKeys
    ensures forall k :: k in r ==> r[k] == storage[k]
  {
    if confirmed then storage - SessionKeys else storage
  }

  /** After a confirmed logout the watcher's next interval tick stops polling
      and changes nothing. (The interval exists by then: only the call made
      on mounting precedes it.) */
  lemma LogoutStopsWatcher(storage: Storage, st: NotificationWatcher.WatcherState, reply: LogReply, devices: Devices, permission: bool)
    ensures var r := NotificationWatcher.Tick(st, Logout(storage, true), reply, devices, permission, false);
      !r.polling && r.state == st && r.shown == []
  {
    var after := Logout(storage, true);
    assert TokenKey !in after;
    assert !NotificationWatcher.SessionPresent(NotificationWatcher.ReadSession(after));
  }
}

=== FILE: unread_badge.dfy ===
/** The unread-notification badge of the sidebar and the dashboard header:
    the highest log id over the logs the user may see is compared with the
    stored `lastSeenNotifId` marker, and clicking the bell overwrites the
    marker with that highest id. */
module UnreadBadge {
  import opened Js
  import opened Api
  import Sidebar

  /** Whether the restricted user owns a log's device: the device body is read
      whether or not its status was ok, and `Number(user_id)` must equal the user's id. */
  predicate OwnsLog(log: LogEntry, userId: Num, devices: Devices) {
    var body := ReplyBody(Lookup(devices, log.voltId));
    body.Some? && NumEq(ToNumber(body.value.userId), userId)
  }

  /** The restricted user's logs, in order, or None when some device lookup
      threw, which rejects the whole `Promise.all`. */
  function OwnedLogs(logs: seq<LogEntry>, userId: Num, devices: Devices): (r: Option<seq<LogEntry>>)
    ensures r.None? <==> exists k :: 0 <= k < |logs| && Lookup(devices, logs[k].voltId).DeviceUnreachable?
    ensures r.Some? ==> forall x :: x in r.value <==> x in logs && OwnsLog(x, userId, devices)
    ensures r.Some? ==> |r.value| <= |logs|
    decreases |logs|
  {
    if logs == [] then Some([])
    else
      var rest := OwnedLogs(logs[1..], userId, devices);
      if Lookup(devices, logs[0].voltId).DeviceUnreachable? then
        assert 0 < |logs|;
        None
      else if rest.None? then
        var k :| 0 <= k < |logs[1..]| && Lookup(devices, logs[1..][k].voltId).DeviceUnreachable?;
        assert logs[k + 1] == logs[1..][k];
        None
      else
        assert forall k :: 1 <= k < |logs| ==> logs[k] == logs[1..][k - 1];
        assert logs == [logs[0]] + logs[1..];
        Some((if OwnsLog(logs[0], userId, devices) then [logs[0]] else []) + rest.value)
  }

  /** The role filter of the bell and badge checks: the restricted role keeps
      its own logs, every other role keeps all logs without any lookup. */
  function RoleFilter(logs: seq<LogEntry>, role: Option<string>, userId: Num, devices: Devices): (r: Option<seq<LogEntry>>)
    ensures !IsKaryawan(role) ==> r == Some(logs)
    ensures IsKaryawan(role) ==> r == OwnedLogs(logs, userId, devices)
  {
    if IsKaryawan(role) then OwnedLogs(logs, userId, devices) else Some(logs)
  }

  /** `logs.reduce((max, log) => Math.max(max, log.id), start)`. */
  function MaxIdFrom(start: int, logs: seq<LogEntry>): (m: int)
    ensures m >= start
    ensures forall x :: x in logs ==> x.id <= m
    ensures m == start || exists x :: x in logs && x.id == m
    decreases |logs|
  {
    if logs == [] then start
    else
      var next := if logs[0].id > start then logs[0].id else start;
      var m := MaxIdFrom(next, logs[1..]);
      assert forall x :: x in logs[1..] ==> x in logs;
      assert forall x :: x in logs ==> x == logs[0] || x in logs[1..];
      m
  }

  /** `latestId`: the highest id, and 0 when there is none. */
  function LatestId(logs: seq<LogEntry>): (m: int)
    ensures m >= 0
    ensures forall x :: x in logs ==> x.id <= m
    ensures m == 0 || exists x :: x in logs && x.id == m
  {
    MaxIdFrom(0, logs)
  }

  /** Sidebar's `Number(localStorage.getItem("lastSeenNotifId") || 0)`. */
  function MarkerAsNumber(storage: Storage): (n: Num)
    ensures LastSeenKey !in storage ==> n == Int(0)
    ensures Get(storage, LastSeenKey) == Some("") ==> n == Int(0)
  {
    var v := Get(storage, LastSeenKey);
    if v.Some? && v.value != [] then StringToNumber(v.value) else Int(0)
  }

  /** Dashboard's `parseInt(localStorage.getItem("lastSeenNotifId") || "0", 10)`. */
  function MarkerAsParsedInt(storage: Storage): (n: Num)
    ensures LastSeenKey !in storage ==> n == Int(0)
    ensures Get(storage, LastSeenKey) == Some("") ==> n == Int(0)
  {
    var v := Get(storage, LastSeenKey);
    if v.Some? && v.value != [] then ParseInt(v.value) else Int(0)
  }

  /** A marker the bell wrote reads back as the same id on both pages. */
  lemma MarkerReadsBack(storage: Storage, i: int)
    requires Get(storage, LastSeenKey) == Some(IntToString(i))
    ensures MarkerAsNumber(storage) == Int(i) && MarkerAsParsedInt(storage) == Int(i)
  {
    StringToNumberOfIntToString(i);
    ParseIntOfIntToString(i);
  }

  /** The logs a successful log request yields for this user, or None where
      the request or a lookup failed or threw. */
  function VisibleLogs(reply: LogReply, role: Option<string>, userId: Num, devices: Devices): (r: Option<seq<LogEntry>>)
    ensures reply.LogUnreachable? || (reply.LogReply? && !IsOk(reply.status)) ==> r.None?
    ensures reply.LogReply? && IsOk(reply.status) && reply.result.Items? ==> r == RoleFilter(reply.result.items, role, userId, devices)
    ensures reply.LogReply? && IsOk(reply.status) && reply.result.Missing? ==> r == Some([])
    ensures reply.LogReply? && reply.result.NotArray? ==> r.None?
  {
    match reply
    case LogUnreachable => None
    case LogReply(status, result) =>
      if !IsOk(status) then None
      else match ItemsOrEmpty(result)
        case None => None
        case Some(logs) => RoleFilter(logs, role, userId, devices)
  }

  /** Sidebar's `checkNotif`: the badge shows when the latest visible id
      exceeds the marker; any failure leaves the badge as it was. */
  function SidebarCheck(badge: bool, storage: Storage, reply: LogReply, role: Option<string>, userId: Num, devices: Devices): (r: bool)
    ensures VisibleLogs(reply, role, userId, devices).None? ==> r == badge
    ensures VisibleLogs(reply, role, userId, devices).Some? ==>
      (r <==> MarkerAsNumber(storage).Int? && LatestId(VisibleLogs(reply, role, userId, devices).value) > MarkerAsNumber(storage).i)
  {
    match VisibleLogs(reply, role, userId, devices)
    case None => badge
    case Some(logs) =>
      var lastSeen := MarkerAsNumber(storage);
      lastSeen.Int? && LatestId(logs) > lastSeen.i
  }

  /** Dashboard's `fetchNotif`: the flag is set when some visible log's id
      exceeds the marker; any failure leaves the flag as it was. */
  function DashboardCheck(flag: bool, storage: Storage, reply: LogReply, role: Option<string>, userId: Num, devices: Devices): (r: bool)
    ensures VisibleLogs(reply, role, userId, devices).None? ==> r == flag
    ensures VisibleLogs(reply, role, userId, devices).Some? ==>
      (r <==> exists x :: x in VisibleLogs(reply, role, userId, devices).value
                && MarkerAsParsedInt(storage).Int? && x.id > MarkerAsParsedInt(storage).i)
  {
    match VisibleLogs(reply, role, userId, devices)
    case None => flag
    case Some(logs) =>
      var lastSeen := MarkerAsParsedInt(storage);
      lastSeen.Int? && exists x :: x in logs && x.id > lastSeen.i
  }

  /** What a bell click leaves behind: storage, the badge, and whether the
      page moves on to the notification history. */
  datatype BellResult = BellResult(storage: Storage, badge: bool, navigates: bool)

  /** The bell of the sidebar and of the dashboard header (the two handlers
      are the same code): on success the marker is overwritten with the
      latest visible id, the badge clears and the page goes to the
      notification history; on failure nothing changes and the page stays. */
  function BellClick(storage: Storage, badge: bool, reply: LogReply, role: Option<string>, userId: Num, devices: Devices): (r: BellResult)
    ensures r.navigates <==> VisibleLogs(reply, role, userId, devices).Some?
    ensures !r.navigates ==> r.storage == storage && r.badge == badge
    ensures r.navigates ==>
      && !r.badge
      && r.storage.Keys == storage.Keys + {LastSeenKey}
      && r.storage[LastSeenKey] == IntToString(LatestId(VisibleLogs(reply, role, userId, devices).value))
      && forall k :: k in storage && k != LastSeenKey ==> r.storage[k] == storage[k]
  {
    match VisibleLogs(reply, role, userId, devices)
    case None => BellResult(storage, badge, false)
    case Some(logs) => BellResult(storage[LastSeenKey := IntToString(LatestId(logs))], false, true)
  }

  /** A click whose marker write changes nothing is still told apart from a
      failed one: with the badge already clear and the marker already at the
      latest id 12, a successful click and a failed click leave the same
      storage and badge, and only the successful one leaves the page. */
  lemma BellNavigationIsObservable(devices: Devices)
    ensures var storage := map[LastSeenKey := "12"];
      var ok := BellClick(storage, false, LogReply(200, Items([OtherLog])), Some("admin"), Int(1), devices);
      var failed := BellClick(storage, false, LogUnreachable, Some("admin"), Int(1), devices);
      ok.storage == failed.storage && ok.badge == failed.badge && ok.navigates && !failed.navigates
  {
    var storage := map[LastSeenKey := "12"];
    assert VisibleLogs(LogReply(200, Items([OtherLog])), Some("admin"), Int(1), devices) == Some([OtherLog]);
    assert LatestId([OtherLog]) == 12;
    assert IntToString(12) == "12";
    assert storage[LastSeenKey := "12"] == storage;
  }

  /** After a successful bell click, checking again over the same logs as the
      same viewer shows no badge, by either page's test. */
  lemma BellThenCheckShowsNoBadge(storage: Storage, badge: bool, reply: LogReply, role: Option<string>, userId: Num, devices: Devices)
    requires VisibleLogs(reply, role, userId, devices).Some?
    ensures var BellResult(after, b, _) := BellClick(storage, badge, reply, role, userId, devices);
      !SidebarCheck(b, after, reply, role, userId, devices)
      && !DashboardCheck(b, after, reply, role, userId, devices)
  {
    var logs := VisibleLogs(reply, role, userId, devices).value;
    var m := LatestId(logs);
    StringToNumberOfIntToString(m);
    ParseIntOfIntToString(m);
  }

  // ---------------------------------------------------------------------------
  // Who is looking

  /** The role and user id a page filters logs with. */
  datatype Viewer = Viewer(role: Option<string>, userId: Num)

  /** The sidebar's viewer: the stored user's role lowercased, and
      `Number(localStorage.getItem("user_id"))`, which reads a missing id as 0. */
  function SidebarViewer(userRole: Option<string>, storage: Storage): (v: Viewer)
    ensures v.role == Sidebar.SidebarRole(userRole)
    ensures UserIdKey !in storage ==> v.userId == Int(0)
    ensures UserIdKey in storage ==> v.userId == StringToNumber(storage[UserIdKey])
  {
    Viewer(Sidebar.SidebarRole(userRole), if UserIdKey in storage then StringToNumber(storage[UserIdKey]) else Int(0))
  }

  /** The dashboard's viewer: the raw `role` entry, and
      `parseInt(localStorage.getItem("user_id"))`, which reads a missing id as NaN. */
  function DashboardViewer(storage: Storage): (v: Viewer)
    ensures v.role == Get(storage, RoleKey)
    ensures UserIdKey !in storage ==> v.userId == NaN
    ensures UserIdKey in storage ==> v.userId == ParseInt(storage[UserIdKey])
  {
    Viewer(Get(storage, RoleKey), if UserIdKey in storage then ParseInt(storage[UserIdKey]) else NaN)
  }

  /** An id written by the login reads back the same on both pages; a missing
      one is user 0 to the sidebar and no user at all to the dashboard. */
  lemma ViewerIds(storage: Storage, i: int)
    ensures Get(storage, UserIdKey) == Some(IntToString(i)) ==>
      SidebarViewer(None, storage).userId == Int(i) && DashboardViewer(storage).userId == Int(i)
    ensures UserIdKey !in storage ==>
      SidebarViewer(None, storage).userId == Int(0) && DashboardViewer(storage).userId == NaN
  {
    StringToNumberOfIntToString(i);
    ParseIntOfIntToString(i);
  }

  /** The sidebar's bell followed by the sidebar's next check shows no badge:
      the bell does not touch the entries the viewer is read from. */
  lemma SidebarBellThenCheck(userRole: Option<string>, storage: Storage, badge: bool, reply: LogReply, devices: Devices)
    requires var v := SidebarViewer(userRole, storage); VisibleLogs(reply, v.role, v.userId, devices).Some?
    ensures var v := SidebarViewer(userRole, storage);
      var BellResult(after, b, _) := BellClick(storage, badge, reply, v.role, v.userId, devices);
      var w := SidebarViewer(userRole, after);
      w == v && !SidebarCheck(b, after, reply, w.role, w.userId, devices)
  {
    var v := SidebarViewer(userRole, storage);
    BellThenCheckShowsNoBadge(storage, badge, reply, v.role, v.userId, devices);
  }

  /** The dashboard's bell followed by the dashboard's next check clears its flag. */
  lemma DashboardBellThenCheck(storage: Storage, flag: bool, reply: LogReply, devices: Devices)
    requires var v := DashboardViewer(storage); VisibleLogs(reply, v.role, v.userId, devices).Some?
    ensures var v := DashboardViewer(storage);
      var BellResult(after, b, _) := BellClick(storage, flag, reply, v.role, v.userId, devices);
      var w := DashboardViewer(after);
      w == v && !DashboardCheck(b, after, reply, w.role, w.userId, devices)
  {
    var v := DashboardViewer(storage);
    BellThenCheckShowsNoBadge(storage, flag, reply, v.role, v.userId, devices);
  }

  const OwnLog := LogEntry(7, 1, None)
  const OtherLog := LogEntry(12, 2, None)
  /** Device 1 belongs to user 1 and device 2 to user 2. */
  const SplitDevices: Devices := map[1 := DeviceOk(Device(VNum(1), None)), 2 := DeviceOk(Device(VNum(2), None))]
  const SplitReply := LogReply(200, Items([OwnLog, OtherLog]))

  /** Restricted as "karyawan", user 1 sees only the log of their own device. */
  lemma SplitRestrictedLogs()
    ensures VisibleLogs(SplitReply, Some(Karyawan), Int(1), SplitDevices) == Some([OwnLog])
  {
    var logs := [OwnLog, OtherLog];
    assert logs[1..] == [OtherLog];
    assert Lookup(SplitDevices, 1) == DeviceOk(Device(VNum(1), None));
    assert Lookup(SplitDevices, 2) == DeviceOk(Device(VNum(2), None));
    assert OwnsLog(OwnLog, Int(1), SplitDevices) && !OwnsLog(OtherLog, Int(1), SplitDevices);
    assert [OtherLog][1..] == [];
    assert OwnedLogs([OtherLog], Int(1), SplitDevices) == Some([]);
    assert !Lookup(SplitDevices, logs[0].voltId).DeviceUnreachable?;
    assert OwnedLogs(logs, Int(1), SplitDevices) == Some([OwnLog] + []);
    assert [OwnLog] + [] == [OwnLog];
  }

  /** The two pages restrict different users. A user whose role is stored as
      "Karyawan" is restricted by the sidebar, which lowercases it, and not by
      the dashboard, which compares the raw entry with "karyawan". With log 7
      on the user's own device and log 12 on another, the sidebar's bell
      writes 7 and the sidebar shows no badge, while the dashboard still
      raises its flag for log 12. */
  lemma KaryawanSpellingSplitsPages()
    ensures var storage := map[UserIdKey := "1", RoleKey := "Karyawan"];
      var v := SidebarViewer(Some("Karyawan"), storage);
      var BellResult(after, b, _) := BellClick(storage, true, SplitReply, v.role, v.userId, SplitDevices);
      var w := DashboardViewer(after);
      && after[LastSeenKey] == "7"
      && !SidebarCheck(b, after, SplitReply, v.role, v.userId, SplitDevices)
      && DashboardCheck(false, after, SplitReply, w.role, w.userId, SplitDevices)
  {
    var storage := map[UserIdKey := "1", RoleKey := "Karyawan"];
    assert ToLower("Karyawan") == "karyawan";
    assert StringToNumber("1") == Int(1);
    assert SidebarViewer(Some("Karyawan"), storage) == Viewer(Some("karyawan"), Int(1));
    SplitRestrictedLogs();
    assert LatestId([OwnLog]) == 7;
    assert IntToString(7) == "7";
    var after := storage[LastSeenKey := "7"];
    MarkerReadsBack(after, 7);
    assert ParseInt("1") == Int(1);
    assert DashboardViewer(after) == Viewer(Some("Karyawan"), Int(1));
    assert VisibleLogs(SplitReply, Some("Karyawan"), Int(1), SplitDevices) == Some([OwnLog, OtherLog]);
    assert OtherLog in [OwnLog, OtherLog];
  }

  /** The bell overwrites rather than raising the marker: with no visible
      logs it writes 0 whatever the marker was before. */
  lemma BellCanLowerMarker(storage: Storage, badge: bool, role: Option<string>, userId: Num, devices: Devices)
    ensures BellClick(storage, badge, LogReply(200, Items([])), role, userId, devices).storage[LastSeenKey] == "0"
  {
    assert LatestId([]) == 0;
  }

  /** For a marker at or above 0, the dashboard's "some id exceeds the marker"
      test and the sidebar's "the highest id exceeds the marker" test agree. */
  lemma DashboardAgreesWithSidebar(logs: seq<LogEntry>, marker: int)
    requires marker >= 0
    ensures (exists x :: x in logs && x.id > marker) <==> LatestId(logs) > marker
  {
  }

  /** Below 0 they part ways: with a marker of -1 and no logs at all the
      sidebar shows the badge and the dashboard does not. */
  lemma NegativeMarkerDisagrees(devices: Devices)
    ensures var storage := map[LastSeenKey := "-1"];
      var reply := LogReply(200, Items([]));
      SidebarCheck(false, storage, reply, Some("admin"), Int(1), devices)
      && !DashboardCheck(false, storage, reply, Some("admin"), Int(1), devices)
  {
    assert "-1"[1..] == "1";
    assert StringToNumber("-1") == Int(-1);
    assert ParseInt("-1") == Int(-1);
  }

  /** A worked example: ids 5, 12 and 7 against marker 7 show
      the badge, and after the bell the marker is 12 and the badge is gone. */
  lemma BadgeExample(storage: Storage, devices: Devices)
    requires Get(storage, LastSeenKey) == Some("7")
    ensures var reply := LogReply(200, Items([LogEntry(5, 1, None), LogEntry(12, 1, None), LogEntry(7, 1, None)]));
      SidebarCheck(false, storage, reply, Some("admin"), Int(1), devices)
      && BellClick(storage, true, reply, Some("admin"), Int(1), devices).storage[LastSeenKey] == "12"
      && !SidebarCheck(false, BellClick(storage, true, reply, Some("admin"), Int(1), devices).storage, reply, Some("admin"), Int(1), devices)
  {
    var logs := [LogEntry(5, 1, None), LogEntry(12, 1, None), LogEntry(7, 1, None)];
    var reply := LogReply(200, Items(logs));
    ExampleLogsVisible(devices);
    BadgeBeforeBell(storage, devices);
    assert IntToString(12) == "12";
    BellThenCheckShowsNoBadge(storage, true, reply, Some("admin"), Int(1), devices);
  }

  lemma ExampleLogsVisible(devices: Devices)
    ensures var logs := [LogEntry(5, 1, None), LogEntry(12, 1, None), LogEntry(7, 1, None)];
      VisibleLogs(LogReply(200, Items(logs)), Some("admin"), Int(1), devices) == Some(logs) && LatestId(logs) == 12
  {
  }

  lemma BadgeBeforeBell(storage: Storage, devices: Devices)
    requires Get(storage, LastSeenKey) == Some("7")
    ensures var reply := LogReply(200, Items([LogEntry(5, 1, None), LogEntry(12, 1, None), LogEntry(7, 1, None)]));
      SidebarCheck(false, storage, reply, Some("admin"), Int(1), devices)
  {
    ExampleLogsVisible(devices);
    assert "7"[0] == '7';
    assert StringToNumber("7") == Int(7);
  }

}

=== FILE: user_forms.dfy ===
/** The user edit and user add forms: role canonicalisation, the form loaded
    from the server, field changes that clear their own error, the update
    payload's company id, and how a submission settles, including the add
    form's guard against double submission. */
module UserForms {
  import opened Js

  /** A form: field name to value (strings from inputs, booleans from checkboxes). */
  type Form = map<string, Value>

  /** Field errors: a message, or None once the field was edited (`null`). */
  type Errors = map<string, Option<string>>

  const NameField := "name"
  const UsernameField := "username"
  const PasswordField := "password"
  const RoleField := "role"
  const StatusField := "status"

  /** Both forms start blank with role `Karyawan` and status true. */
  const InitialForm: Form := map[
    NameField := VStr(""), UsernameField := VStr(""), PasswordField := VStr(""),
    RoleField := VStr("Karyawan"), StatusField := VBool(true)]

  // ---------------------------------------------------------------------------
  // Roles

  const Roles: map<string, string> := map["owner" := "Owner", "karyawan" := "Karyawan", "admin" := "admin", "casual" := "casual"]

  /** `capitalizeRole`: the four known roles, matched without regard to
      case, get their canonical spelling; any other role is returned as is. */
  function CapitalizeRole(role: string): (r: string)
    ensures ToLower(role) in Roles ==> r == Roles[ToLower(role)]
    ensures ToLower(role) !in Roles ==> r == role
  {
    var key := ToLower(role);
    if key in Roles then Roles[key] else role
  }

  /** Canonical spellings stay canonical. */
  lemma {:induction false} CapitalizeRoleIdempotent(role: string)
    ensures CapitalizeRole(CapitalizeRole(role)) == CapitalizeRole(role)
  {
    var key := ToLower(role);
    if key in Roles {
      var c := Roles[key];
      assert ToLower("Owner") == "owner";
      assert ToLower("Karyawan") == "karyawan";
      assert ToLower("admin") == "admin";
      assert ToLower("casual") == "casual";
      assert c in {"Owner", "Karyawan", "admin", "casual"};
      assert Roles[ToLower(c)] == c;
    }
  }

  /** Examples: any casing of `OWNER` gives `Owner`; `ADMIN` gives `admin`; `manager` stays. */
  lemma CapitalizeRoleExamples()
    ensures CapitalizeRole("OWNER") == "Owner" && CapitalizeRole("ADMIN") == "admin"
    ensures CapitalizeRole("manager") == "manager"
  {
    assert ToLower("OWNER") == "owner";
    assert ToLower("ADMIN") == "admin";
    assert ToLower("manager") == "manager";
  }

  // ---------------------------------------------------------------------------
  // Loading

  /** The user as the server returns it. */
  datatype UserData = UserData(name: Option<string>, username: Option<string>, role: Option<string>, status: Value)

  /** The edit form filled from the server: missing texts blank, a missing
      role `Karyawan`, the password always blank, and a null or missing
      status true (`false` and `0` are kept). */
  function LoadedForm(data: UserData): (f: Form)
    ensures f.Keys == InitialForm.Keys
    ensures f[PasswordField] == VStr("")
    ensures f[NameField] == VStr(OrElse(data.name, ""))
    ensures f[UsernameField] == VStr(OrElse(data.username, ""))
    ensures f[RoleField] == VStr(CapitalizeRole(OrElse(data.role, "Karyawan")))
    ensures f[StatusField] == (if data.status.VNull? || data.status.VUndefined? then VBool(true) else data.status)
  {
    map[NameField := VStr(OrElse(data.name, "")),
        UsernameField := VStr(OrElse(data.username, "")),
        PasswordField := VStr(""),
        RoleField := VStr(CapitalizeRole(OrElse(data.role, "Karyawan"))),
        StatusField := if data.status.VNull? || data.status.VUndefined? then VBool(true) else data.status]
  }

  /** A missing role loads as `Karyawan`, and a `false` status stays false. */
  lemma LoadedDefaults(name: Option<string>, username: Option<string>)
    ensures LoadedForm(UserData(name, username, None, VBool(false)))[RoleField] == VStr("Karyawan")
    ensures LoadedForm(UserData(name, username, None, VBool(false)))[StatusField] == VBool(false)
    ensures LoadedForm(UserData(name, username, None, VNull))[StatusField] == VBool(true)
  {
    assert ToLower("Karyawan") == "karyawan";
  }

  /** The reply to `GET /user/:id`. */
  datatype LoadReply = LoadReply(ok: bool, data: UserData) | LoadUnreachable

  const LoadFailedMessage := "Gagal mengambil data user"
  const ServerUnreachableMessage := "Gagal terhubung ke server"

  /** The form after loading, the alert raised, and whether the page returns to the user list. */
  datatype LoadOutcome = LoadOutcome(form: Form, alert: Option<string>, leave: bool)

  /** `fetchUser`: the loaded form; or, after a not-ok reply or a request
      that threw, the form unchanged, an alert naming which of the two it
      was, and a return to the user list. */
  function LoadUser(form: Form, reply: LoadReply): (r: LoadOutcome)
    ensures r.leave <==> !(reply.LoadReply? && reply.ok)
    ensures r.leave ==> r.form == form
    ensures !r.leave ==> r.form == LoadedForm(reply.data) && r.alert.None?
    ensures reply.LoadReply? && !reply.ok ==> r.alert == Some(LoadFailedMessage)
    ensures reply.LoadUnreachable? ==> r.alert == Some(ServerUnreachableMessage)
  {
    match reply
    case LoadUnreachable => LoadOutcome(form, Some(ServerUnreachableMessage), true)
    case LoadReply(ok, data) =>
      if ok then LoadOutcome(LoadedForm(data), None, false)
      else LoadOutcome(form, Some(LoadFailedMessage), true)
  }

  /** An alert is raised exactly when the page leaves, and it tells a refusal
      by the server from a request that never got an answer. */
  lemma LoadAlertTellsFailure(form: Form, reply: LoadReply)
    ensures LoadUser(form, reply).alert.Some? <==> LoadUser(form, reply).leave
    ensures LoadUser(form, reply).alert == Some(LoadFailedMessage) <==> reply.LoadReply? && !reply.ok
    ensures LoadUser(form, reply).alert == Some(ServerUnreachableMessage) <==> reply.LoadUnreachable?
  {
  }

  // ---------------------------------------------------------------------------
  // Editing

  /** `handleChange`: a checkbox stores `checked`, any other input `value`;
      the field's error is set to null. */
  function HandleChange(form: Form, errors: Errors, name: string, isCheckbox: bool, value: string, checked: bool): (r: (Form, Errors))
    ensures r.0.Keys == form.Keys + {name} && r.1.Keys == errors.Keys + {name}
    ensures r.0[name] == (if isCheckbox then VBool(checked) else VStr(value))
    ensures r.1[name] == None
    ensures forall k :: k in form && k != name ==> r.0[k] == form[k]
    ensures forall k :: k in errors && k != name ==> r.1[k] == errors[k]
  {
    (form[name := if isCheckbox then VBool(checked) else VStr(value)], errors[name := None])
  }

  /** Editing two different fields in either order gives the same form and errors. */
  lemma ChangesCommute(form: Form, errors: Errors, a: string, b: string, va: string, vb: string)
    requires a != b
    ensures var (f1, e1) := HandleChange(form, errors, a, false, va, false);
            var (f2, e2) := HandleChange(form, errors, b, false, vb, false);
      HandleChange(f1, e1, b, false, vb, false) == HandleChange(f2, e2, a, false, va, false)
  {
    assert form[a := VStr(va)][b := VStr(vb)] == form[b := VStr(vb)][a := VStr(va)];
    assert errors[a := None][b := None] == errors[b := None][a := None];
  }

  // ---------------------------------------------------------------------------
  // Submitting

  /** The logged-in user's stored record, as far as the company id goes. */
  datatype LoginUser = LoginUser(companyIdSnake: Value, companyIdCamel: Value)

  /** `userLogin?.company_id || userLogin?.companyId || null`. */
  function CompanyId(user: Option<LoginUser>): (r: Value)
    ensures user.None? ==> r == VNull
    ensures user.Some? && Truthy(user.value.companyIdSnake) ==> r == user.value.companyIdSnake
    ensures user.Some? && !Truthy(user.value.companyIdSnake) && Truthy(user.value.companyIdCamel) ==> r == user.value.companyIdCamel
    ensures Truthy(r) || r == VNull
  {
    if user.None? then VNull
    else if Truthy(user.value.companyIdSnake) then user.value.companyIdSnake
    else if Truthy(user.value.companyIdCamel) then user.value.companyIdCamel
    else VNull
  }

  /** A field of the form, `undefined` when absent. */
  function Field(form: Form, name: string): Value {
    if name in form then form[name] else VUndefined
  }

  /** The update payload: the five form fields and the company id. */
  function EditPayload(form: Form, user: Option<LoginUser>): (p: map<string, Value>)
    ensures p.Keys == InitialForm.Keys + {"company_id"}
    ensures forall k :: k in InitialForm ==> p[k] == Field(form, k)
    ensures p["company_id"] == CompanyId(user)
  {
    map[NameField := Field(form, NameField), UsernameField := Field(form, UsernameField),
        PasswordField := Field(form, PasswordField), RoleField := Field(form, RoleField),
        StatusField := Field(form, StatusField), "company_id" := CompanyId(user)]
  }

  /** Saving a loaded form unedited sends the user's own values, with a blank
      password; a server that stores them and is asked again returns a user
      that loads into the very same form. */
  lemma SaveThenReload(data: UserData, user: Option<LoginUser>)
    ensures var p := EditPayload(LoadedForm(data), user);
      && p[NameField] == VStr(OrElse(data.name, ""))
      && p[UsernameField] == VStr(OrElse(data.username, ""))
      && p[PasswordField] == VStr("")
      && p[RoleField] == VStr(CapitalizeRole(OrElse(data.role, "Karyawan")))
      && p["company_id"] == CompanyId(user)
    ensures var p := EditPayload(LoadedForm(data), user);
      var stored := UserData(Some(OrElse(data.name, "")), Some(OrElse(data.username, "")),
                             Some(CapitalizeRole(OrElse(data.role, "Karyawan"))), p[StatusField]);
      LoadedForm(stored) == LoadedForm(data)
  {
    CapitalizeRoleIdempotent(OrElse(data.role, "Karyawan"));
  }

  /** The server's answer to a submission. A reply that is not JSON, and a
      network error, arrive as `SubmitThrew` with the error's message. */
  datatype SubmitReply =
    | SubmitReply(ok: bool, errors: Option<map<string, string>>, message: Option<string>)
    | SubmitThrew(error: string)

  /** How a submission ends: the field errors shown, the alert, and whether
      the page returns to the user list. */
  datatype Settled = Settled(errors: Errors, alert: Option<string>, leaves: bool)

  const SaveErrorFallback := "Terjadi kesalahan saat menyimpan data"

  /** `alert(err.message || fallback)` for a thrown error. */
  function ThrownAlert(message: string): (r: string)
    ensures r != []
    ensures message != [] ==> r == message
  {
    if message != [] then message else SaveErrorFallback
  }

  function ToErrors(e: map<string, string>): (r: Errors)
    ensures r.Keys == e.Keys && forall k :: k in e ==> r[k] == Some(e[k])
  {
    map k | k in e :: Some(e[k])
  }

  /** Both forms' handling of the reply: success alerts and leaves; field
      errors from the server are shown with no alert and no navigation;
      any other failure alerts its message or the fallback. Errors start cleared. */
  function Settle(reply: SubmitReply, success: string, failure: string): (r: Settled)
    ensures r.leaves <==> reply.SubmitReply? && reply.ok
    ensures r.leaves ==> r.errors == map[] && r.alert == Some(success)
    ensures reply.SubmitReply? && !reply.ok && reply.errors.Some? ==>
      r.errors == ToErrors(reply.errors.value) && r.alert.None? && !r.leaves
    ensures reply.SubmitReply? && !reply.ok && reply.errors.None? ==>
      r.errors == map[] && r.alert == Some(OrElse(reply.message, failure))
    ensures reply.SubmitThrew? ==> r == Settled(map[], Some(ThrownAlert(reply.error)), false)
  {
    match reply
    case SubmitThrew(m) => Settled(map[], Some(ThrownAlert(m)), false)
    case SubmitReply(ok, errors, message) =>
      if ok then Settled(map[], Some(success), true)
      else if errors.Some? then Settled(ToErrors(errors.value), None, false)
      else Settled(map[], Some(OrElse(message, failure)), false)
  }

  /** The edit form's submission. */
  function EditSubmit(reply: SubmitReply): (r: Settled)
    ensures r.leaves <==> reply.SubmitReply? && reply.ok
    ensures reply.SubmitReply? && !reply.ok && reply.errors.Some? ==> !r.leaves && r.errors == ToErrors(reply.errors.value)
  {
    Settle(reply, "User berhasil diupdate!", "Gagal mengupdate user")
  }

  /** The add form's state: the module-wide `isSubmitting` flag, `loading`,
      and the field errors. */
  datatype AddState = AddState(submitting: bool, loading: bool, errors: Errors)

  /** The add form's submission: a click while a submission is in flight
      does nothing and sends nothing; otherwise the form is posted and the
      reply settles it, after which both flags are down again. */
  function AddSubmit(st: AddState, reply: SubmitReply): (r: (AddState, Option<Settled>))
    ensures st.submitting || st.loading ==> r == (st, None)
    ensures !(st.submitting || st.loading) ==>
      && r.1 == Some(Settle(reply, "User berhasil ditambahkan!", "Gagal menambahkan user"))
      && !r.0.submitting && !r.0.loading
      && r.0.errors == r.1.value.errors
  {
    if st.submitting || st.loading then (st, None)
    else
      var s := Settle(reply, "User berhasil ditambahkan!", "Gagal menambahkan user");
      (AddState(false, false, s.errors), Some(s))
  }

  /** Whatever the reply, a completed submission leaves the form ready for
      the next one, and server field errors never navigate away. */
  lemma AddSubmitCompletes(st: AddState, reply: SubmitReply, next: SubmitReply)
    requires !st.submitting && !st.loading
    ensures AddSubmit(AddSubmit(st, reply).0, next).1.Some?
    ensures reply.SubmitReply? && !reply.ok && reply.errors.Some? ==> !AddSubmit(st, reply).1.value.leaves
  {
  }
}

=== FILE: user_lists.dfy ===
/** The active and inactive user lists: the users whose `status` is
    strictly `true` or `1`, and those whose `status` is strictly `false` or
    `0`, with the fetch-failure and delete-refresh behaviour of both pages. */
module UserLists {
  import opened Js
  import opened Lists
  import opened Api

  datatype User = User(id: int, status: Value)

  /** `user.status === true || user.status === 1`. */
  predicate IsActive(u: User) {
    u.status == VBool(true) || u.status == VNum(1)
  }

  /** `user.status === false || user.status === 0`. */
  predicate IsInactive(u: User) {
    u.status == VBool(false) || u.status == VNum(0)
  }

  /** No user is in both lists, and a status of any other value (null, the
      string "1", 2, ...) keeps a user out of both. */
  lemma ListsAreDisjoint(u: User)
    ensures !(IsActive(u) && IsInactive(u))
    ensures IsActive(u) || IsInactive(u) <==> u.status in {VBool(true), VNum(1), VBool(false), VNum(0)}
    ensures !IsActive(User(u.id, VStr("1"))) && !IsInactive(User(u.id, VNull))
  {
  }

  /** The reply to `GET /user`. */
  datatype UserReply = UserReply(ok: bool, result: ResultField<User>) | UserUnreachable

  datatype Page = Active | Inactive

  predicate Keeps(page: Page, u: User) {
    if page == Active then IsActive(u) else IsInactive(u)
  }

  /** `(json.result || []).filter(...)`. */
  function Shown(page: Page, users: seq<User>): (r: seq<User>)
    ensures forall u :: u in r <==> u in users && Keeps(page, u)
  {
    Filter(users, (u: User) => Keeps(page, u))
  }

  /** A page lists the users with its status in the order the reply gave
      them: one more user at the end is shown last exactly when it belongs. */
  lemma ShownAppend(page: Page, users: seq<User>, u: User)
    ensures Shown(page, users + [u]) == Shown(page, users) + (if Keeps(page, u) then [u] else [])
  {
    FilterSnoc(users, u, (u: User) => Keeps(page, u));
  }

  /** A user with the page's status is listed as often as the reply lists it. */
  lemma ShownCounts(page: Page, users: seq<User>, u: User)
    ensures multiset(Shown(page, users))[u] == if Keeps(page, u) then multiset(users)[u] else 0
  {
    FilterCounts(users, (u: User) => Keeps(page, u), u);
  }

  datatype UsersState = UsersState(users: seq<User>, loading: bool, failed: bool)

  /** `fetchUsers`: on success the page's users, in order, a missing result
      giving none; a failed request, or a result that is not a list, keeps
      the list and raises the failure alert. Loading ends either way. */
  function FetchUsers(page: Page, st: UsersState, reply: UserReply): (r: UsersState)
    ensures !r.loading
    ensures r.failed <==> reply.UserUnreachable? || !reply.ok || reply.result.NotArray?
    ensures r.failed ==> r.users == st.users
    ensures !r.failed ==> r.users == Shown(page, if reply.result.Items? then reply.result.items else [])
  {
    match reply
    case UserUnreachable => st.(loading := false, failed := true)
    case UserReply(ok, result) =>
      match ItemsOrEmpty(result)
      case None => st.(loading := false, failed := true)
      case Some(users) =>
        if !ok then st.(loading := false, failed := true)
        else UsersState(Shown(page, users), false, false)
  }

  /** Over one reply the two pages split the users with a boolean or 0/1
      status between them, each user on exactly one page. */
  lemma PagesPartition(st: UsersState, reply: UserReply, u: User)
    requires reply.UserReply? && reply.ok && reply.result.Items?
    requires u in reply.result.items
    requires u.status.VBool? || u.status == VNum(0) || u.status == VNum(1)
    ensures u in FetchUsers(Active, st, reply).users <==> u !in FetchUsers(Inactive, st, reply).users
  {
  }

  const UserDeletedMessage := "User berhasil dihapus"
  const UserDeleteFailedMessage := "Gagal menghapus user"

  /** The list after a delete, and the alert the delete raised. */
  datatype UserDeleteOutcome = UserDeleteOutcome(state: UsersState, alert: string)

  /** `deleteUser`: a successful delete alerts its success and refetches the
      list; a failed one alerts its failure and leaves the list. */
  function DeleteUser(page: Page, st: UsersState, deleteOk: bool, refetch: UserReply): (r: UserDeleteOutcome)
    ensures !deleteOk ==> r.state == st && r.alert == UserDeleteFailedMessage
    ensures deleteOk ==> r.state == FetchUsers(page, st, refetch) && r.alert == UserDeletedMessage
  {
    if deleteOk then UserDeleteOutcome(FetchUsers(page, st, refetch), UserDeletedMessage)
    else UserDeleteOutcome(st, UserDeleteFailedMessage)
  }

  /** The delete's alert tells its outcome, and the list changes only after a
      success. */
  lemma DeleteAlertTellsOutcome(page: Page, st: UsersState, deleteOk: bool, refetch: UserReply)
    ensures DeleteUser(page, st, deleteOk, refetch).alert == UserDeletedMessage <==> deleteOk
    ensures DeleteUser(page, st, deleteOk, refetch).state != st ==> deleteOk
  {
  }

  /** After a successful delete and refetch, the deleted user is gone when the server dropped it. */
  lemma DeletedUserDisappears(page: Page, st: UsersState, refetch: UserReply, id: int)
    requires refetch.UserReply? && refetch.ok && !refetch.result.NotArray?
    requires refetch.result.Items? ==> forall u :: u in refetch.result.items ==> u.id != id
    ensures forall u :: u in DeleteUser(page, st, true, refetch).state.users ==> u.id != id
  {
  }
}

=== FILE: voltage_monitor.dfy ===
/** The live voltage monitor: three channel histories fed by a realtime
    database subscription, appended together and trimmed to 10 entries. */
module VoltageMonitor {
  import opened Js
  import opened Window

  /** Entries each channel history keeps. */
  const MonitorCap := 10

  /** A history entry: the `HH:MM` label and the raw value received. */
  datatype Entry = Entry(time: string, value: Value)

  /** A realtime snapshot's three voltages. */
  datatype Snapshot = Snapshot(tegangan1: Value, tegangan2: Value, tegangan3: Value)

  datatype MonitorState = MonitorState(current: Option<Snapshot>, h1: seq<Entry>, h2: seq<Entry>, h3: seq<Entry>)

  const InitialMonitor := MonitorState(None, [], [], [])

  /** `toLocaleTimeString().slice(0, 5)`. */
  function TimeLabel(localTime: string): (r: string)
    ensures |r| <= 5 && |r| <= |localTime| && r == localTime[..|r|]
    ensures |localTime| >= 5 ==> |r| == 5
  {
    if |localTime| <= 5 then localTime else localTime[..5]
  }

  /** The three histories have one length, within the cap, and entries at the
      same position carry the same time label. */
  ghost predicate InStep(st: MonitorState) {
    && |st.h1| <= MonitorCap
    && SameTimes(st.h1, st.h2)
    && SameTimes(st.h1, st.h3)
  }

  function EntryTime(e: Entry): string { e.time }

  /** Two histories whose entries carry the same labels position by position. */
  ghost predicate SameTimes(a: seq<Entry>, b: seq<Entry>) {
    Project(a, EntryTime) == Project(b, EntryTime)
  }

  /** Pushing entries with one label onto two histories keeps their labels aligned. */
  lemma PushSameTimes(a: seq<Entry>, b: seq<Entry>, x: Entry, y: Entry)
    requires x.time == y.time && SameTimes(a, b)
    ensures SameTimes(Push(a, x, MonitorCap), Push(b, y, MonitorCap))
  {
    PushProject(a, x, MonitorCap, EntryTime);
    PushProject(b, y, MonitorCap, EntryTime);
  }

  /** One subscription callback. Without a device id there is no
      subscription, and an empty snapshot is ignored; otherwise each channel
      gets one entry and is trimmed to its last 10, which is the same as
      pushing the entry into a window of 10. */
  function OnSnapshot(st: MonitorState, deviceId: Option<string>, data: Option<Snapshot>, localTime: string): (r: MonitorState)
    ensures !Present(deviceId) || data.None? ==> r == st
    ensures Present(deviceId) && data.Some? ==>
      var t := TimeLabel(localTime);
      && r.current == data
      && r.h1 == Push(st.h1, Entry(t, data.value.tegangan1), MonitorCap)
      && r.h2 == Push(st.h2, Entry(t, data.value.tegangan2), MonitorCap)
      && r.h3 == Push(st.h3, Entry(t, data.value.tegangan3), MonitorCap)
    ensures InStep(st) ==> InStep(r)
  {
    if !Present(deviceId) || data.None? then st
    else
      var t := TimeLabel(localTime);
      var d := data.value;
      var e1, e2, e3 := Entry(t, d.tegangan1), Entry(t, d.tegangan2), Entry(t, d.tegangan3);
      TrimAfterAppendIsPush(st.h1, e1, MonitorCap);
      TrimAfterAppendIsPush(st.h2, e2, MonitorCap);
      TrimAfterAppendIsPush(st.h3, e3, MonitorCap);
      AppendInStep(st, e1, e2, e3);
      MonitorState(data,
        TrimTo(st.h1 + [e1], MonitorCap), TrimTo(st.h2 + [e2], MonitorCap), TrimTo(st.h3 + [e3], MonitorCap))
  }

  /** Appending one entry per channel under one label keeps the histories in step. */
  lemma AppendInStep(st: MonitorState, e1: Entry, e2: Entry, e3: Entry)
    requires e1.time == e2.time == e3.time
    ensures InStep(st) ==>
      InStep(MonitorState(st.current, Push(st.h1, e1, MonitorCap), Push(st.h2, e2, MonitorCap), Push(st.h3, e3, MonitorCap)))
  {
    if InStep(st) {
      PushSameTimes(st.h1, st.h2, e1, e2);
      PushSameTimes(st.h1, st.h3, e1, e3);
    }
  }

  /** Each callback leaves the newest reading last, after the older entries
      in their order, within 10 entries. */
  lemma NewestLast(st: MonitorState, deviceId: Option<string>, d: Snapshot, localTime: string)
    requires Present(deviceId)
    ensures var r := OnSnapshot(st, deviceId, Some(d), localTime);
      && 1 <= |r.h1| <= MonitorCap
      && r.h1[|r.h1| - 1] == Entry(TimeLabel(localTime), d.tegangan1)
      && r.h1[..|r.h1| - 1] == st.h1[|st.h1| - (|r.h1| - 1)..]
  {
    TrimAfterAppendIsPush(st.h1, Entry(TimeLabel(localTime), d.tegangan1), MonitorCap);
  }

  /** The state after a series of callbacks. */
  function Replay(st: MonitorState, deviceId: Option<string>, events: seq<(Option<Snapshot>, string)>): MonitorState
    decreases |events|
  {
    if events == [] then st
    else Replay(OnSnapshot(st, deviceId, events[0].0, events[0].1), deviceId, events[1..])
  }

  /** From the empty start, any series of callbacks keeps the three histories in step. */
  lemma {:induction false} HistoriesStayInStep(st: MonitorState, deviceId: Option<string>, events: seq<(Option<Snapshot>, string)>)
    requires InStep(st)
    ensures InStep(Replay(st, deviceId, events))
    decreases |events|
  {
    if events != [] {
      HistoriesStayInStep(OnSnapshot(st, deviceId, events[0].0, events[0].1), deviceId, events[1..]);
    }
  }

  lemma InitialIsInStep()
    ensures InStep(InitialMonitor)
  {
  }
}

=== FILE: window.dfy ===
/** Bounded chart histories: the sliding windows the monitoring pages keep. */
module Window {

  /** `s.slice(-k)` for a positive `k`: the last `k` elements, or all of `s` when shorter. */
  function LastN<T>(s: seq<T>, k: nat): (r: seq<T>)
    requires k > 0
    ensures |r| == if |s| < k then |s| else k
    ensures r == s[|s| - |r|..]
  {
    if |s| <= k then s else s[|s| - k..]
  }

  /** `[...prev.slice(-(cap - 1)), x]`: keep the last `cap - 1` points, then append. */
  function Push<T>(prev: seq<T>, x: T, cap: nat): (r: seq<T>)
    requires cap > 1
    ensures |r| == if |prev| < cap then |prev| + 1 else cap
    ensures r[|r| - 1] == x
    ensures r[..|r| - 1] == prev[|prev| - (|r| - 1)..]
    ensures |prev| < cap ==> r == prev + [x]
  {
    LastN(prev, cap - 1) + [x]
  }

  /** `s.length > k ? s.slice(-k) : s`: trim an already-extended history. */
  function TrimTo<T>(s: seq<T>, k: nat): (r: seq<T>)
    requires k > 0
    ensures |r| <= k
    ensures |s| <= k ==> r == s
  {
    if |s| > k then LastN(s, k) else s
  }

  /** Pushing onto a window of a history gives the window of the extended
      history: the buffer always holds exactly the newest points received. */
  lemma PushKeepsNewest<T>(history: seq<T>, x: T, cap: nat)
    requires cap > 1
    ensures Push(LastN(history, cap), x, cap) == LastN(history + [x], cap)
  {
    LastNOfLastN(history, cap - 1, cap);
    LastNOfAppend(history, x, cap);
  }

  /** A shorter window of a window is the shorter window of the whole. */
  lemma LastNOfLastN<T>(s: seq<T>, j: nat, k: nat)
    requires 0 < j <= k
    ensures LastN(LastN(s, k), j) == LastN(s, j)
  {
    var w := LastN(s, k);
    var a, b := LastN(w, j), LastN(s, j);
    assert |a| == |b|;
    forall i | 0 <= i < |a|
      ensures a[i] == b[i]
    {
      assert a[i] == w[|w| - |a| + i] == s[|s| - |b| + i];
    }
  }

  /** The window of an extended history ends with the new element. */
  lemma LastNOfAppend<T>(s: seq<T>, x: T, k: nat)
    requires k > 1
    ensures LastN(s + [x], k) == LastN(s, k - 1) + [x]
  {
    var h := s + [x];
    var a, b := LastN(h, k), LastN(s, k - 1) + [x];
    assert |a| == |b|;
    forall i | 0 <= i < |a|
      ensures a[i] == b[i]
    {
      if i < |a| - 1 {
        assert a[i] == h[|h| - |a| + i] == s[|s| - (|b| - 1) + i];
      }
    }
  }

  /** `s.map(f)`. */
  function Project<T, U>(s: seq<T>, f: T -> U): (r: seq<U>)
    ensures |r| == |s|
    ensures forall k {:trigger r[k]} :: 0 <= k < |s| ==> r[k] == f(s[k])
  {
    seq(|s|, k requires 0 <= k < |s| => f(s[k]))
  }

  /** Projecting commutes with pushing. */
  lemma PushProject<T, U>(s: seq<T>, x: T, cap: nat, f: T -> U)
    requires cap > 1
    ensures Project(Push(s, x, cap), f) == Push(Project(s, f), f(x), cap)
  {
    var l := LastN(s, cap - 1);
    ProjectLastN(s, cap - 1, f);
    ProjectAppend(l, x, f);
  }

  lemma ProjectLastN<T, U>(s: seq<T>, k: nat, f: T -> U)
    requires k > 0
    ensures Project(LastN(s, k), f) == LastN(Project(s, f), k)
  {
    var a, b := Project(LastN(s, k), f), LastN(Project(s, f), k);
    forall i | 0 <= i < |a|
      ensures a[i] == b[i]
    {
      ProjectLastNAt(s, k, f, i);
    }
  }

  lemma ProjectLastNAt<T, U>(s: seq<T>, k: nat, f: T -> U, i: nat)
    requires 0 < k && i < k && i < |s|
    ensures |LastN(Project(s, f), k)| == |LastN(s, k)|
    ensures Project(LastN(s, k), f)[i] == LastN(Project(s, f), k)[i]
  {
    var l, p := LastN(s, k), Project(s, f);
    var d := |s| - |l|;
    assert l[i] == s[d + i];
    assert LastN(p, k)[i] == p[d + i];
  }

  lemma ProjectAppend<T, U>(s: seq<T>, x: T, f: T -> U)
    ensures Project(s + [x], f) == Project(s, f) + [f(x)]
  {
    var a, b := Project(s + [x], f), Project(s, f) + [f(x)];
    assert |a| == |b|;
    forall i | 0 <= i < |a|
      ensures a[i] == b[i]
    {
      if i < |s| {
        assert (s + [x])[i] == s[i];
      }
    }
  }

  /** Appending then trimming to `k` is the same as pushing into a window of `k`. */
  lemma TrimAfterAppendIsPush<T>(prev: seq<T>, x: T, k: nat)
    requires k > 1
    ensures TrimTo(prev + [x], k) == Push(prev, x, k)
  {
    var h := prev + [x];
    if |h| > k {
      assert h[|h| - k..] == prev[|prev| - (k - 1)..] + [x];
    }
  }

  lemma AppendAssoc<T>(a: seq<T>, b: seq<T>, c: seq<T>)
    ensures a + (b + c) == (a + b) + c
  {
  }
}
